=== FILE: README.md ===
# A verified model of the blog, memo, calculator and brick-game code

This project models, in Dafny, the core of a repository of small study
projects:

- the two Django blog apps, `blog` and `posts`;
- the Memo project, with its `memos` app, its sign-up form and its browser
  script;
- the URL helpers of `url_tool.py`;
- the C# `PrimeChecker` and `SimpleCalculator`;
- three canvas brick games.

Each piece becomes a module of datatypes and pure functions, and each module
proves the properties its code promises.

| module | file | what it models |
|---|---|---|
| `Optional`, `Seqs`, `Text` | optional.dfy, seqs.dfy, text.dfy | Shared helpers: option values, filter/sort/find on sequences, white space, `strip`, lower case, substring search |
| `Forms` | forms.dfy | Django field cleaning: a required stripped `CharField` with `max_length`, an unstripped password field, a choice field, error maps |
| `Access` | access.dfy | The requester, and the login-then-404-then-403 gate shared by every "author only" view |
| `Blog` | blog.dfy | `Blog/apps/blog`: upper-case visibility, `is_visible_to`, and views that list and show every post |
| `Posts` | posts.dfy | `Blog/apps/posts`: lower-case visibility, a list filtered by visibility and sortable by views, and a view counter |
| `Memos` | memos.dfy | `Memo/apps/memos`: memos private to their author, a category filter, minimum lengths for title and content |
| `Registration` | users.dfy | `Memo/apps/users/forms.py`: unique user name (at least 3 characters), unique e-mail address, password typed twice |
| `ClientScript` | client_form.dfy | `Memo/static/js/script.js`: the submit-time checks and the memo search |
| `UrlTool` | url_tool.dfy | `is_valid_url`, `format_url`, `shorten_url` |
| `PrimeChecker` | prime.dfy | Trial division up to the square root |
| `Calculator`, `Arith` | calculator.dfy, arith.dfy | 32-bit wrap-around arithmetic and division with a zero check |
| `Arcade` | arcade.dfy | Shared brick-game state: grids of standing bricks, their weighted worth, layout, keeping the paddle inside the canvas |
| `BrickBreaker` | brick_game.dfy | `Game/game.js` |
| `ShootingGame` | shooting_game.dfy | `Games/ShootingGame/game.js` |
| `Breakout` | breakout.dfy | `breakoutGame.js` |

**How the web views are modelled.**
- A table is a sequence of rows; the requester is a `Viewer`.
- A view returns a `Response`: the value, or a denial. The denials are a
  redirect to log in, 404, 403, and a form re-displayed with its errors.
- Timestamps, new primary keys and the current time are parameters.

**How the games are modelled.**
- Each game is a state record plus one function per handler.
- A `Step` function dispatches an input event; `Run` folds a sequence of
  events.
- The ball's floating-point flight is not modelled. What a frame of the
  animation loop can do becomes an event: a paddle step, a lost ball, or a
  brick hit at a given cell. In `breakoutGame.js` one event is a whole call
  of `draw`: the blocks the ball meets and whether it is lost, applied in the
  order the loop runs them.
- The central invariant is "score plus the worth of what still stands is
  constant". It gives the score bounds, and "the win test fires exactly when
  the grid is cleared".

## Model

| member | source | states |
|---|---|---|
| Forms.CharField | Memo/apps/memos/forms.py:5-10 | A required text field is stripped; it is rejected as required exactly when it is blank; a maximum length is enforced on the stripped value; a null character is refused; an accepted value is the non-empty stripped text |
| Forms.PasswordField | Memo/apps/users/forms.py:20-24 | A password field is not stripped: it accepts exactly a non-empty value free of null characters, unchanged, and is the required error exactly when empty |
| Forms.ChoiceField | Blog/apps/posts/models.py:17-22 | A choice field accepts exactly the non-empty values among its choices, unchanged; an empty value is the required error |
| Forms.MergedErrors | Memo/apps/memos/forms.py:28-40 | A form's error map holds an entry for exactly the fields that failed, each with that field's own error |
| Access.AuthorOnly | Memo/apps/memos/views.py:66-75 | The author-only gate allows exactly a logged-in requester who is the author of an existing row; anonymous gets the login redirect, a missing row 404, anyone else 403 |
| Text.TrimIsInnerSlice | Memo/apps/memos/forms.py:28-40 | A stripped value is a slice of the input with only white space cut from both ends, and it starts and ends with a non-space |
| Text.TrimEmptyIffBlank | Memo/apps/memos/forms.py:28-40 | Stripping leaves nothing exactly when the input is all white space |
| Text.IndexOf | Memo/static/js/script.js:142-147 | `indexOf` returns the first position where the query occurs, and -1 exactly when it occurs nowhere |
| Text.LowerIdempotent | Memo/static/js/script.js:142-147 | Lower-casing twice is lower-casing once |
| Text.LowerKeepsOccurrence | Memo/static/js/script.js:142-147 | An occurrence of the query survives lower-casing both sides |
| Seqs.Filter | Blog/apps/posts/views.py:22-29 | A query-set filter keeps only elements that pass, drawn from the input without duplication |
| Seqs.FilterMembers | Blog/apps/posts/views.py:22-29 | An element is in the filtered sequence exactly when it is in the input and passes |
| Seqs.FilterKeepsSorted | Memo/apps/memos/models.py:35 | Filtering keeps an ordered sequence ordered |
| Seqs.SortIsSorted | Blog/apps/posts/views.py:31-37 | Sorting by a total preorder yields an ordered permutation of the input |
| Seqs.SortOfSorted | Blog/apps/posts/views.py:31-37 | Sorting an ordered sequence changes nothing |
| Blog.Parse | Blog/apps/blog/models.py:9-12 | A stored visibility value denotes a choice exactly when it is `PUBLIC` or `PRIVATE` |
| Blog.CodeRoundTrip | Blog/apps/blog/models.py:9-12 | Every visibility choice is stored and read back unchanged |
| Blog.Label | Blog/apps/blog/models.py:36-37 | A post is displayed by its title |
| Blog.LowerCaseIsNotAChoice | Blog/apps/blog/models.py:9-12 | The lower-case spellings are not choices of this app |
| Blog.IsVisibleTo | Blog/apps/blog/models.py:42-54 | A public post is visible to everyone; a private one exactly to its logged-in author; an anonymous visitor sees exactly the public posts |
| Blog.EditorCanSee | Blog/apps/blog/models.py:42-54 | Whoever may edit or delete a post can see it |
| Blog.NewerFirstIsTotalPreorder | Blog/apps/blog/models.py:31-32 | `-created_at` is a total preorder |
| Blog.Lookup | Blog/apps/blog/views.py:16-20 | A key is found exactly when some row has it, and the position found holds that key |
| Blog.List | Blog/apps/blog/views.py:8-13 | The list holds every post, newest first, with no visibility filter |
| Blog.Detail | Blog/apps/blog/views.py:16-20 | The detail view shows the post with the key to anyone, and answers 404 exactly when no row has the key |
| Blog.DetailIgnoresVisibility | Blog/apps/blog/views.py:16-20 | A private post is shown to an anonymous visitor just as to its author |
| Blog.CleanPostForm | Blog/apps/blog/views.py:27 | The form accepts exactly a title and a content that both pass the text field's checks (non-blank, no null character, the title at most 200 characters), and yields them stripped |
| Blog.Create | Blog/apps/blog/views.py:23-32 | Creating needs a login; the post's author is the requester, its visibility the default `PUBLIC`, its title and content the cleaned form values |
| Blog.CreateIgnoresOtherFields | Blog/apps/blog/views.py:27 | A forged author or visibility field has no effect on the created post |
| Blog.Update | Blog/apps/blog/views.py:35-44 | Only the author may update; title, content and update time change; author, visibility and creation time stay; no other row changes |
| Blog.Delete | Blog/apps/blog/views.py:47-56 | Only the author may delete, and exactly that one row goes |
| Posts.Parse | Blog/apps/posts/models.py:9-12 | A stored visibility value denotes a choice exactly when it is one of `public` and `private` |
| Posts.CodeRoundTrip | Blog/apps/posts/models.py:9-12 | Every choice is stored as one of the choice values and read back unchanged |
| Posts.Label | Blog/apps/posts/models.py:31-32 | A post is displayed by its title |
| Posts.OrdersAreTotalPreorders | Blog/apps/posts/views.py:31-37 | Both list orders, `-created_at` and `-views, -created_at`, are total preorders |
| Posts.ListPage | Blog/apps/posts/views.py:18-44 | The list holds exactly the public posts plus the requester's own; an anonymous visitor sees only public posts; the posts are ordered by views when `sort=views` and newest first otherwise; the page echoes `sort`, defaulting to `date` |
| Posts.ListPageIdempotent | Blog/apps/posts/views.py:18-44 | Listing the listed posts again gives the same page |
| Posts.Lookup | Blog/apps/posts/views.py:53-66 | A key is found exactly when some row has it |
| Posts.Detail | Blog/apps/posts/views.py:53-66 | A missing key is 404; a private post fetched by anyone but its author is 403; otherwise the post is shown with its view counter one higher and its update time stamped by the save, and no other row changes |
| Posts.DetailAgreesWithList | Blog/apps/posts/views.py:53-66 | The detail view admits exactly the posts the list view shows the same requester |
| Posts.DetailRevealsPrivatePost | Blog/apps/posts/views.py:57-61 | As written, an anonymous visitor gets 403 for a private post but 404 for a missing key |
| Posts.DetailHidingPrivate | Blog/apps/posts/tests.py:38-42 | The corrected detail view answers every refusal with 404 and otherwise agrees with the original |
| Posts.HiddenLooksMissing | Blog/apps/posts/tests.py:51-56 | With the correction, a post hidden from the requester looks exactly like a key that does not exist |
| Posts.CleanPostForm | Blog/apps/posts/forms.py:30 | The form accepts exactly a valid title, a valid content and a visibility among the choices, and yields their cleaned values |
| Posts.Create | Blog/apps/posts/views.py:69-78 | Creating needs a login; the author is the requester; title, content and visibility come from the form; the counter starts at 0 |
| Posts.CreateIgnoresOtherFields | Blog/apps/posts/views.py:69-78 | A field outside the form, such as a forged author, has no effect |
| Posts.Update | Blog/apps/posts/views.py:86-95 | Only the author may update; title, content, visibility and update time change; author, counter and creation time stay; no other row changes |
| Posts.Delete | Blog/apps/posts/views.py:103-112 | Only the author may delete, and exactly that one row goes |
| Posts.EditorSeesPostInList | Blog/apps/posts/views.py:92-95 | A post its requester may edit or delete appears in that requester's list |
| Memos.Label | Memo/apps/memos/models.py:41-42 | The label is the title, then " - ", then the author's user name, each recoverable from it |
| Memos.RecentWindow | Memo/apps/memos/models.py:47-52 | A memo is recent from its creation for strictly less than one day, and never again after that |
| Memos.NewerFirstIsTotalPreorder | Memo/apps/memos/models.py:35 | `-created_at` is a total preorder |
| Memos.FilterFor | Memo/apps/memos/views.py:26-31 | `none` selects memos whose category is NULL; a known code selects that code; no value, an empty value or any other value selects every memo |
| Memos.Narrowed | Memo/apps/memos/views.py:21-33 | The query set holds exactly the requester's memos that pass the category filter, and narrows the unfiltered set |
| Memos.Listing | Memo/apps/memos/views.py:21-33 | The listing is the narrowed query set, newest first |
| Memos.ListingIsSubsequence | Memo/apps/memos/models.py:35 | On a table already in `-created_at` order, the listing is the filtered table itself |
| Memos.ListMemos | Memo/apps/memos/views.py:14-38 | Listing needs a login; the page holds the requester's memos narrowed by `category`; `current_category` defaults to `all` |
| Memos.ListShowsOnlyOwnMemos | Memo/apps/memos/views.py:23 | Nobody sees anyone else's memo, and a category narrows the unfiltered list |
| Memos.UnknownCategoryIsIgnored | Memo/apps/memos/views.py:27-31 | As written, an unrecognised category lists every memo of the requester |
| Memos.BlankCategoryIsNotUncategorised | Memo/apps/memos/views.py:28-29 | As written, `none` misses a memo saved with a blank category |
| Memos.FilterAsTested | Memo/apps/memos/tests.py:89-94 | The corrected filter lists nothing for exactly the non-empty values that are neither `none` nor a known code, and otherwise agrees with the original |
| Memos.ListMemosAsTested | Memo/apps/memos/tests.py:74-94 | The corrected list holds exactly the requester's memos that pass the corrected filter, where `none` admits NULL and blank categories, newest first |
| Memos.UnknownCategoryListsNothingAsTested | Memo/apps/memos/tests.py:89-94 | With the correction, an unrecognised category lists nothing |
| Memos.AsTestedRefinesAsWritten | Memo/apps/memos/views.py:30-31 | With the correction, a known category lists the same memos as before |
| Memos.BlankCategoryListedAsTested | Memo/apps/memos/tests.py:74-80 | With the correction, a memo with a blank category is listed under `none` |
| Memos.Lookup | Memo/apps/memos/views.py:41-50 | A key is found exactly when some row has it |
| Memos.Detail | Memo/apps/memos/views.py:41-50 | Only the author may read a memo; the memo shown has the requested key |
| Memos.DetailAgreesWithList | Memo/apps/memos/views.py:41-50 | Every memo the detail view shows is in its reader's unfiltered list |
| Memos.CleanTitle | Memo/apps/memos/forms.py:28-33 | The title is accepted exactly when the text field accepts it and the stripped value has between 2 and 200 characters; a valid field that is too short gets the minimum-length error |
| Memos.CleanContent | Memo/apps/memos/forms.py:35-40 | The content is accepted exactly when the stripped value is non-blank, holds no null character and has at least 5 characters; a blank one is the required error, and a value the text field accepts fails only on the minimum length |
| Memos.PaddingDoesNotCount | Memo/apps/memos/forms.py:28-40 | Surrounding spaces do not count towards the minimum lengths; a padded value is accepted exactly when its core has the right length and no null character |
| Memos.CleanMemoForm | Memo/apps/memos/forms.py:5-40 | The form is valid exactly when title and content both clean, and yields their cleaned values |
| Memos.MemoFormErrors | Memo/apps/memos/forms.py:28-40 | A rejected form reports an error for exactly the fields that failed, with each field's own error |
| Memos.Create | Memo/apps/memos/views.py:53-63 | Creating needs a login; the author is the requester; the memo gets the blank category `''`, the column default tests.py:24-31 expects, with title and content from the form, and is recent |
| Memos.CreatedMemoMissedByNone | Memo/apps/memos/views.py:26-31 | As written, `none` lists no memo created through the view; the corrected filter lists it |
| Memos.Update | Memo/apps/memos/views.py:66-79 | Only the author may update; exactly title, content and update time of that memo change; no other row changes |
| Memos.Delete | Memo/apps/memos/views.py:82-95 | Only the author may delete, and exactly that one row goes |
| Memos.DeleteRemovesFromList | Memo/apps/memos/views.py:82-95 | After a delete, the author's list no longer shows the memo |
| Registration.CheckUsername | Memo/apps/users/forms.py:53-60 | A user name is accepted exactly when it has at least 3 characters and no existing user has it; the length is checked first |
| Registration.ShortTakenReportsLength | Memo/apps/users/forms.py:53-60 | A name that is both short and taken reports its length |
| Registration.CheckEmail | Memo/apps/users/forms.py:46-51 | An address is accepted exactly when no existing user has it |
| Registration.CleanUsername | Memo/apps/users/forms.py:53-60 | The user name field accepts exactly a non-blank stripped name of at most 150 characters that `clean_username` accepts |
| Registration.CleanEmail | Memo/apps/users/forms.py:9-16 | The e-mail field accepts exactly a non-blank, well-formed address without null characters that no existing user has |
| Registration.CleanConfirmation | Memo/apps/users/forms.py:20-24 | The confirmation is accepted exactly when its field cleans, it equals the first password whenever that one cleans, and the password validators accept it; two accepted passwords that differ are reported as a mismatch |
| Registration.CleanRegistration | Memo/apps/users/forms.py:7-24 | A registration succeeds exactly when user name, e-mail address, password and confirmation all clean; it yields the cleaned name and address and the password, which then equals the confirmation and satisfies the validators; every error it reports belongs to one of the four fields, and a failed confirmation reports its own error |
| Registration.RegistrationErrors | Memo/apps/users/forms.py:20 | The error map holds entries only under the form's four field names, and a failed confirmation's error under `password2` |
| Registration.MismatchReported | Memo/apps/users/forms.py:20-24 | Two accepted passwords that differ fail the registration with the mismatch error on the confirmation |
| Registration.RegisteredNamesAreTaken | Memo/apps/users/forms.py:46-60 | Once a registration is stored, the same user name and address are refused to anyone else |
| ClientScript.EmailShapeIsPattern | Memo/static/js/script.js:48 | The direct check accepts exactly the strings the e-mail pattern matches |
| ClientScript.EmailPatternShape | Memo/static/js/script.js:48 | An address the pattern accepts has no white space, exactly one `@` that is not first, and a `.` with text on both sides after it |
| ClientScript.FirstInput | Memo/static/js/script.js:60-73 | The first input with a name is found exactly when one exists |
| ClientScript.CheckRequired | Memo/static/js/script.js:25-42 | The required pass succeeds exactly when no required field is blank after trimming |
| ClientScript.CheckEmails | Memo/static/js/script.js:44-58 | The e-mail pass succeeds exactly when every non-blank e-mail input matches the pattern |
| ClientScript.ValidateForm | Memo/static/js/script.js:20-73 | The handler's `isValid` is true exactly when all three checks pass |
| ClientScript.OnSubmit | Memo/static/js/script.js:75-92 | Submission is prevented exactly when the form fails a check; a submitted form has its button disabled |
| ClientScript.BlankEmailIsSkipped | Memo/static/js/script.js:44-58 | An e-mail input holding only white space skips the pattern check |
| ClientScript.AddressWithoutDotFails | Memo/static/js/script.js:48 | Any address with no `.` after an `@` fails the pattern |
| ClientScript.MismatchedPasswordsFail | Memo/static/js/script.js:60-73 | Any form whose first `password1` and `password2` inputs differ is invalid, whatever else it holds |
| ClientScript.LeadingPasswordsDecide | Memo/static/js/script.js:60-73 | With the two password inputs first, the confirmation check passes exactly when they are equal, whatever controls follow |
| ClientScript.ShowsIffContains | Memo/static/js/script.js:142-147 | A card shows exactly when the lower-cased query occurs in its lower-cased text; any occurrence before lower-casing shows it; case is ignored |
| ClientScript.EmptyQueryShowsAll | Memo/static/js/script.js:142-147 | An empty query shows every card |
| ClientScript.Search | Memo/static/js/script.js:142-147 | Every card's visibility is decided by whether it contains the query, ignoring case |
| UrlTool.SchemeLength | url_tool.py:8-11 | A URL starts with exactly one of `http://` and `https://`, or with neither |
| UrlTool.IsValidUrl | url_tool.py:4-12 | A valid URL has a scheme and at least two characters after it |
| UrlTool.ValidUrlHasPattern | url_tool.py:8-11 | A URL the direct check accepts matches the pattern, with `$` at the end or before a final newline |
| UrlTool.PatternHasValidUrl | url_tool.py:8-11 | A URL the pattern matches passes the direct check |
| UrlTool.IsValidUrlMatchesPattern | url_tool.py:4-12 | The direct check accepts exactly the strings `re.match` accepts with the pattern, including `$` before a final newline |
| UrlTool.ValidUrlShape | url_tool.py:8-11 | A valid URL has a scheme and two more characters; the first is a host character, the second not a newline; after them there is no white space except possibly one final newline |
| UrlTool.TrailingNewlineAccepted | url_tool.py:8-12 | As written, a URL ending in a newline is valid |
| UrlTool.SeparatorAfterHostRejected | url_tool.py:8-11 | `[^\s]` refuses Python's white space, information separators included: a URL ending in `\x1c` is invalid, the same URL ending in a letter valid |
| UrlTool.IsValidUrlStrict | url_tool.py:4-12 | The corrected check accepts only URLs with a scheme |
| UrlTool.StrictIsValidWithoutNewline | url_tool.py:4-12 | The corrected check is the original minus the strings ending in a newline, and it admits no white space after the host's first two characters |
| UrlTool.StrictRefusesTrailingNewline | url_tool.py:8-12 | The corrected check refuses the trailing-newline example and accepts the same URL without it |
| UrlTool.FormatUrl | url_tool.py:14-20 | The result always has a scheme and ends with the input; it is the input unchanged exactly when the input already had a scheme |
| UrlTool.FormatUrlIdempotent | url_tool.py:14-20 | Formatting twice is formatting once |
| UrlTool.FormattedHostIsValid | url_tool.py:4-20 | A bare host without white space, once formatted, passes the validity check |
| UrlTool.Head | url_tool.py:22-26 | Python's `url[:length]` is a prefix of the URL, counting a negative bound from the end |
| UrlTool.ShortenUrl | url_tool.py:22-26 | A URL within the length is kept; a longer one becomes its first `length` characters followed by `...` |
| UrlTool.ShortenUrlIdempotent | url_tool.py:22-26 | For a non-negative length, shortening a shortened URL changes nothing |
| UrlTool.ShortenDefaultBound | url_tool.py:22-26 | With the default length, a shortened URL has at most 23 characters |
| PrimeChecker.IsPrime | 3.Demo1.cs:8-16 | The result is true exactly when the number is prime |
| PrimeChecker.NoSmallDivisorMeansPrime | 3.Demo1.cs:11-14 | Checking the candidates up to the square root suffices |
| PrimeChecker.SmallDivisorMeansComposite | 3.Demo1.cs:11-14 | A divisor found by the loop proves the number composite |
| PrimeChecker.SmallPrimes | 3.Demo1.cs:8-16 | 2 and 3 are prime; no number at or below 1 is |
| PrimeChecker.EvenAboveTwoIsNotPrime | 3.Demo1.cs:11-14 | Every even number above 2 is composite |
| Calculator.Wrap | SimpleCalculator.cs:4-17 | A 32-bit result is the one `int` congruent to the exact result modulo 2^32, and equals it when it fits |
| Calculator.Add | SimpleCalculator.cs:4-7 | The sum is exact when it fits and wraps around otherwise |
| Calculator.Subtract | SimpleCalculator.cs:9-12 | The difference is exact when it fits and wraps around otherwise |
| Calculator.Multiply | SimpleCalculator.cs:14-17 | The product is exact when it fits and wraps around otherwise |
| Calculator.SubtractUndoesAdd | SimpleCalculator.cs:4-12 | Subtracting `b` undoes adding `b`, even across overflow |
| Calculator.CalculatorExamples | 2.SampleCaculatorTest.cs:16-101 | The integer cases the tests check hold: 5 + 3 = 8, -5 + -3 = -8, 10 - 4 = 6, 3 - 7 = -4, 6 * 7 = 42, and anything times zero is zero |
| Calculator.AddOverflowWraps | SimpleCalculator.cs:4-7 | `int.MaxValue + 1` wraps to `int.MinValue` |
| Calculator.Divide | SimpleCalculator.cs:19-26 | Division fails exactly for a zero denominator, with the source's message; otherwise the quotient times the denominator is the numerator |
| Calculator.DivideThenMultiply | SimpleCalculator.cs:19-26 | Multiplying the quotient back recovers the numerator, and the quotient is zero exactly when the numerator is |
| Arcade.Kill | Game/game.js:187-211 | Breaking a brick knocks out exactly that brick |
| Arcade.WeightedKill | Game/game.js:187-211 | Breaking a standing brick lowers what stands by its worth; a broken brick changes nothing |
| Arcade.WeightedZeroIffCleared | Game/game.js:214-223 | With every brick worth something, nothing is left to score exactly when no brick stands |
| Arcade.EdgesApart | Game/game.js:72-73 | The bricks of later columns (rows) start past the earlier ones plus their padding |
| Arcade.KeepInside | Game/game.js:126-136 | A clamped paddle position lies within the canvas, and a position already inside is kept |
| Arcade.KeepInsideNearest | Game/game.js:126-136 | The clamped position is the nearest position inside the canvas, and clamping twice is clamping once |
| BrickBreaker.BrickLayout | Game/game.js:40-48 | Bricks are two pixels apart; columns run from 5 to 801, rows from 60 to 190 |
| BrickBreaker.CreateBricks | Game/game.js:66-80 | Six rows of fourteen standing bricks, worth 336 points in all |
| BrickBreaker.Initial | Game/game.js:10-27 | The game loads with score 0, three lives, level 1, not playing, and the paddle inside the canvas |
| BrickBreaker.MovePaddle | Game/game.js:126-136 | While playing, the paddle steps by its speed and stays inside the canvas; nothing else changes |
| BrickBreaker.ResetBall | Game/game.js:226-232 | The ball is back on the paddle, unlaunched and motionless; nothing else changes |
| BrickBreaker.LoseBall | Game/game.js:174-183 | Losing the ball in flight costs a life; with none left play stops, otherwise the ball is reset; score and bricks stay |
| BrickBreaker.LevelComplete | Game/game.js:323-328 | Completing a level stops play and raises the level by one |
| BrickBreaker.HitBrick | Game/game.js:187-211 | A standing brick breaks, reverses the ball's vertical speed and scores its row's points; clearing the grid completes the level; nothing else changes; score plus what stands is unchanged |
| BrickBreaker.HitBrickOnce | Game/game.js:187-211 | A brick scores at most once |
| BrickBreaker.CheckLevelComplete | Game/game.js:214-223 | The scan reports completion exactly when no brick stands |
| BrickBreaker.CompleteIffNothingLeft | Game/game.js:214-223 | The level is complete exactly when nothing is left to score |
| BrickBreaker.KeyDown | Game/game.js:341-355 | The arrows and A/D set the paddle's step; the space bar launches the ball only while playing and before launch; other keys change nothing |
| BrickBreaker.LaunchOnce | Game/game.js:341-355 | A second space bar press keeps the first launch's velocity |
| BrickBreaker.KeyUp | Game/game.js:357-362 | Releasing a steering key stops the paddle; other keys change nothing |
| BrickBreaker.Start | Game/game.js:272-280 | Starting plays unpaused on a full grid; score, lives and level carry over |
| BrickBreaker.Pause | Game/game.js:283-289 | Pausing flips the pause flag and nothing else |
| BrickBreaker.PauseTwice | Game/game.js:283-289 | Pausing twice restores the game |
| BrickBreaker.Reset | Game/game.js:292-313 | Resetting gives score 0, three lives, level 1, no flags, a centred paddle, a reset ball and a full grid |
| BrickBreaker.ResetForgetsTheGame | Game/game.js:292-313 | A reset depends on nothing but the paddle's step, and resetting twice is resetting once |
| BrickBreaker.NextLevel | Game/game.js:331-338 | The next level resumes play on a full grid with the ball reset: unlaunched, with zero velocity; score, lives and level carry over |
| BrickBreaker.Step | Game/game.js:365-376 | Every event keeps the grid's shape and the paddle inside; an event that does not refill the grid never lowers the score and keeps score plus standing worth |
| BrickBreaker.RunKeepsWorth | Game/game.js:245-254 | Within a level, what has been scored is exactly what is no longer standing |
| BrickBreaker.LevelScoreBound | Game/game.js:272-280 | A started level yields at most 336 points, and all 336 exactly when it is cleared |
| ShootingGame.ColorsByRow | Games/ShootingGame/game.js:43-67 | Two bricks share a colour exactly when they share a row |
| ShootingGame.BrickLayout | Games/ShootingGame/game.js:94-115 | Bricks are five pixels apart; columns run from 15 to 480 |
| ShootingGame.CreateBricks | Games/ShootingGame/game.js:54-67 | Six rows of ten standing bricks, worth the winning score of 600 |
| ShootingGame.ResetBall | Games/ShootingGame/game.js:207-212 | The ball heads up at 3 pixels a frame, to the left or the right; nothing else changes |
| ShootingGame.MovePaddle | Games/ShootingGame/game.js:118-128 | While running, the paddle steps by its speed and stays inside the canvas |
| ShootingGame.MouseMove | Games/ShootingGame/game.js:323-336 | A pointer inside the canvas centres the paddle under it, kept inside; one outside changes nothing |
| ShootingGame.LoseBall | Games/ShootingGame/game.js:157-166 | Losing the ball costs a life; at exactly zero the game stops, otherwise the ball is reset; score and bricks stay |
| ShootingGame.HitBrick | Games/ShootingGame/game.js:170-194 | A standing brick breaks, reverses the ball's vertical speed and scores 10; reaching 600 stops the game; nothing else changes; score plus what stands stays 600 |
| ShootingGame.WinIffCleared | Games/ShootingGame/game.js:183-189 | The score is 600 exactly when no brick stands |
| ShootingGame.HitBrickOnce | Games/ShootingGame/game.js:170-194 | A brick scores at most once |
| ShootingGame.Start | Games/ShootingGame/game.js:237-245 | Starting runs a stopped game unpaused and leaves a running one alone |
| ShootingGame.StartOnce | Games/ShootingGame/game.js:237-245 | Starting twice is starting once |
| ShootingGame.Pause | Games/ShootingGame/game.js:248-255 | Pausing flips the pause flag and nothing else |
| ShootingGame.PauseTwice | Games/ShootingGame/game.js:248-255 | Pausing twice restores the game |
| ShootingGame.Reset | Games/ShootingGame/game.js:258-276 | Resetting stops the game with score 0, three lives, a full grid, a centred paddle and the ball reset to dy = -3 and dx = ±3 |
| ShootingGame.KeyDown | Games/ShootingGame/game.js:307-313 | The arrows set the paddle's step; other keys change nothing |
| ShootingGame.KeyUp | Games/ShootingGame/game.js:315-320 | Releasing an arrow stops the paddle; other keys change nothing |
| ShootingGame.Step | Games/ShootingGame/game.js:339-345 | Every event keeps the grid's shape and score plus standing worth at 600 |
| ShootingGame.ScoreBound | Games/ShootingGame/game.js:183-189 | After a reset, whatever happens, the score never passes 600, and it is 600 exactly when no brick stands |
| Breakout.InitialBlocks | breakoutGame.js:46-52 | Twelve columns of six standing blocks, worth 72 points |
| Breakout.BlockLayout | breakoutGame.js:187-194 | Blocks are five pixels apart; columns run from 30 to 805 |
| Breakout.Start | breakoutGame.js:126-131 | Starting starts only a game that is not started, not over and not won |
| Breakout.HitBlock | breakoutGame.js:134-159 | A standing block breaks, turns the ball back and scores one; a score of 72 wins and stops the game; a missing block changes nothing; score plus what stands stays 72 |
| Breakout.WonIffCleared | breakoutGame.js:151-154 | The score is 72 exactly when no block stands |
| Breakout.HitBlockOnce | breakoutGame.js:134-159 | A block scores at most once |
| Breakout.Collide | breakoutGame.js:134-159 | One pass of the loop adds at most one point per block met, keeps score plus what stands at 72, touches nothing but score, blocks, ball direction and the win flags, and a win it causes leaves the game stopped |
| Breakout.MissBall | breakoutGame.js:323-342 | A missed ball costs a life and stops the game; with none left the game is over; otherwise ball and paddle return home; score and blocks stay |
| Breakout.MissedBallWaits | breakoutGame.js:323-342 | After a miss the game is not playing, and a start resumes it exactly when a life was left |
| Breakout.MouseMove | breakoutGame.js:90-102 | A pointer inside the canvas centres the paddle under it, pulled back inside; one outside changes nothing |
| Breakout.MouseMoveKeepsInside | breakoutGame.js:96-100 | The handler's `else if` bounds check agrees with a plain clamp whenever the paddle fits the canvas |
| Breakout.Touch | breakoutGame.js:105-123 | A touch starts an unstarted game and otherwise moves the paddle like the mouse |
| Breakout.KeyDown | breakoutGame.js:71-79 | The arrows mark their key pressed; the space bar starts an unstarted game; other keys change nothing |
| Breakout.KeyUp | breakoutGame.js:81-87 | The arrows mark their key released; other keys change nothing |
| Breakout.KeyStepAsWritten | breakoutGame.js:345-349 | The paddle moves 8 pixels right when its left edge is short of `canvasWidth - 100`, else 8 left when it is right of 0, else stays; nothing else changes |
| Breakout.KeyStepOvershoots | breakoutGame.js:345-349 | As written, one step takes the paddle to 702 on an 800-pixel canvas, or to -2 |
| Breakout.RightStepsFromHome | breakoutGame.js:345-349 | Holding the right arrow from home moves the paddle 8 pixels a frame, and the 44th frame leaves the canvas |
| Breakout.KeyStep | breakoutGame.js:90-102 | The corrected step keeps the paddle inside the canvas |
| Breakout.KeyStepAgrees | breakoutGame.js:345-349 | The corrected step differs from the original exactly where the original leaves the canvas |
| Breakout.FrameAsWritten | breakoutGame.js:272-353 | A call of `draw` does nothing unless the game is playing; otherwise the score does not fall, a life is lost exactly when the ball is, and score plus what stands stays 72 |
| Breakout.Frame | breakoutGame.js:272-353 | The corrected frame does the same and leaves the paddle inside the canvas |
| Breakout.FrameAgrees | breakoutGame.js:272-353 | The corrected frame differs from the original exactly where the original's paddle leaves the canvas |
| Breakout.WinningFrameStillSteps | breakoutGame.js:272-353 | The frame that breaks the last block wins and stops the game, and its paddle still takes the keyboard step |
| Breakout.Reset | breakoutGame.js:242-269 | Resetting gives score 0, three lives, no flags, every block standing, and ball and paddle at home |
| Breakout.Click | breakoutGame.js:66 | A click starts a game that has not ended, and resets one that was lost or won |
| Breakout.ClickTwiceAfterEnd | breakoutGame.js:356-360 | After a loss or a win, the first click resets and the second starts |
| Breakout.Step | breakoutGame.js:61-68 | Every event, a call of `draw` as written included, keeps the grid's shape and score plus standing worth at 72, on a canvas of any width |
| Breakout.ScoreBound | breakoutGame.js:151-154 | After a reset, whatever the handlers and the as-written `draw` do, the score never passes 72, and it is 72 exactly when no block stands |

## Left out

- The Django framework itself is not modelled: URL routing, templates, messages, pagination (`paginate_by`), the ORM and database constraints. A table is a sequence of rows and a view is one function.
- Registration.CleanRegistration: Django's password validators (`AUTH_PASSWORD_VALIDATORS`) are a parameter `strong`, because they live in settings and framework code that is not part of this model. Hashing and saving the user are not modelled, nor is the user model's username character validator; only its 150-character limit is kept.
- Registration.CleanEmail: e-mail syntax (`EmailField`) is a parameter `wellFormed`, because Django's validator is not part of this model.
- Forms.CharField reports one error per field: a value both too long and holding a null character gets the length error, where Django lists both.
- Text.Lower lower-cases ASCII letters only. Unicode case mapping is not modelled.
- Calculator.Divide returns the exact rational quotient, not the rounded C# `double`, because floating point is not modelled. The tests in `2.SampleCaculatorTest.cs` expect a different message text than the source throws; the model follows the source.
- PrimeChecker.IsPrime bounds the loop by `i * i <= number`, not by `Math.Sqrt(number)` in floating point. The two agree for every `int`, but that rounding argument is not proved.
- Calculator.Add, Calculator.Subtract and Calculator.Multiply model C#'s unchecked 32-bit wrap-around explicitly, rather than assuming the result fits.
- Memos.ListMemos: the `category` column is added to the memo record, because the list view filters on it although the model file declares no such field.
- Posts.Detail: the `views` counter is added to the post record, because the views update it although the model file declares no such field. Requests are handled one at a time: `views += 1; save()` reads and writes back the counter, so two concurrent requests can lose an increment, and that is not modelled.
- Blog.Parse: the `blog` app's tests store lower-case visibility values through `Post.objects.create`, which does not check choices. `is_visible_to` (Blog/apps/blog/models.py:42-54) then treats a stored `public` as not `PUBLIC`, so only its author sees it. The model's visibility type holds only the two choices, so such rows are not modelled; Blog.LowerCaseIsNotAChoice records that they are not choices.
- Posts.Parse: the same holds for the `posts` app. A stored value other than `public` and `private` is listed for its author alone, since the list admits only `public`, but the detail view hides only `private`, so anyone may open it. The model does not hold such rows.
- Comments, the admin registrations, `url.py` and the Blog `users` app are outside this model.
- In script.js, the delete confirmation, hover effects, smooth scrolling, tooltips, loading overlay and back button are page effects, and are not modelled.
- In all three games:
  - The ball's floating-point flight, wall bounces, paddle bounces and the bounce angle are not modelled; a brick hit does reverse the vertical speed, as all three games do. A frame's effect appears as events: a paddle step, a lost ball, or a brick hit at a cell.
  - In `Game/game.js` and `Games/ShootingGame/game.js`, several bricks broken in one frame appear as several events.
  - Drawing, the DOM, overlays and alerts are not modelled.
  - `setTimeout`-deferred resets appear as a later reset event.
  - `requestAnimationFrame` is not modelled.
- BrickBreaker.HitBrick is not gated on `ballLaunched`. The waiting ball can only touch a brick through flight, which is not modelled.
- BrickBreaker.KeyDown takes the launch velocity as parameters, because `Math.random` picks the angle.
- BrickBreaker.LevelComplete: the ball speed increase on level completion is not modelled, because ball physics is out of scope.
- ShootingGame.ResetBall takes the coin toss for the horizontal direction as a parameter, because `Math.random` decides it.
- ShootingGame.Start allows starting a game with zero lives, as the source does; what the ball then does is not modelled.
- ShootingGame.MouseMove and the other games' canvas-width parameters: `canvas.width` comes from the page, so it is a parameter. ShootingGame and Breakout's corrected step require it to be at least the paddle's width; Breakout's as-written events do not. BrickBreaker uses its fixed 800.
- Breakout.FrameAsWritten: which blocks the ball meets and whether it is lost are given by the caller, because they follow from the ball's flight. The model lets a frame both hit blocks and lose the ball, as the code allows.

## Findings

| source | as written | input that shows it | evidently intended | confidence | as-written member | corrected member |
|---|---|---|---|---|---|---|
| Blog/apps/posts/views.py:57-61 | A private post fetched by a non-author is refused with 403, so the response reveals that the post exists | An anonymous GET of a private post's key gets 403, while a missing key gets 404 (Blog/apps/posts/tests.py:38-42 and 51-56 expect 404) | Answer 404, so a hidden post is indistinguishable from a missing one | not executed | Posts.Detail | Posts.DetailHidingPrivate |
| Memo/apps/memos/views.py:26-31 | An unrecognised category leaves the list unfiltered, and `none` matches only NULL categories | `?category=invalid` lists every memo; a memo saved with category `''`, which is every memo created through the view, is missing under `none` (Memo/apps/memos/tests.py:74-80 and 89-94 expect the opposite) | An unknown category lists nothing, and `none` also lists blank categories | not executed | Memos.ListMemos | Memos.ListMemosAsTested |
| url_tool.py:8-12 | `re.match` with `$` also matches before a final newline | `is_valid_url("http://ab\n")` is true | Reject any white space after the host, as `re.fullmatch` or `\Z` would | not executed | UrlTool.IsValidUrl | UrlTool.IsValidUrlStrict |
| breakoutGame.js:345-349 | The keyboard step tests the paddle's position before moving it 8 pixels, so the last step can leave the canvas | On an 800-pixel canvas, holding the right arrow from the start at 350 reaches 702, past the 700 limit; from 6 the left arrow reaches -2 | Keep the paddle inside, as the mouse handler does | not executed | Breakout.KeyStepAsWritten | Breakout.KeyStep |

=== FILE: access.dfy ===
/** Who is asking, and the access rule every "edit your own item" view in the
    repository shares: log in first, then the item must exist, then the
    requester must be its author. */
module Access {
  import opened Optional
  import opened Forms

  type UserId = nat

  /** A registered user (`django.contrib.auth.models.User`). */
  datatype Account = Account(id: UserId, username: string, email: string)

  /** The requester: anonymous, or a logged-in user. */
  datatype Viewer = Anonymous | User(account: Account)

  /** The requester is logged in and is the user with id `author`; Django
      compares model instances by primary key. */
  predicate IsAuthor(viewer: Viewer, author: UserId) {
    viewer.User? && viewer.account.id == author
  }

  /** Why a request is turned away: a redirect to the login page, a 404, a
      403, or a form re-displayed with its errors. */
  datatype Denial =
    | LoginRequired
    | NotFound
    | Forbidden
    | InvalidForm(errors: Errors)

  datatype Response<T> = Ok(value: T) | Err(denial: Denial)

  datatype Decision = Allow | Deny(denial: Denial)

  /** `LoginRequiredMixin` followed by `UserPassesTestMixin` whose `test_func`
      fetches the object (`get_object`, a 404 when `author` is `None`, i.e. no
      row has the requested key) and compares the requester with its author
      (a 403 when they differ). */
  function AuthorOnly(viewer: Viewer, author: Option<UserId>): (d: Decision)
    ensures d == Allow <==> author.Some? && IsAuthor(viewer, author.value)
    ensures viewer.Anonymous? ==> d == Deny(LoginRequired)
    ensures viewer.User? && author.None? ==> d == Deny(NotFound)
    ensures viewer.User? && author.Some? && !IsAuthor(viewer, author.value) ==> d == Deny(Forbidden)
  {
    if viewer.Anonymous? then Deny(LoginRequired)
    else if author.None? then Deny(NotFound)
    else if viewer.account.id == author.value then Allow
    else Deny(Forbidden)
  }
}

=== FILE: arcade.dfy ===
/** What the three brick-breaking browser games share: a rectangular grid of
    bricks that are standing or broken, the score still standing in it, the
    layout of the bricks on the canvas, and the paddle kept inside the
    canvas. */
module Arcade {
  import opened Arith

  /** `g[i][j]` holds when the brick in line `i`, place `j` still stands (its
      `status` is 1). */
  type Grid = seq<seq<bool>>

  /** `lines` lines of `places` bricks each. */
  predicate Shaped(g: Grid, lines: nat, places: nat) {
    |g| == lines && forall i :: 0 <= i < lines ==> |g[i]| == places
  }

  /** A fresh grid: every brick standing. */
  function Full(lines: nat, places: nat): (g: Grid)
    ensures Shaped(g, lines, places)
    ensures forall i, j :: 0 <= i < lines && 0 <= j < places ==> g[i][j]
  {
    seq(lines, _ => seq(places, _ => true))
  }

  predicate IsLive(g: Grid, i: int, j: int) {
    0 <= i < |g| && 0 <= j < |g[i]| && g[i][j]
  }

  /** No brick is standing. */
  predicate Cleared(g: Grid) {
    forall i, j :: 0 <= i < |g| && 0 <= j < |g[i]| ==> !g[i][j]
  }

  /** Breaking the brick at `(i, j)` (setting its `status` to 0); a position
      outside the grid changes nothing. */
  function Kill(g: Grid, i: int, j: int): (h: Grid)
    ensures |h| == |g| && forall k :: 0 <= k < |g| ==> |h[k]| == |g[k]|
    ensures !IsLive(h, i, j)
    ensures forall k, l :: (k, l) != (i, j) ==> IsLive(h, k, l) == IsLive(g, k, l)
  {
    if 0 <= i < |g| && 0 <= j < |g[i]| then g[i := g[i][j := false]] else g
  }

  /** Breaking keeps the grid's shape. */
  lemma KillKeepsShape(g: Grid, lines: nat, places: nat, i: int, j: int)
    requires Shaped(g, lines, places)
    ensures Shaped(Kill(g, i, j), lines, places)
  {
  }

  /** The standing bricks of one line. */
  function Count(line: seq<bool>): (n: nat)
    ensures n <= |line|
    ensures n == 0 <==> forall j :: 0 <= j < |line| ==> !line[j]
    ensures (forall j :: 0 <= j < |line| ==> line[j]) ==> n == |line|
  {
    if line == [] then 0 else (if line[0] then 1 else 0) + Count(line[1..])
  }

  /** Breaking a standing brick lowers its line's count by exactly one. */
  lemma {:induction false} CountKill(line: seq<bool>, j: nat)
    requires j < |line| && line[j]
    ensures Count(line[j := false]) + 1 == Count(line)
  {
    if j > 0 {
      assert line[j := false][1..] == line[1..][j - 1 := false];
      CountKill(line[1..], j - 1);
    } else {
      assert line[j := false][1..] == line[1..];
    }
  }

  function Sum(w: seq<nat>): nat {
    if w == [] then 0 else w[0] + Sum(w[1..])
  }

  /** `n` copies of `v`. */
  function Uniform(n: nat, v: nat): (w: seq<nat>)
    ensures |w| == n && forall i :: 0 <= i < n ==> w[i] == v
  {
    seq(n, _ => v)
  }

  lemma {:induction false} SumUniform(n: nat, v: nat)
    ensures Sum(Uniform(n, v)) == n * v
  {
    if n > 0 {
      assert Uniform(n, v)[1..] == Uniform(n - 1, v);
      SumUniform(n - 1, v);
    }
  }

  /** The points still standing when each brick of line `i` is worth
      `w[i]`. */
  function Weighted(g: Grid, w: seq<nat>): nat
    requires |w| == |g|
  {
    if g == [] then 0 else w[0] * Count(g[0]) + Weighted(g[1..], w[1..])
  }

  /** Breaking a standing brick removes exactly its worth. */
  lemma {:induction false} WeightedKillLive(g: Grid, w: seq<nat>, i: nat, j: nat)
    requires |w| == |g| && IsLive(g, i, j)
    ensures Weighted(Kill(g, i, j), w) + w[i] == Weighted(g, w)
  {
    var h := g[i := g[i][j := false]];
    assert Kill(g, i, j) == h;
    if i == 0 {
      assert h[1..] == g[1..];
      CountKill(g[0], j);
      MulSucc(w[0], Count(h[0]));
    } else {
      assert h[1..] == g[1..][i - 1 := g[1..][i - 1][j := false]];
      WeightedKillLive(g[1..], w[1..], i - 1, j);
    }
  }

  lemma MulSucc(a: int, c: int)
    ensures a * (c + 1) == a * c + a
  {
  }

  /** Breaking removes the worth of the brick if it stood, and nothing
      otherwise. */
  lemma WeightedKill(g: Grid, w: seq<nat>, i: int, j: int)
    requires |w| == |g|
    ensures Weighted(Kill(g, i, j), w) + (if IsLive(g, i, j) then w[i] else 0) == Weighted(g, w)
  {
    if IsLive(g, i, j) {
      WeightedKillLive(g, w, i, j);
    } else if 0 <= i < |g| && 0 <= j < |g[i]| {
      assert g[i][j := false] == g[i];
      assert Kill(g, i, j) == g;
    }
  }

  /** A fresh grid is worth `places` times the worth of one brick from each
      line. */
  lemma {:induction false} WeightedFull(lines: nat, places: nat, w: seq<nat>)
    requires |w| == lines
    ensures Weighted(Full(lines, places), w) == places * Sum(w)
  {
    if lines > 0 {
      var g := Full(lines, places);
      assert g[1..] == Full(lines - 1, places);
      assert Count(g[0]) == places;
      WeightedFull(lines - 1, places, w[1..]);
      MulAdd(places, w[0], Sum(w[1..]));
    }
  }

  lemma MulAdd(a: int, b: int, c: int)
    ensures a * (b + c) == b * a + a * c
  {
  }

  /** When every brick is worth something, nothing is left to score exactly
      when no brick stands. */
  lemma {:induction false} WeightedZeroIffCleared(g: Grid, w: seq<nat>)
    requires |w| == |g| && forall i :: 0 <= i < |w| ==> w[i] > 0
    ensures Weighted(g, w) == 0 <==> Cleared(g)
  {
    if g != [] {
      WeightedZeroIffCleared(g[1..], w[1..]);
      if Weighted(g, w) == 0 {
        assert Count(g[0]) == 0 by {
          if Count(g[0]) > 0 {
            MulMonotone(1, w[0], 1, Count(g[0]));
          }
        }
        forall i, j | 0 <= i < |g| && 0 <= j < |g[i]| ensures !g[i][j] {
          if i > 0 {
            assert g[i] == g[1..][i - 1];
          }
        }
      }
      if Cleared(g) {
        assert forall j :: 0 <= j < |g[0]| ==> !g[0][j];
        forall i, j | 0 <= i < |g[1..]| && 0 <= j < |g[1..][i]| ensures !g[1..][i][j] {
          assert g[1..][i] == g[i + 1];
        }
      }
    }
  }

  /** The canvas position of the brick at `index` along one axis: bricks of
      `size` with `gap` between them, the first at `offset`. */
  function Edge(index: nat, size: nat, gap: nat, offset: int): int {
    index * (size + gap) + offset
  }

  /** A brick ends at least `gap` before the next one along the same axis
      begins, so bricks never overlap. */
  lemma EdgesApart(i: nat, k: nat, size: nat, gap: nat, offset: int)
    requires i < k
    ensures Edge(i, size, gap, offset) + size + gap <= Edge(k, size, gap, offset)
  {
    MulMonotone(size + gap, size + gap, 1, k - i);
    assert k * (size + gap) == i * (size + gap) + (k - i) * (size + gap);
  }

  /** `paddle.x` after the two bounds checks of the paddle handlers: below
      zero becomes zero, then sticking out on the right is pulled back. */
  function KeepInside(x: real, paddleWidth: real, canvasWidth: real): (r: real)
    ensures paddleWidth <= canvasWidth ==> 0.0 <= r <= canvasWidth - paddleWidth
    ensures 0.0 <= x <= canvasWidth - paddleWidth ==> r == x
  {
    var left := if x < 0.0 then 0.0 else x;
    if left + paddleWidth > canvasWidth then canvasWidth - paddleWidth else left
  }

  /** The kept position is the allowed position nearest the requested one,
      and keeping twice is keeping once. */
  lemma KeepInsideNearest(x: real, paddleWidth: real, canvasWidth: real, y: real)
    requires paddleWidth <= canvasWidth && 0.0 <= y <= canvasWidth - paddleWidth
    ensures var r := KeepInside(x, paddleWidth, canvasWidth);
            (if r >= x then r - x else x - r) <= (if y >= x then y - x else x - y)
    ensures KeepInside(KeepInside(x, paddleWidth, canvasWidth), paddleWidth, canvasWidth)
              == KeepInside(x, paddleWidth, canvasWidth)
  {
  }
}

=== FILE: arith.dfy ===
/** Facts about integer products and Euclidean remainders that the prime
    checker and the 32-bit calculator share. */
module Arith {

  /** Products of non-negative numbers grow with their factors. */
  lemma MulMonotone(a: int, b: int, c: int, d: int)
    requires 0 <= a <= b && 0 <= c <= d
    ensures a * c <= b * d
  {
    assert a * c <= b * c;
    assert b * c <= b * d;
  }

  /** An exact multiple leaves no remainder: Euclidean division is unique. */
  lemma MultipleMod(x: int, m: int, k: int)
    requires m > 0 && x == m * k
    ensures x % m == 0
  {
    var t := x / m;
    assert m * (k - t) == x % m by {
      assert m * (k - t) == m * k - m * t;
    }
    if k - t >= 1 {
      MulMonotone(m, m, 1, k - t);
    } else if k - t <= -1 {
      MulMonotone(m, m, 1, t - k);
    }
  }

  /** Adding a multiple of `m` does not change the remainder. */
  lemma ModAddMultiple(a: int, k: int, m: int)
    requires m > 0
    ensures (a + m * k) % m == a % m
  {
    var x := a + m * k;
    var t := x / m - a / m - k;
    assert m * t == a % m - x % m by {
      assert m * t == m * (x / m) - m * (a / m) - m * k;
    }
    if t >= 1 {
      MulMonotone(m, m, 1, t);
    } else if t <= -1 {
      MulMonotone(m, m, 1, -t);
    }
  }
}

=== FILE: blog.dfy ===
/** The `blog` app of the Blog project: posts with an upper-case visibility
    choice and an `is_visible_to` rule, whose views (unlike the `posts` app)
    list and show every post and let authors edit only title and content. */
module Blog {
  import opened Optional
  import opened Seqs
  import opened Text
  import opened Forms
  import opened Access

  datatype Visibility = Public | Private

  /** The value stored in the `visibility` column. */
  function Code(v: Visibility): string {
    match v
    case Public => "PUBLIC"
    case Private => "PRIVATE"
  }

  /** The choice a stored value denotes; the choices are case-sensitive. */
  function Parse(s: string): (r: Option<Visibility>)
    ensures r.Some? ==> Code(r.value) == s
    ensures r.None? ==> s != Code(Public) && s != Code(Private)
  {
    if s == "PUBLIC" then Some(Public)
    else if s == "PRIVATE" then Some(Private)
    else None
  }

  /** Every stored value reads back as the choice it came from. */
  lemma CodeRoundTrip(v: Visibility)
    ensures Parse(Code(v)) == Some(v)
  {
  }

  /** The lower-case spellings are not choices of this model. */
  lemma LowerCaseIsNotAChoice()
    ensures Parse("public") == None && Parse("private") == None
  {
  }

  const DefaultVisibility: Visibility := Public

  type PostId = nat

  /** A post; `createdAt` and `updatedAt` are server timestamps. */
  datatype Post = Post(
    id: PostId,
    title: string,
    content: string,
    author: UserId,
    visibility: Visibility,
    createdAt: int,
    updatedAt: int)

  /** What `__str__` displays. */
  function Label(p: Post): (r: string)
    ensures r == p.title
  {
    p.title
  }

  /** `Post.is_visible_to`: a public post is visible to everyone, a private
      one only to its logged-in author. */
  function IsVisibleTo(p: Post, viewer: Viewer): (visible: bool)
    ensures p.visibility == Public ==> visible
    ensures p.visibility == Private ==> (visible <==> viewer.User? && viewer.account.id == p.author)
    ensures viewer.Anonymous? ==> (visible <==> p.visibility == Public)
    ensures IsAuthor(viewer, p.author) ==> visible
  {
    if p.visibility == Public then true
    else viewer.User? && viewer.account.id == p.author
  }

  /** Anyone allowed to edit or delete a post can also see it. */
  lemma EditorCanSee(p: Post, viewer: Viewer)
    requires AuthorOnly(viewer, Some(p.author)) == Allow
    ensures IsVisibleTo(p, viewer)
  {
  }

  /** The default ordering, `-created_at`: newer posts first. */
  predicate NewerFirst(a: Post, b: Post) {
    a.createdAt >= b.createdAt
  }

  lemma NewerFirstIsTotalPreorder()
    ensures TotalPreorder(NewerFirst)
  {
  }

  function HasId(pk: PostId): Post -> bool {
    (p: Post) => p.id == pk
  }

  /** The position of the row with primary key `pk`. */
  function Lookup(store: seq<Post>, pk: PostId): (r: Option<nat>)
    ensures r.Some? ==> r.value < |store| && store[r.value].id == pk
    ensures r.None? <==> forall k :: 0 <= k < |store| ==> store[k].id != pk
  {
    Find(store, HasId(pk))
  }

  /** The author of the row with key `pk`, if there is such a row. */
  function AuthorAt(store: seq<Post>, pk: PostId): Option<UserId> {
    match Lookup(store, pk)
    case None => None
    case Some(i) => Some(store[i].author)
  }

  /** The list view: every post, newest first; no visibility filter. */
  function List(store: seq<Post>): (r: seq<Post>)
    ensures multiset(r) == multiset(store)
    ensures Sorted(r, NewerFirst)
  {
    NewerFirstIsTotalPreorder();
    SortIsSorted(store, NewerFirst);
    Sort(store, NewerFirst)
  }

  /** The detail view: the post with key `pk`, whoever asks; a 404 only when
      there is no such post. */
  function Detail(store: seq<Post>, viewer: Viewer, pk: PostId): (r: Response<Post>)
    ensures r.Ok? <==> exists k :: 0 <= k < |store| && store[k].id == pk
    ensures r.Ok? ==> r.value in store && r.value.id == pk
    ensures r.Err? ==> r.denial == NotFound
  {
    match Lookup(store, pk)
    case None => Err(NotFound)
    case Some(i) => Ok(store[i])
  }

  /** A private post is shown even to an anonymous visitor. */
  lemma DetailIgnoresVisibility(store: seq<Post>, viewer: Viewer, pk: PostId)
    requires Lookup(store, pk).Some?
    ensures Detail(store, viewer, pk) == Ok(store[Lookup(store, pk).value])
    ensures Detail(store, viewer, pk) == Detail(store, Anonymous, pk)
  {
  }

  /** The title and content the create and update forms accept. */
  function CleanPostForm(data: FormData): (r: Response<(string, string)>)
    ensures r.Ok? <==> CharField(data, "title", Some(200)).Accept? && CharField(data, "content", None).Accept?
    ensures r.Ok? ==> r.value == (Trim(Raw(data, "title"), Python), Trim(Raw(data, "content"), Python))
    ensures r.Err? ==> r.denial.InvalidForm?
  {
    var title := CharField(data, "title", Some(200));
    var content := CharField(data, "content", None);
    if title.Accept? && content.Accept? then Ok((title.value, content.value))
    else Err(InvalidForm(ErrorOf("title", title) + ErrorOf("content", content)))
  }

  /** The create view: login required; the author is the requester and the
      visibility, not being a form field, takes its default. */
  function Create(viewer: Viewer, data: FormData, id: PostId, now: int): (r: Response<Post>)
    ensures viewer.Anonymous? ==> r == Err(LoginRequired)
    ensures r.Ok? <==> viewer.User? && CleanPostForm(data).Ok?
    ensures r.Ok? ==> r.value.author == viewer.account.id
    ensures r.Ok? ==> r.value.visibility == Public
    ensures r.Ok? ==> (r.value.title, r.value.content) == CleanPostForm(data).value
    ensures r.Ok? ==> r.value.createdAt == now && r.value.updatedAt == now
  {
    if viewer.Anonymous? then Err(LoginRequired)
    else match CleanPostForm(data)
      case Err(d) => Err(d)
      case Ok((title, content)) =>
        Ok(Post(id, title, content, viewer.account.id, DefaultVisibility, now, now))
  }

  /** Submitted fields other than title and content, a forged `author` or
      `visibility` among them, have no effect on a created post. */
  lemma {:induction false} CreateIgnoresOtherFields(viewer: Viewer, data: FormData, key: string, value: string, id: PostId, now: int)
    requires key != "title" && key != "content"
    ensures Create(viewer, data[key := value], id, now) == Create(viewer, data, id, now)
  {
    assert Raw(data[key := value], "title") == Raw(data, "title");
    assert Raw(data[key := value], "content") == Raw(data, "content");
  }

  /** The update view: only the author may change title and content; author,
      visibility and creation time stay, and no other post changes. */
  function Update(store: seq<Post>, viewer: Viewer, pk: PostId, data: FormData, now: int): (r: Response<seq<Post>>)
    ensures AuthorOnly(viewer, AuthorAt(store, pk)).Deny? ==> r == Err(AuthorOnly(viewer, AuthorAt(store, pk)).denial)
    ensures r.Ok? <==> AuthorOnly(viewer, AuthorAt(store, pk)) == Allow && CleanPostForm(data).Ok?
    ensures r.Ok? ==>
              var i := Lookup(store, pk).value;
              && |r.value| == |store|
              && IsAuthor(viewer, store[i].author)
              && r.value[i].id == pk
              && r.value[i].author == store[i].author
              && r.value[i].visibility == store[i].visibility
              && r.value[i].createdAt == store[i].createdAt
              && (r.value[i].title, r.value[i].content) == CleanPostForm(data).value
              && r.value[i].updatedAt == now
              && (forall k :: 0 <= k < |store| && k != i ==> r.value[k] == store[k])
  {
    match AuthorOnly(viewer, AuthorAt(store, pk))
    case Deny(d) => Err(d)
    case Allow =>
      var i := Lookup(store, pk).value;
      match CleanPostForm(data)
      case Err(d) => Err(d)
      case Ok((title, content)) =>
        Ok(store[i := store[i].(title := title, content := content, updatedAt := now)])
  }

  /** The delete view: only the author may delete, and only that post goes. */
  function Delete(store: seq<Post>, viewer: Viewer, pk: PostId): (r: Response<seq<Post>>)
    ensures AuthorOnly(viewer, AuthorAt(store, pk)).Deny? ==> r == Err(AuthorOnly(viewer, AuthorAt(store, pk)).denial)
    ensures r.Ok? <==> AuthorOnly(viewer, AuthorAt(store, pk)) == Allow
    ensures r.Ok? ==>
              var i := Lookup(store, pk).value;
              && IsAuthor(viewer, store[i].author)
              && multiset(r.value) + multiset{store[i]} == multiset(store)
  {
    match AuthorOnly(viewer, AuthorAt(store, pk))
    case Deny(d) => Err(d)
    case Allow =>
      var i := Lookup(store, pk).value;
      assert store == store[..i] + [store[i]] + store[i + 1..];
      Ok(RemoveAt(store, i))
  }
}

=== FILE: breakout.dfy ===
/** The block breaker of `breakoutGame.js`: twelve columns of six blocks
    worth one point each, three lives, a game started by a click, a touch or
    the space bar, and a paddle steered by the arrow keys, the mouse or a
    touch. The blocks are stored column first (`blocks[c][r]`). The canvas
    width comes from the page, so it is a parameter here. The ball's flight
    is replaced by the events it causes. */
module Breakout {
  import opened Arcade

  const PaddleWidth: real := 100.0
  const PaddleSpeed: real := 8.0

  const BlockRows: nat := 6
  const BlockColumns: nat := 12
  const BlockWidth: nat := 60
  const BlockHeight: nat := 25
  const BlockPadding: nat := 5
  const BlockOffsetTop: int := 50
  const BlockOffsetLeft: int := 30

  /** The score that wins: `blockRows * blockColumns`. */
  const AllBlocks: int := BlockRows * BlockColumns

  const StartLives: int := 3

  /** The game variables, the pressed arrow keys, the paddle, the ball's
      velocity and the blocks. */
  datatype State = State(
    score: int, lives: int, gameOver: bool, gameWon: bool, gameStarted: bool,
    rightPressed: bool, leftPressed: bool,
    paddleX: real, ballSpeedX: real, ballSpeedY: real,
    blocks: Grid)

  /** Every column's blocks are worth one point each. */
  function Worth(): (w: seq<nat>)
    ensures |w| == BlockColumns && forall i :: 0 <= i < BlockColumns ==> w[i] == 1
  {
    Uniform(BlockColumns, 1)
  }

  /** The block array built at load: twelve columns of six standing
      blocks. */
  function InitialBlocks(): (g: Grid)
    ensures Shaped(g, BlockColumns, BlockRows)
    ensures forall c, r :: 0 <= c < BlockColumns && 0 <= r < BlockRows ==> IsLive(g, c, r)
    ensures Weighted(g, Worth()) == AllBlocks
  {
    WeightedFull(BlockColumns, BlockRows, Worth());
    SumUniform(BlockColumns, 1);
    Full(BlockColumns, BlockRows)
  }

  /** Where `drawBlocks` places a standing block. */
  function BlockX(c: nat): int {
    Edge(c, BlockWidth, BlockPadding, BlockOffsetLeft)
  }

  function BlockY(r: nat): int {
    Edge(r, BlockHeight, BlockPadding, BlockOffsetTop)
  }

  /** Neighbouring blocks are five pixels apart in both directions. */
  lemma BlockLayout(c: nat, c': nat, r: nat, r': nat)
    requires c < c' && r < r'
    ensures BlockX(c) + BlockWidth + BlockPadding <= BlockX(c')
    ensures BlockY(r) + BlockHeight + BlockPadding <= BlockY(r')
    ensures BlockX(0) == 30 && BlockX(BlockColumns - 1) + BlockWidth == 805
  {
    EdgesApart(c, c', BlockWidth, BlockPadding, BlockOffsetLeft);
    EdgesApart(r, r', BlockHeight, BlockPadding, BlockOffsetTop);
  }

  /** The grid keeps its shape, and what has been scored plus what still
      stands is 72. */
  predicate Consistent(s: State) {
    Shaped(s.blocks, BlockColumns, BlockRows) && s.score + Weighted(s.blocks, Worth()) == AllBlocks
  }

  /** `draw` stops before any collision or movement unless the game is
      started and neither lost nor won. */
  predicate Playing(s: State) {
    s.gameStarted && !s.gameOver && !s.gameWon
  }

  /** `startGame`: starts only a game that is not started, not over and not
      won. */
  function Start(s: State): (t: State)
    ensures !s.gameStarted && !s.gameOver && !s.gameWon ==> t == s.(gameStarted := true)
    ensures s.gameStarted || s.gameOver || s.gameWon ==> t == s
  {
    if !s.gameStarted && !s.gameOver && !s.gameWon then s.(gameStarted := true) else s
  }

  /** One block of `collisionDetection` met by the ball: a standing block
      breaks, turns the ball back and scores one, and a score of 72 wins and
      stops the game. The loop does not look at the game flags again, so
      this holds within a frame whatever they became earlier in it. */
  function HitBlock(s: State, c: int, r: int): (t: State)
    requires Consistent(s)
    ensures Consistent(t)
    ensures !IsLive(s.blocks, c, r) ==> t == s
    ensures IsLive(s.blocks, c, r) ==>
              && t.blocks == Kill(s.blocks, c, r)
              && t.score == s.score + 1
              && t.ballSpeedY == -s.ballSpeedY
              && (t.score == AllBlocks ==> t.gameWon && !t.gameStarted)
              && (t.score != AllBlocks ==> t.gameWon == s.gameWon && t.gameStarted == s.gameStarted)
              && t.(score := s.score, blocks := s.blocks, ballSpeedY := s.ballSpeedY,
                    gameWon := s.gameWon, gameStarted := s.gameStarted) == s
  {
    WeightedKill(s.blocks, Worth(), c, r);
    KillKeepsShape(s.blocks, BlockColumns, BlockRows, c, r);
    if !IsLive(s.blocks, c, r) then s
    else
      var t := s.(blocks := Kill(s.blocks, c, r), score := s.score + 1, ballSpeedY := -s.ballSpeedY);
      if t.score == AllBlocks then t.(gameWon := true, gameStarted := false) else t
  }

  /** The score test fires exactly when the last block breaks. */
  lemma WonIffCleared(s: State)
    requires Consistent(s)
    ensures s.score == AllBlocks <==> Cleared(s.blocks)
  {
    WeightedZeroIffCleared(s.blocks, Worth());
  }

  /** A block scores at most once. */
  lemma HitBlockOnce(s: State, c: int, r: int)
    requires Consistent(s)
    ensures HitBlock(HitBlock(s, c, r), c, r) == HitBlock(s, c, r)
  {
  }

  /** The blocks the ball meets in one pass of `collisionDetection`, in the
      loop's order. */
  function Collide(s: State, hits: seq<(int, int)>): (t: State)
    requires Consistent(s)
    ensures Consistent(t)
    ensures s.score <= t.score <= s.score + |hits|
    ensures t == s.(score := t.score, blocks := t.blocks, ballSpeedY := t.ballSpeedY,
                    gameWon := t.gameWon, gameStarted := t.gameStarted)
    ensures !s.gameWon && t.gameWon ==> t.score == AllBlocks && !t.gameStarted
    ensures s.gameWon && !s.gameStarted ==> t.gameWon && !t.gameStarted
    decreases |hits|
  {
    if hits == [] then s else Collide(HitBlock(s, hits[0].0, hits[0].1), hits[1..])
  }

  /** The bottom branch of `draw`: one life fewer; with none left the game
      is over, otherwise ball and paddle go back to their starting places
      and the game waits to be started again. The branch does not look at
      the game flags again, so a block hit earlier in the same frame does
      not stop it. */
  function MissBall(s: State, canvasWidth: real): (t: State)
    ensures t.lives == s.lives - 1 && !t.gameStarted
    ensures t.lives <= 0 ==> t == s.(lives := t.lives, gameOver := true, gameStarted := false)
    ensures t.lives > 0 ==> t == s.(lives := t.lives, gameStarted := false, ballSpeedX := 5.0, ballSpeedY := -5.0,
                                    paddleX := (canvasWidth - PaddleWidth) / 2.0)
    ensures t.score == s.score && t.blocks == s.blocks
  {
    if s.lives - 1 <= 0 then s.(lives := s.lives - 1, gameOver := true, gameStarted := false)
    else s.(lives := s.lives - 1, gameStarted := false, ballSpeedX := 5.0, ballSpeedY := -5.0,
            paddleX := (canvasWidth - PaddleWidth) / 2.0)
  }

  /** A lost ball never leaves the game running: it is either over or
      waiting for a restart, which `Start` gives only in the second case. */
  lemma MissedBallWaits(s: State, canvasWidth: real)
    requires Playing(s)
    ensures var t := MissBall(s, canvasWidth);
            !Playing(t) && (Playing(Start(t)) <==> s.lives > 1)
  {
  }

  /** `mouseMoveHandler`: a pointer strictly inside the canvas centres the
      paddle under it, pulled back inside the canvas; one outside changes
      nothing. It works whether or not the game runs. */
  function MouseMove(s: State, relativeX: real, canvasWidth: real): (t: State)
    ensures PaddleWidth <= canvasWidth && 0.0 < relativeX < canvasWidth ==> 0.0 <= t.paddleX <= canvasWidth - PaddleWidth
    ensures !(0.0 < relativeX < canvasWidth) ==> t == s
    ensures t == s.(paddleX := t.paddleX)
  {
    if 0.0 < relativeX < canvasWidth then
      var x := relativeX - PaddleWidth / 2.0;
      s.(paddleX := if x < 0.0 then 0.0 else if x + PaddleWidth > canvasWidth then canvasWidth - PaddleWidth else x)
    else s
  }

  /** The handler's `else if` bounds check agrees with the two checks the
      other games make whenever the paddle fits the canvas. */
  lemma MouseMoveKeepsInside(s: State, relativeX: real, canvasWidth: real)
    requires PaddleWidth <= canvasWidth && 0.0 < relativeX < canvasWidth
    ensures MouseMove(s, relativeX, canvasWidth).paddleX == KeepInside(relativeX - PaddleWidth / 2.0, PaddleWidth, canvasWidth)
  {
  }

  /** `handleTouch`: a touch on an unstarted game tries to start it;
      otherwise it moves the paddle like the mouse. */
  function Touch(s: State, relativeX: real, canvasWidth: real): (t: State)
    ensures !s.gameStarted ==> t == Start(s)
    ensures s.gameStarted ==> t == MouseMove(s, relativeX, canvasWidth)
    ensures t.score == s.score && t.blocks == s.blocks
  {
    if !s.gameStarted then Start(s) else MouseMove(s, relativeX, canvasWidth)
  }

  /** `keyDownHandler`: the arrows mark their key pressed; the space bar
      starts an unstarted game. */
  function KeyDown(s: State, key: string): (t: State)
    ensures key == "Right" || key == "ArrowRight" ==> t == s.(rightPressed := true)
    ensures key == "Left" || key == "ArrowLeft" ==> t == s.(leftPressed := true)
    ensures key == " " ==> t == Start(s)
    ensures key !in {"Right", "ArrowRight", "Left", "ArrowLeft", " "} ==> t == s
    ensures t.score == s.score && t.blocks == s.blocks
  {
    if key == "Right" || key == "ArrowRight" then s.(rightPressed := true)
    else if key == "Left" || key == "ArrowLeft" then s.(leftPressed := true)
    else if key == " " && !s.gameStarted then Start(s)
    else s
  }

  /** `keyUpHandler`: the arrows mark their key released. */
  function KeyUp(s: State, key: string): (t: State)
    ensures key == "Right" || key == "ArrowRight" ==> t == s.(rightPressed := false)
    ensures key == "Left" || key == "ArrowLeft" ==> t == s.(leftPressed := false)
    ensures key !in {"Right", "ArrowRight", "Left", "ArrowLeft"} ==> t == s
    ensures t.score == s.score && t.blocks == s.blocks
  {
    if key == "Right" || key == "ArrowRight" then s.(rightPressed := false)
    else if key == "Left" || key == "ArrowLeft" then s.(leftPressed := false)
    else s
  }

  /** The paddle step at the end of a frame of `draw`, as written: eight
      pixels right while the paddle's left edge is short of
      `canvasWidth - 100`, else eight pixels left while it is right of 0.
      It runs even when a hit or a miss earlier in the frame stopped the
      game. */
  function KeyStepAsWritten(s: State, canvasWidth: real): (t: State)
    ensures t == s.(paddleX := t.paddleX)
    ensures s.rightPressed && s.paddleX < canvasWidth - PaddleWidth ==> t.paddleX == s.paddleX + PaddleSpeed
    ensures s.paddleX > 0.0 && s.leftPressed && !(s.rightPressed && s.paddleX < canvasWidth - PaddleWidth) ==>
              t.paddleX == s.paddleX - PaddleSpeed
    ensures !(s.rightPressed && s.paddleX < canvasWidth - PaddleWidth) && !(s.leftPressed && s.paddleX > 0.0) ==> t == s
  {
    if s.rightPressed && s.paddleX < canvasWidth - PaddleWidth then s.(paddleX := s.paddleX + PaddleSpeed)
    else if s.leftPressed && s.paddleX > 0.0 then s.(paddleX := s.paddleX - PaddleSpeed)
    else s
  }

  /** The step tests only where the paddle starts, so it can carry the
      paddle almost eight pixels past either edge: on an 800-pixel canvas the
      paddle starts at 350, and 44 steps right put its left edge at 702, two
      pixels past 700; 44 steps left put it at -2. */
  lemma KeyStepOvershoots()
    ensures var s := State(0, 3, false, false, true, true, false, 694.0, 5.0, -5.0, InitialBlocks());
            KeyStepAsWritten(s, 800.0).paddleX == 702.0 && 702.0 > 800.0 - PaddleWidth
    ensures var s := State(0, 3, false, false, true, false, true, 6.0, 5.0, -5.0, InitialBlocks());
            KeyStepAsWritten(s, 800.0).paddleX == -2.0
  {
  }

  /** `n` frames of paddle steps, as written. */
  function KeyStepsAsWritten(s: State, canvasWidth: real, n: nat): (t: State)
    ensures t == s.(paddleX := t.paddleX)
  {
    if n == 0 then s else KeyStepAsWritten(KeyStepsAsWritten(s, canvasWidth, n - 1), canvasWidth)
  }

  /** Holding the right arrow from the starting place on an 800-pixel
      canvas moves the paddle eight pixels a frame, and the 44th frame takes
      it past the right edge. */
  lemma {:induction false} RightStepsFromHome(s: State, n: nat)
    requires s.rightPressed && s.paddleX == 350.0 && n <= 44
    ensures KeyStepsAsWritten(s, 800.0, n).paddleX == 350.0 + 8.0 * (n as real)
    ensures n == 44 ==> KeyStepsAsWritten(s, 800.0, n).paddleX > 800.0 - PaddleWidth
  {
    if n > 0 {
      RightStepsFromHome(s, n - 1);
    }
  }

  /** The step with the bounds check the mouse handler makes: the paddle
      stays inside the canvas. */
  function KeyStep(s: State, canvasWidth: real): (t: State)
    requires PaddleWidth <= canvasWidth
    ensures t == s.(paddleX := t.paddleX)
    ensures 0.0 <= t.paddleX <= canvasWidth - PaddleWidth
  {
    var u := KeyStepAsWritten(s, canvasWidth);
    u.(paddleX := KeepInside(u.paddleX, PaddleWidth, canvasWidth))
  }

  /** The corrected step differs from the original only where the original
      leaves the canvas. */
  lemma KeyStepAgrees(s: State, canvasWidth: real)
    requires PaddleWidth <= canvasWidth
    ensures var u := KeyStepAsWritten(s, canvasWidth);
            (0.0 <= u.paddleX <= canvasWidth - PaddleWidth) <==> KeyStep(s, canvasWidth) == u
  {
  }

  /** One call of `draw`, as written: nothing unless the game is playing;
      otherwise the blocks in `hits` are met, the ball is lost if `missed`,
      and the paddle takes its keyboard step, with no second look at the
      game flags in between. */
  function FrameAsWritten(s: State, hits: seq<(int, int)>, missed: bool, canvasWidth: real): (t: State)
    requires Consistent(s)
    ensures Consistent(t)
    ensures !Playing(s) ==> t == s
    ensures Playing(s) ==> t.score >= s.score && (missed <==> t.lives == s.lives - 1)
  {
    if !Playing(s) then s
    else
      var u := Collide(s, hits);
      KeyStepAsWritten(if missed then MissBall(u, canvasWidth) else u, canvasWidth)
  }

  /** The same frame with the corrected keyboard step. */
  function Frame(s: State, hits: seq<(int, int)>, missed: bool, canvasWidth: real): (t: State)
    requires Consistent(s) && PaddleWidth <= canvasWidth
    ensures Consistent(t)
    ensures !Playing(s) ==> t == s
    ensures Playing(s) ==> t.score >= s.score && (missed <==> t.lives == s.lives - 1)
    ensures Playing(s) ==> 0.0 <= t.paddleX <= canvasWidth - PaddleWidth
  {
    if !Playing(s) then s
    else
      var u := Collide(s, hits);
      KeyStep(if missed then MissBall(u, canvasWidth) else u, canvasWidth)
  }

  /** The corrected frame differs from the original exactly where the
      original's paddle leaves the canvas. */
  lemma FrameAgrees(s: State, hits: seq<(int, int)>, missed: bool, canvasWidth: real)
    requires Consistent(s) && PaddleWidth <= canvasWidth
    ensures var u := FrameAsWritten(s, hits, missed, canvasWidth);
            (!Playing(s) || 0.0 <= u.paddleX <= canvasWidth - PaddleWidth) <==> Frame(s, hits, missed, canvasWidth) == u
  {
    if Playing(s) {
      var v := Collide(s, hits);
      KeyStepAgrees(if missed then MissBall(v, canvasWidth) else v, canvasWidth);
    }
  }

  /** The frame that breaks the last block still moves the paddle: the win
      stops the game, but the keyboard step after it runs all the same. */
  lemma WinningFrameStillSteps(s: State, c: int, r: int, canvasWidth: real)
    requires Consistent(s) && Playing(s) && s.score == AllBlocks - 1 && IsLive(s.blocks, c, r)
    requires s.rightPressed && s.paddleX < canvasWidth - PaddleWidth
    ensures var t := FrameAsWritten(s, [(c, r)], false, canvasWidth);
            && t.gameWon && !t.gameStarted && !Playing(t)
            && t.paddleX == s.paddleX + PaddleSpeed
  {
    var hits := [(c, r)];
    assert hits[0].0 == c && hits[0].1 == r && hits[1..] == [];
    assert Collide(s, hits) == Collide(HitBlock(s, c, r), []);
  }

  /** `resetGame`: score 0, three lives, no flag set, every block standing,
      and ball and paddle in their starting places. */
  function Reset(s: State, canvasWidth: real): (t: State)
    ensures Consistent(t)
    ensures t.score == 0 && t.lives == StartLives && !t.gameOver && !t.gameWon && !t.gameStarted
    ensures t.blocks == InitialBlocks() && t.paddleX + PaddleWidth / 2.0 == canvasWidth / 2.0
    ensures t.ballSpeedX == 5.0 && t.ballSpeedY == -5.0
    ensures t.rightPressed == s.rightPressed && t.leftPressed == s.leftPressed
  {
    s.(score := 0, lives := StartLives, gameOver := false, gameWon := false, gameStarted := false,
       blocks := InitialBlocks(), ballSpeedX := 5.0, ballSpeedY := -5.0,
       paddleX := (canvasWidth - PaddleWidth) / 2.0)
  }

  /** A click on the canvas runs both listeners in the order they were
      added: `startGame`, then the reset that applies only to a lost or won
      game. */
  function Click(s: State, canvasWidth: real): (t: State)
    ensures s.gameOver || s.gameWon ==> t == Reset(s, canvasWidth)
    ensures !s.gameOver && !s.gameWon ==> t == Start(s)
  {
    var u := Start(s);
    if u.gameOver || u.gameWon then Reset(u, canvasWidth) else u
  }

  /** After a loss or a win the first click resets the game and the second
      starts it. */
  lemma ClickTwiceAfterEnd(s: State, canvasWidth: real)
    requires s.gameOver || s.gameWon
    ensures !Click(s, canvasWidth).gameStarted && Playing(Click(Click(s, canvasWidth), canvasWidth))
  {
  }

  /** The inputs the game reacts to; a `Drawn` event is one call of
      `draw` as written, given the blocks the ball meets and whether it is
      lost. */
  datatype Event =
    | KeyPressed(key: string)
    | KeyReleased(key: string)
    | MouseMoved(relativeX: real)
    | Touched(relativeX: real)
    | Clicked
    | Drawn(hits: seq<(int, int)>, missed: bool)

  function Step(s: State, e: Event, canvasWidth: real): (t: State)
    requires Consistent(s)
    ensures Consistent(t)
  {
    match e
    case KeyPressed(key) => KeyDown(s, key)
    case KeyReleased(key) => KeyUp(s, key)
    case MouseMoved(x) => MouseMove(s, x, canvasWidth)
    case Touched(x) => Touch(s, x, canvasWidth)
    case Clicked => Click(s, canvasWidth)
    case Drawn(hits, missed) => FrameAsWritten(s, hits, missed, canvasWidth)
  }

  function Run(s: State, events: seq<Event>, canvasWidth: real): (t: State)
    requires Consistent(s)
    ensures Consistent(t)
    decreases |events|
  {
    if events == [] then s else Run(Step(s, events[0], canvasWidth), events[1..], canvasWidth)
  }

  /** Whatever happens after a reset, the score never passes 72, and it is
      72 exactly when no block stands. */
  lemma ScoreBound(s: State, canvasWidth: real, events: seq<Event>)
    ensures var t := Run(Reset(s, canvasWidth), events, canvasWidth);
            t.score <= AllBlocks && (t.score == AllBlocks <==> Cleared(t.blocks))
  {
    var t := Run(Reset(s, canvasWidth), events, canvasWidth);
    WonIffCleared(t);
  }
}

=== FILE: brick_game.dfy ===
/** The brick breaker of `Game/game.js`: six rows of fourteen bricks worth
    7, 7, 4, 4, 1 and 1 points by row, three lives, levels, a ball that waits
    on the paddle until the space bar launches it, and a pause button. The
    ball's flight is replaced by the events it causes: a brick hit, or the
    ball lost past the bottom edge. */
module BrickBreaker {
  import opened Arcade

  const CanvasWidth: real := 800.0
  const PaddleWidth: real := 120.0
  const PaddleSpeed: real := 8.0

  const Rows: nat := 6
  const Cols: nat := 14
  const BrickWidth: nat := 55
  const BrickHeight: nat := 20
  const BrickPadding: nat := 2
  const OffsetX: int := 5
  const OffsetY: int := 60

  /** `brickPoints`: the worth of one brick of each row. */
  const Points: seq<nat> := [7, 7, 4, 4, 1, 1]

  /** What a full grid is worth: fourteen bricks of each row. */
  const LevelWorth: nat := 336

  const StartLives: int := 3

  /** `gameState`, the paddle's position and step, the ball's velocity and
      the bricks (`bricks[row][col]`). */
  datatype State = State(
    score: int, lives: int, level: int,
    isPlaying: bool, isPaused: bool, ballLaunched: bool,
    paddleX: real, paddleDx: real,
    ballDx: real, ballDy: real,
    bricks: Grid)

  /** What every state of the game keeps: six rows of fourteen bricks, and a
      paddle inside the canvas. */
  predicate Valid(s: State) {
    Shaped(s.bricks, Rows, Cols) && 0.0 <= s.paddleX <= CanvasWidth - PaddleWidth
  }

  /** The left edge of a brick in column `col`. */
  function BrickX(col: nat): int {
    Edge(col, BrickWidth, BrickPadding, OffsetX)
  }

  /** The top edge of a brick in row `row`. */
  function BrickY(row: nat): int {
    Edge(row, BrickHeight, BrickPadding, OffsetY)
  }

  /** Bricks of different columns (rows) are two pixels apart; the first
      column starts at 5 and the last one ends at 801, a pixel past the
      canvas's right edge. */
  lemma BrickLayout(col: nat, col': nat, row: nat, row': nat)
    requires col < col' && row < row'
    ensures BrickX(col) + BrickWidth + BrickPadding <= BrickX(col')
    ensures BrickY(row) + BrickHeight + BrickPadding <= BrickY(row')
    ensures BrickX(0) == 5 && BrickX(Cols - 1) + BrickWidth == 801
    ensures BrickY(0) == 60 && BrickY(Rows - 1) + BrickHeight == 190
  {
    EdgesApart(col, col', BrickWidth, BrickPadding, OffsetX);
    EdgesApart(row, row', BrickHeight, BrickPadding, OffsetY);
  }

  /** `createBricks`: every brick standing, worth 336 points in all. */
  function CreateBricks(): (g: Grid)
    ensures Shaped(g, Rows, Cols)
    ensures forall i, j :: 0 <= i < Rows && 0 <= j < Cols ==> IsLive(g, i, j)
    ensures Weighted(g, Points) == LevelWorth
  {
    WeightedFull(Rows, Cols, Points);
    Full(Rows, Cols)
  }

  /** The paddle's starting place, centred on the canvas. */
  const PaddleHome: real := CanvasWidth / 2.0 - PaddleWidth / 2.0

  /** The state at page load. */
  function Initial(): (s: State)
    ensures Valid(s) && s.score == 0 && s.lives == StartLives && s.level == 1
    ensures !s.isPlaying && !s.isPaused && !s.ballLaunched
  {
    State(0, StartLives, 1, false, false, false, PaddleHome, 0.0, 0.0, 0.0, CreateBricks())
  }

  /** `update` returns at once unless the game is playing and not paused;
      paddle steps, ball losses and brick hits happen only inside it. */
  predicate Active(s: State) {
    s.isPlaying && !s.isPaused
  }

  /** `movePaddle`: one step of the paddle, kept inside the canvas. */
  function MovePaddle(s: State): (t: State)
    ensures Active(s) ==> 0.0 <= t.paddleX <= CanvasWidth - PaddleWidth
    ensures Active(s) && 0.0 <= s.paddleX + s.paddleDx <= CanvasWidth - PaddleWidth ==> t.paddleX == s.paddleX + s.paddleDx
    ensures t == s.(paddleX := t.paddleX)
    ensures !Active(s) ==> t == s
  {
    if !Active(s) then s
    else s.(paddleX := KeepInside(s.paddleX + s.paddleDx, PaddleWidth, CanvasWidth))
  }

  /** `resetBall`: the ball waits on the paddle again, motionless. */
  function ResetBall(s: State): (t: State)
    ensures !t.ballLaunched && t.ballDx == 0.0 && t.ballDy == 0.0
    ensures t.(ballLaunched := s.ballLaunched, ballDx := s.ballDx, ballDy := s.ballDy) == s
  {
    s.(ballLaunched := false, ballDx := 0.0, ballDy := 0.0)
  }

  /** The bottom-edge branch of `moveBall`, reached only while the ball is in
      flight: one life fewer; with none left `gameOver` stops play, otherwise
      the ball is reset. */
  function LoseBall(s: State): (t: State)
    ensures !Active(s) || !s.ballLaunched ==> t == s
    ensures Active(s) && s.ballLaunched ==>
              && t.lives == s.lives - 1
              && (t.lives <= 0 ==> t == s.(lives := t.lives, isPlaying := false))
              && (t.lives > 0 ==> t == ResetBall(s).(lives := t.lives) && t.isPlaying)
    ensures t.score == s.score && t.bricks == s.bricks
  {
    if !Active(s) || !s.ballLaunched then s
    else if s.lives - 1 <= 0 then s.(lives := s.lives - 1, isPlaying := false)
    else ResetBall(s.(lives := s.lives - 1))
  }

  /** `levelComplete`: play stops and the level goes up by one. */
  function LevelComplete(s: State): (t: State)
    ensures !t.isPlaying && t.level == s.level + 1
    ensures t.(isPlaying := s.isPlaying, level := s.level) == s
  {
    s.(isPlaying := false, level := s.level + 1)
  }

  /** One brick of `detectBrickCollision` met by the ball: a standing brick
      breaks, turns the ball back and scores its row's points, and breaking
      the last one completes the level; a broken brick is passed over. */
  function HitBrick(s: State, row: int, col: int): (t: State)
    requires Valid(s)
    ensures Valid(t)
    ensures !Active(s) || !IsLive(s.bricks, row, col) ==> t == s
    ensures Active(s) && IsLive(s.bricks, row, col) ==>
              && t.bricks == Kill(s.bricks, row, col)
              && t.score == s.score + Points[row]
              && (t.isPlaying <==> !Cleared(t.bricks))
              && t.level == s.level + (if Cleared(t.bricks) then 1 else 0)
              && t.ballDy == -s.ballDy
              && t.(score := s.score, bricks := s.bricks, isPlaying := true, level := s.level, ballDy := s.ballDy) == s
    ensures t.score + Weighted(t.bricks, Points) == s.score + Weighted(s.bricks, Points)
  {
    WeightedKill(s.bricks, Points, row, col);
    if !Active(s) || !IsLive(s.bricks, row, col) then s
    else
      var t := s.(bricks := Kill(s.bricks, row, col), score := s.score + Points[row], ballDy := -s.ballDy);
      KillKeepsShape(s.bricks, Rows, Cols, row, col);
      if Cleared(t.bricks) then LevelComplete(t) else t
  }

  /** A brick scores at most once: hitting it again changes nothing. */
  lemma HitBrickOnce(s: State, row: int, col: int)
    requires Valid(s)
    ensures HitBrick(HitBrick(s, row, col), row, col) == HitBrick(s, row, col)
  {
  }

  /** `checkLevelComplete`: a scan of the grid row by row that stops at the
      first standing brick. */
  method CheckLevelComplete(bricks: Grid) returns (complete: bool)
    ensures complete <==> Cleared(bricks)
  {
    var row := 0;
    while row < |bricks|
      invariant 0 <= row <= |bricks|
      invariant forall i, j :: 0 <= i < row && 0 <= j < |bricks[i]| ==> !bricks[i][j]
    {
      var col := 0;
      while col < |bricks[row]|
        invariant 0 <= col <= |bricks[row]|
        invariant forall j :: 0 <= j < col ==> !bricks[row][j]
      {
        if bricks[row][col] {
          return false;
        }
        col := col + 1;
      }
      row := row + 1;
    }
    return true;
  }

  /** Every brick is worth something, so the level is complete exactly when
      nothing is left to score. */
  lemma CompleteIffNothingLeft(g: Grid)
    requires Shaped(g, Rows, Cols)
    ensures Cleared(g) <==> Weighted(g, Points) == 0
  {
    WeightedZeroIffCleared(g, Points);
  }

  function IsRightKey(key: string): bool {
    key == "Right" || key == "ArrowRight" || key == "d" || key == "D"
  }

  function IsLeftKey(key: string): bool {
    key == "Left" || key == "ArrowLeft" || key == "a" || key == "A"
  }

  function IsLaunchKey(key: string): bool {
    key == " " || key == "Spacebar"
  }

  /** `keyDown`: the arrow keys (and D, A) set the paddle's step; the space
      bar launches the ball with the velocity `(dx, dy)` of a random angle,
      but only while playing and before launch. */
  function KeyDown(s: State, key: string, dx: real, dy: real): (t: State)
    ensures IsRightKey(key) ==> t == s.(paddleDx := PaddleSpeed)
    ensures IsLeftKey(key) ==> t == s.(paddleDx := -PaddleSpeed)
    ensures IsLaunchKey(key) && s.isPlaying && !s.ballLaunched ==>
              t == s.(ballLaunched := true, ballDx := dx, ballDy := dy)
    ensures IsLaunchKey(key) && !(s.isPlaying && !s.ballLaunched) ==> t == s
    ensures !IsRightKey(key) && !IsLeftKey(key) && !IsLaunchKey(key) ==> t == s
    ensures t.score == s.score && t.bricks == s.bricks
  {
    if IsRightKey(key) then s.(paddleDx := PaddleSpeed)
    else if IsLeftKey(key) then s.(paddleDx := -PaddleSpeed)
    else if IsLaunchKey(key) && s.isPlaying && !s.ballLaunched then
      s.(ballLaunched := true, ballDx := dx, ballDy := dy)
    else s
  }

  /** A second press of the space bar changes nothing: the ball keeps the
      velocity of its first launch. */
  lemma LaunchOnce(s: State, dx: real, dy: real, dx': real, dy': real)
    ensures KeyDown(KeyDown(s, " ", dx, dy), " ", dx', dy') == KeyDown(s, " ", dx, dy)
  {
  }

  /** `keyUp`: releasing a steering key stops the paddle. */
  function KeyUp(s: State, key: string): (t: State)
    ensures IsRightKey(key) || IsLeftKey(key) ==> t == s.(paddleDx := 0.0)
    ensures !IsRightKey(key) && !IsLeftKey(key) ==> t == s
    ensures t.score == s.score && t.bricks == s.bricks
  {
    if IsRightKey(key) || IsLeftKey(key) then s.(paddleDx := 0.0) else s
  }

  /** `startGame`: play (unpaused) on a fresh grid; score, lives and level
      carry over. */
  function Start(s: State): (t: State)
    ensures t.isPlaying && !t.isPaused && t.bricks == CreateBricks()
    ensures t.(isPlaying := s.isPlaying, isPaused := s.isPaused, bricks := s.bricks) == s
  {
    s.(isPlaying := true, isPaused := false, bricks := CreateBricks())
  }

  /** `pauseGame`: flips the pause flag. */
  function Pause(s: State): (t: State)
    ensures t.isPaused == !s.isPaused && t.(isPaused := s.isPaused) == s
  {
    s.(isPaused := !s.isPaused)
  }

  /** Pausing twice resumes where the game stood. */
  lemma PauseTwice(s: State)
    ensures Pause(Pause(s)) == s
  {
  }

  /** `resetGame`: score 0, three lives, level 1, every flag cleared, the
      paddle centred, the ball reset and every brick standing; only the
      paddle's current step survives. */
  function Reset(s: State): (t: State)
    ensures Valid(t)
    ensures t.score == 0 && t.lives == StartLives && t.level == 1
    ensures !t.isPlaying && !t.isPaused && !t.ballLaunched
    ensures t.paddleX + PaddleWidth / 2.0 == CanvasWidth / 2.0 && t.ballDx == 0.0 && t.ballDy == 0.0
    ensures t.bricks == CreateBricks() && t.paddleDx == s.paddleDx
  {
    ResetBall(s.(score := 0, lives := StartLives, level := 1,
                 isPlaying := false, isPaused := false, ballLaunched := false,
                 paddleX := PaddleHome, bricks := CreateBricks()))
  }

  /** Resetting depends on nothing but the paddle's step. */
  lemma ResetForgetsTheGame(s: State, s': State)
    requires s.paddleDx == s'.paddleDx
    ensures Reset(s) == Reset(s') && Reset(Reset(s)) == Reset(s)
  {
  }

  /** `nextLevel`: the ball is reset, the grid refilled and play resumes. */
  function NextLevel(s: State): (t: State)
    ensures t.isPlaying && !t.ballLaunched && t.ballDx == 0.0 && t.ballDy == 0.0 && t.bricks == CreateBricks()
    ensures t.score == s.score && t.lives == s.lives && t.level == s.level
  {
    ResetBall(s).(bricks := CreateBricks(), isPlaying := true)
  }

  /** The inputs the game reacts to. `Frame` events stand for what one call
      of `update` can do: move the paddle, lose the ball, or break a brick. */
  datatype Event =
    | KeyPressed(key: string, dx: real, dy: real)
    | KeyReleased(key: string)
    | StartClicked
    | PauseClicked
    | ResetClicked
    | RestartClicked
    | NextLevelClicked
    | PaddleStep
    | BallLost
    | BrickHit(row: int, col: int)
  {
    /** The events that refill the grid. */
    predicate Refills() {
      StartClicked? || ResetClicked? || RestartClicked? || NextLevelClicked?
    }
  }

  function Step(s: State, e: Event): (t: State)
    requires Valid(s)
    ensures Valid(t)
    ensures !e.Refills() ==> t.score + Weighted(t.bricks, Points) == s.score + Weighted(s.bricks, Points)
    ensures !e.Refills() ==> t.score >= s.score
  {
    match e
    case KeyPressed(key, dx, dy) => KeyDown(s, key, dx, dy)
    case KeyReleased(key) => KeyUp(s, key)
    case StartClicked => Start(s)
    case PauseClicked => Pause(s)
    case ResetClicked => Reset(s)
    case RestartClicked => Start(Reset(s))
    case NextLevelClicked => NextLevel(s)
    case PaddleStep => MovePaddle(s)
    case BallLost => LoseBall(s)
    case BrickHit(row, col) => HitBrick(s, row, col)
  }

  function Run(s: State, events: seq<Event>): (t: State)
    requires Valid(s)
    ensures Valid(t)
    decreases |events|
  {
    if events == [] then s else Run(Step(s, events[0]), events[1..])
  }

  /** Within a level, what is scored is exactly what is no longer standing. */
  lemma {:induction false} RunKeepsWorth(s: State, events: seq<Event>)
    requires Valid(s)
    requires forall k :: 0 <= k < |events| ==> !events[k].Refills()
    ensures Run(s, events).score + Weighted(Run(s, events).bricks, Points) == s.score + Weighted(s.bricks, Points)
    ensures Run(s, events).score >= s.score
    decreases |events|
  {
    if events != [] {
      RunKeepsWorth(Step(s, events[0]), events[1..]);
    }
  }

  /** A level started with the start button yields at most 336 points, and
      all 336 exactly when it is cleared. */
  lemma LevelScoreBound(s: State, events: seq<Event>)
    requires Valid(s)
    requires forall k :: 0 <= k < |events| ==> !events[k].Refills()
    ensures var t := Run(Start(s), events);
            && s.score <= t.score <= s.score + LevelWorth
            && (Cleared(t.bricks) <==> t.score == s.score + LevelWorth)
  {
    var start := Start(s);
    var t := Run(start, events);
    RunKeepsWorth(start, events);
    assert Weighted(start.bricks, Points) == LevelWorth;
    CompleteIffNothingLeft(t.bricks);
  }
}

=== FILE: calculator.dfy ===
/** `SimpleCalculator`: 32-bit integer addition, subtraction and
    multiplication, which wrap around on overflow as C# does in its default
    unchecked context, and a division that refuses a zero denominator. */
module Calculator {
  import opened Arith

  const Modulus: int := 0x1_0000_0000
  const Int32Min: int := -0x8000_0000
  const Int32Max: int := 0x7FFF_FFFF

  /** C#'s `int`. */
  type Int32 = x: int | Int32Min <= x <= Int32Max

  predicate InRange(x: int) {
    Int32Min <= x <= Int32Max
  }

  /** The 32-bit two's-complement value of `x`: the one `Int32` congruent to
      it modulo 2^32. */
  function Wrap(x: int): (r: Int32)
    ensures (x - r) % Modulus == 0
    ensures InRange(x) ==> r == x
  {
    var r := (x - Int32Min) % Modulus + Int32Min;
    assert (x - r) % Modulus == 0 by {
      ShiftMod(x - Int32Min, Modulus);
    }
    r
  }

  /** `a - a % m` is a multiple of `m`. */
  lemma ShiftMod(a: int, m: int)
    requires m > 0
    ensures (a - a % m) % m == 0
  {
    MultipleMod(a - a % m, m, a / m);
  }

  /** Two values congruent modulo 2^32 wrap to the same `Int32`. */
  lemma WrapCongruent(x: int, y: int)
    requires (x - y) % Modulus == 0
    ensures Wrap(x) == Wrap(y)
  {
    var k := (x - y) / Modulus;
    assert x - y == Modulus * k;
    assert x - Int32Min == (y - Int32Min) + Modulus * k;
    ModAddMultiple(y - Int32Min, k, Modulus);
  }

  /** `Add`: the 32-bit sum. */
  function Add(a: Int32, b: Int32): (r: Int32)
    ensures InRange(a + b) ==> r == a + b
    ensures (a + b - r) % Modulus == 0
  {
    Wrap(a + b)
  }

  /** `Subtract`: the 32-bit difference. */
  function Subtract(a: Int32, b: Int32): (r: Int32)
    ensures InRange(a - b) ==> r == a - b
    ensures (a - b - r) % Modulus == 0
  {
    Wrap(a - b)
  }

  /** `Multiply`: the 32-bit product. */
  function Multiply(a: Int32, b: Int32): (r: Int32)
    ensures InRange(a * b) ==> r == a * b
    ensures (a * b - r) % Modulus == 0
  {
    Wrap(a * b)
  }

  /** Subtraction undoes addition for every pair of inputs, overflow or not. */
  lemma SubtractUndoesAdd(a: Int32, b: Int32)
    ensures Subtract(Add(a, b), b) == a
  {
    var s := Add(a, b);
    assert (s - b - a) % Modulus == 0 by {
      var k := (a + b - s) / Modulus;
      assert a + b - s == Modulus * k;
      assert s - b - a == Modulus * (-k);
      MultipleMod(s - b - a, Modulus, -k);
    }
    WrapCongruent(s - b, a);
  }

  /** Anything times zero is zero, and the examples the calculator's tests
      check. */
  lemma CalculatorExamples(a: Int32)
    ensures Multiply(a, 0) == 0 && Multiply(0, a) == 0
    ensures Add(5, 3) == 8 && Add(-5, -3) == -8
    ensures Subtract(10, 4) == 6 && Subtract(3, 7) == -4
    ensures Multiply(6, 7) == 42
  {
  }

  /** One past the largest `int` wraps to the smallest. */
  lemma AddOverflowWraps()
    ensures Add(Int32Max as Int32, 1) == Int32Min
  {
    assert (Int32Max + 1 - Int32Min) % Modulus == 0;
  }

  /** The message `Divide` throws with. */
  const DivideByZeroMessage: string := "Denominator cannot be zero."

  datatype Quotient = Quotient(value: real) | DivideByZero(message: string)

  /** `Divide`: a zero denominator throws `DivideByZeroException`; otherwise
      the quotient of the operands as real numbers. */
  function Divide(a: Int32, b: Int32): (r: Quotient)
    ensures r.DivideByZero? <==> b == 0
    ensures r.DivideByZero? ==> r.message == DivideByZeroMessage
    ensures r.Quotient? ==> r.value * (b as real) == a as real
  {
    if b == 0 then DivideByZero(DivideByZeroMessage)
    else Quotient(a as real / b as real)
  }

  /** Multiplying a quotient back by its denominator recovers the numerator. */
  lemma DivideThenMultiply(a: Int32, b: Int32)
    requires b != 0
    ensures Divide(a, b).value * (b as real) == a as real
    ensures (a == 0) == (Divide(a, b).value == 0.0)
  {
  }
}

=== FILE: client_form.dfy ===
/** The Memo project's browser script, without the page: the submit handler
    that checks required fields, e-mail syntax and the password confirmation
    before letting a form go, and the memo search that shows the cards whose
    text contains the query, ignoring case. */
module ClientScript {
  import opened Optional
  import opened Seqs
  import opened Text

  datatype Tag = InputTag | TextAreaTag

  /** A form control: its element, its `type` attribute (empty for a text
      area), its `name`, its current value, and whether it is `required`. */
  datatype Control = Control(tag: Tag, kind: string, name: string, value: string, required: bool)

  /** The controls of one form, in document order. */
  type Form = seq<Control>

  /** A character the pattern's `[^\s@]` class admits. */
  predicate PartChar(c: char) {
    !IsSpace(c, JavaScript) && c != '@'
  }

  /** One `[^\s@]+` run. */
  predicate Part(s: string) {
    s != [] && forall k :: 0 <= k < |s| ==> PartChar(s[k])
  }

  /** The e-mail pattern `^[^\s@]+@[^\s@]+\.[^\s@]+$` as the regular
      expression reads: a split into three runs joined by `@` and `.`. */
  ghost predicate EmailPattern(s: string) {
    exists i, j :: 0 < i && i + 1 < j < |s| - 1 && s[i] == '@' && s[j] == '.'
                   && Part(s[..i]) && Part(s[i + 1..j]) && Part(s[j + 1..])
  }

  predicate IsAt(c: char) {
    c == '@'
  }

  /** The same pattern as a direct check: no white space, exactly one `@`,
      not first, and a `.` strictly inside the text after it. */
  predicate EmailShape(s: string) {
    && NoSpace(s, JavaScript)
    && match Find(s, IsAt)
       case None => false
       case Some(i) =>
         && 0 < i
         && (forall k :: i < k < |s| ==> s[k] != '@')
         && (exists j :: i + 1 < j < |s| - 1 && s[j] == '.')
  }

  /** An address the direct check accepts splits as the pattern needs. */
  lemma {:induction false} ShapeHasPattern(s: string)
    requires EmailShape(s)
    ensures EmailPattern(s)
  {
    var i := Find(s, IsAt).value;
    var j :| i + 1 < j < |s| - 1 && s[j] == '.';
    var user := s[..i];
    forall k | 0 <= k < |user|
      ensures PartChar(user[k])
    {
      assert !IsAt(s[k]);
    }
    var host := s[i + 1..j];
    forall k | 0 <= k < |host|
      ensures PartChar(host[k])
    {
      assert host[k] == s[i + 1 + k];
    }
    var domain := s[j + 1..];
    forall k | 0 <= k < |domain|
      ensures PartChar(domain[k])
    {
      assert domain[k] == s[j + 1 + k];
    }
    assert Part(user) && Part(host) && Part(domain);
  }

  /** The characters of a run at `from` in `s`. */
  lemma PartAt(s: string, from: nat, to: nat, k: nat)
    requires from <= k < to <= |s| && Part(s[from..to])
    ensures PartChar(s[k])
  {
    assert s[k] == s[from..to][k - from];
  }

  /** Three runs joined by `@` and `.` hold no white space, and no `@`
      besides the joining one. */
  lemma PatternChars(s: string, i: nat, j: nat)
    requires 0 < i && i + 1 < j < |s| - 1 && s[i] == '@' && s[j] == '.'
    requires Part(s[..i]) && Part(s[i + 1..j]) && Part(s[j + 1..])
    ensures NoSpace(s, JavaScript)
    ensures forall k :: 0 <= k < |s| && k != i ==> !IsAt(s[k])
  {
    assert s[..i] == s[0..i] && s[j + 1..] == s[j + 1..|s|];
    forall k | 0 <= k < |s|
      ensures !IsSpace(s[k], JavaScript) && (k != i ==> !IsAt(s[k]))
    {
      if k < i {
        PartAt(s, 0, i, k);
      } else if i < k < j {
        PartAt(s, i + 1, j, k);
      } else if j < k {
        PartAt(s, j + 1, |s|, k);
      }
    }
  }

  /** An address the pattern matches passes the direct check. */
  lemma {:induction false} PatternHasShape(s: string)
    requires EmailPattern(s)
    ensures EmailShape(s)
  {
    var i, j :| 0 < i && i + 1 < j < |s| - 1 && s[i] == '@' && s[j] == '.'
                && Part(s[..i]) && Part(s[i + 1..j]) && Part(s[j + 1..]);
    PatternChars(s, i, j);
    var found := Find(s, IsAt);
    assert IsAt(s[i]);
    assert found == Some(i);
  }

  /** The direct check accepts exactly what the pattern matches. */
  lemma EmailShapeIsPattern(s: string)
    ensures EmailShape(s) <==> EmailPattern(s)
  {
    if EmailShape(s) {
      ShapeHasPattern(s);
    }
    if EmailPattern(s) {
      PatternHasShape(s);
    }
  }

  /** What the pattern promises about an accepted address: one `@`, no white
      space, and a `.` after the `@` with text on both sides of it. */
  lemma EmailPatternShape(s: string)
    requires EmailPattern(s)
    ensures NoSpace(s, JavaScript)
    ensures exists i :: 0 < i < |s| && s[i] == '@' && forall k :: 0 <= k < |s| && s[k] == '@' ==> k == i
    ensures exists i, j :: 0 < i && i + 1 < j < |s| - 1 && s[i] == '@' && s[j] == '.'
  {
    EmailShapeIsPattern(s);
    var i := Find(s, IsAt).value;
    assert forall k :: 0 <= k < |s| && s[k] == '@' ==> k == i;
  }

  /** `input[required], textarea[required]` must not be blank. */
  predicate Filled(c: Control) {
    c.required ==> Trim(c.value, JavaScript) != []
  }

  /** `input[type="email"]`: a non-blank value must match the pattern. */
  predicate EmailOk(c: Control) {
    (c.tag == InputTag && c.kind == "email" && Trim(c.value, JavaScript) != []) ==> EmailShape(Trim(c.value, JavaScript))
  }

  /** The first `input` with the given name (jQuery's `.val()` reads the
      first match). */
  function FirstInput(form: Form, name: string): (r: Option<Control>)
    ensures r.Some? ==> r.value in form && r.value.tag == InputTag && r.value.name == name
    ensures r.None? <==> forall k :: 0 <= k < |form| ==> !(form[k].tag == InputTag && form[k].name == name)
  {
    match Find(form, (c: Control) => c.tag == InputTag && c.name == name)
    case None => None
    case Some(i) => Some(form[i])
  }

  /** When both password inputs exist their raw values must be equal. */
  predicate PasswordsMatch(form: Form) {
    var p1 := FirstInput(form, "password1");
    var p2 := FirstInput(form, "password2");
    p1.Some? && p2.Some? ==> p1.value.value == p2.value.value
  }

  /** The form passes all three checks of the submit handler. */
  predicate Valid(form: Form) {
    && (forall k :: 0 <= k < |form| ==> Filled(form[k]))
    && (forall k :: 0 <= k < |form| ==> EmailOk(form[k]))
    && PasswordsMatch(form)
  }

  /** The submit handler's first pass: every required field filled. */
  method CheckRequired(form: Form) returns (isValid: bool)
    ensures isValid <==> forall k :: 0 <= k < |form| ==> Filled(form[k])
  {
    isValid := true;
    var k := 0;
    while k < |form|
      invariant 0 <= k <= |form|
      invariant isValid <==> forall m :: 0 <= m < k ==> Filled(form[m])
    {
      isValid := isValid && Filled(form[k]);
      k := k + 1;
    }
  }

  /** The second pass: every non-blank e-mail field well formed. */
  method CheckEmails(form: Form) returns (isValid: bool)
    ensures isValid <==> forall k :: 0 <= k < |form| ==> EmailOk(form[k])
  {
    isValid := true;
    var k := 0;
    while k < |form|
      invariant 0 <= k <= |form|
      invariant isValid <==> forall m :: 0 <= m < k ==> EmailOk(form[m])
    {
      isValid := isValid && EmailOk(form[k]);
      k := k + 1;
    }
  }

  /** The submit handler's three passes over the form, accumulating
      `isValid` as the script does. */
  method ValidateForm(form: Form) returns (isValid: bool)
    ensures isValid <==> Valid(form)
  {
    isValid := CheckRequired(form);
    var emailsOk := CheckEmails(form);
    isValid := isValid && emailsOk;
    var password1 := FirstInput(form, "password1");
    var password2 := FirstInput(form, "password2");
    if password1.Some? && password2.Some? && password1.value.value != password2.value.value {
      isValid := false;
    }
  }

  /** What the submit event ends in: the browser's default action is either
      prevented, or allowed with the submit button disabled. */
  datatype Submission = Prevented | Sent(submitDisabled: bool)

  method OnSubmit(form: Form) returns (s: Submission)
    ensures s == Prevented <==> !Valid(form)
    ensures s.Sent? ==> s.submitDisabled
  {
    var isValid := ValidateForm(form);
    if !isValid {
      s := Prevented;
    } else {
      s := Sent(true);
    }
  }

  /** An address field holding only white space skips the pattern check. */
  lemma BlankEmailIsSkipped(c: Control)
    requires c.tag == InputTag && c.kind == "email" && Blank(c.value, JavaScript)
    ensures EmailOk(c)
  {
    TrimEmptyIffBlank(c.value, JavaScript);
  }

  /** An address with no `.` anywhere after an `@` fails the pattern. */
  lemma AddressWithoutDotFails(s: string)
    requires forall i, j :: 0 <= i < j < |s| && s[i] == '@' ==> s[j] != '.'
    ensures !EmailShape(s) && !EmailPattern(s)
  {
    EmailShapeIsPattern(s);
  }

  /** A form whose first `password1` and `password2` inputs hold different
      text is invalid, whatever else it holds. */
  lemma MismatchedPasswordsFail(form: Form)
    requires FirstInput(form, "password1").Some? && FirstInput(form, "password2").Some?
    requires FirstInput(form, "password1").value.value != FirstInput(form, "password2").value.value
    ensures !Valid(form)
  {
  }

  /** Two password inputs at the head of a form decide the confirmation,
      whatever controls follow them. */
  lemma LeadingPasswordsDecide(first: string, second: string, rest: Form)
    ensures var form := [Control(InputTag, "password", "password1", first, false),
                         Control(InputTag, "password", "password2", second, false)] + rest;
            PasswordsMatch(form) <==> first == second
  {
    var form := [Control(InputTag, "password", "password1", first, false),
                 Control(InputTag, "password", "password2", second, false)] + rest;
    assert FirstInput(form, "password1") == Some(form[0]);
    assert FirstInput(form, "password2") == Some(form[1]);
  }

  /** `#memoSearch`: a card stays shown when its lower-cased text contains
      the lower-cased query. */
  predicate Shows(text: string, query: string) {
    IndexOf(Lower(text), Lower(query)) > -1
  }

  /** Search is a case-insensitive substring test: the card shows exactly
      when the lower-cased query occurs somewhere in the lower-cased text. */
  lemma ShowsIffContains(text: string, query: string)
    ensures Shows(text, query) <==> exists k :: OccursAt(Lower(text), Lower(query), k)
    ensures forall k :: OccursAt(text, query, k) ==> Shows(text, query)
    ensures Shows(text, Lower(query)) == Shows(text, query)
  {
    LowerIdempotent(query);
    forall k | OccursAt(text, query, k)
      ensures Shows(text, query)
    {
      LowerKeepsOccurrence(text, query, k);
    }
  }

  /** An empty query shows every card. */
  lemma EmptyQueryShowsAll(text: string)
    ensures Shows(text, "")
  {
    assert Lower("") == "";
    EmptyOccursFirst(Lower(text));
  }

  /** The `toggle` of every card, in page order. */
  function Search(cards: seq<string>, query: string): (shown: seq<bool>)
    ensures |shown| == |cards|
    ensures forall i :: 0 <= i < |cards| ==> (shown[i] <==> exists k :: OccursAt(Lower(cards[i]), Lower(query), k))
  {
    seq(|cards|, i requires 0 <= i < |cards| => Shows(cards[i], query))
  }
}

=== FILE: forms.dfy ===
/** Server-side field cleaning as the Django forms in this repository use it:
    submitted data is a map from field name to text; a text field is stripped,
    must not end up empty, and may have a maximum length; a choice field must
    hold one of its stored values. The form-specific `clean_<field>` rules live
    with their forms (`Memos`, `Registration`). */
module Forms {
  import opened Optional
  import opened Text

  /** Submitted form data (`request.POST`). */
  type FormData = map<string, string>

  datatype FieldError =
    | Required
    | TooLong(limit: nat)
    | TooShort(minimum: nat)
    | InvalidChoice
    | Malformed
    | AlreadyTaken
    | NullCharacter
    | PasswordMismatch
    | WeakPassword

  /** The outcome of cleaning one field. */
  datatype Checked<T> = Accept(value: T) | Reject(error: FieldError)

  /** The errors of a bound form, by field name. */
  type Errors = map<string, FieldError>

  /** The submitted text of a field; an absent field reads as empty. */
  function Raw(data: FormData, name: string): string {
    if name in data then data[name] else ""
  }

  /** The character `ProhibitNullCharactersValidator` refuses. */
  const Null: char := '\0'

  /** A required text field that strips surrounding white space
      (`forms.CharField` with its defaults), optionally with a `max_length`.
      Every `CharField` also refuses a null character. */
  function CharField(data: FormData, name: string, maxLength: Option<nat>): (r: Checked<string>)
    ensures r == Reject(Required) <==> Blank(Raw(data, name), Python)
    ensures r.Accept? <==>
              && !Blank(Raw(data, name), Python)
              && (maxLength.Some? ==> |Trim(Raw(data, name), Python)| <= maxLength.value)
              && Null !in Trim(Raw(data, name), Python)
    ensures r.Accept? ==> r.value == Trim(Raw(data, name), Python) && r.value != []
    ensures r.Reject? ==> r.error in {Required, NullCharacter} || (maxLength.Some? && r.error == TooLong(maxLength.value))
  {
    var value := Trim(Raw(data, name), Python);
    TrimEmptyIffBlank(Raw(data, name), Python);
    if value == [] then Reject(Required)
    else if maxLength.Some? && |value| > maxLength.value then Reject(TooLong(maxLength.value))
    else if Null in value then Reject(NullCharacter)
    else Accept(value)
  }

  /** A password field (`forms.CharField(strip=False)`): the value is kept as
      typed, so only the empty string counts as missing, and a null character
      is refused. */
  function PasswordField(data: FormData, name: string): (r: Checked<string>)
    ensures r.Accept? <==> Raw(data, name) != [] && Null !in Raw(data, name)
    ensures r.Accept? ==> r.value == Raw(data, name)
    ensures r == Reject(Required) <==> Raw(data, name) == []
  {
    var value := Raw(data, name);
    if value == [] then Reject(Required)
    else if Null in value then Reject(NullCharacter)
    else Accept(value)
  }

  /** A required choice field: the submitted value must be one of `choices`. */
  function ChoiceField(data: FormData, name: string, choices: seq<string>): (r: Checked<string>)
    ensures r.Accept? <==> Raw(data, name) != [] && Raw(data, name) in choices
    ensures r.Accept? ==> r.value == Raw(data, name)
    ensures r == Reject(Required) <==> Raw(data, name) == []
  {
    var value := Raw(data, name);
    if value == [] then Reject(Required)
    else if value !in choices then Reject(InvalidChoice)
    else Accept(value)
  }

  /** The error a field contributes to its form's error map. */
  function ErrorOf<T>(name: string, c: Checked<T>): Errors {
    if c.Reject? then map[name := c.error] else map[]
  }

  /** Merging the errors of two differently named fields keeps both. */
  lemma MergedErrors<S, T>(a: string, ca: Checked<S>, b: string, cb: Checked<T>)
    requires a != b
    ensures var e := ErrorOf(a, ca) + ErrorOf(b, cb);
            && (a in e <==> ca.Reject?) && (b in e <==> cb.Reject?)
            && (forall k :: k in e ==> k == a || k == b)
            && (a in e ==> e[a] == ca.error) && (b in e ==> e[b] == cb.error)
  {
  }
}

=== FILE: memos.dfy ===
/** The `memos` app of the Memo project: private memos that only their author
    can list, read, edit or delete, an optional category filter on the list,
    and a form with minimum lengths for title and content. */
module Memos {
  import opened Optional
  import opened Seqs
  import opened Text
  import opened Forms
  import opened Access

  type MemoId = nat

  /** A memo. `category` is the stored category code, `None` for SQL NULL;
      the model file declares no such column although the list view filters
      on it, so it is added here. Timestamps are in microseconds. */
  datatype Memo = Memo(
    id: MemoId,
    title: string,
    content: string,
    author: Account,
    category: Option<string>,
    createdAt: int,
    updatedAt: int)

  /** The category codes the list view recognises. */
  const CategoryCodes: seq<string> := ["daily", "work", "personal"]

  /** The query value that selects uncategorised memos. */
  const UncategorisedParam: string := "none"

  /** `__str__`: the title, a dash, and the author's user name. */
  function Label(m: Memo): (r: string)
    ensures |r| == |m.title| + 3 + |m.author.username|
    ensures r[..|m.title|] == m.title && r[|m.title| + 3..] == m.author.username
    ensures r[|m.title|..|m.title| + 3] == " - "
  {
    m.title + " - " + m.author.username
  }

  /** One day in microseconds (`timedelta(days=1)`). */
  const OneDay: int := 86_400_000_000

  /** `is_recently_created`: created less than a day before `now`. */
  predicate IsRecentlyCreated(m: Memo, now: int) {
    now - m.createdAt < OneDay
  }

  /** A memo is recent from its creation until exactly one day later, when it
      stops being recent for good. */
  lemma RecentWindow(m: Memo, now: int, later: int)
    requires now <= later
    ensures IsRecentlyCreated(m, m.createdAt)
    ensures !IsRecentlyCreated(m, m.createdAt + OneDay)
    ensures !IsRecentlyCreated(m, now) ==> !IsRecentlyCreated(m, later)
    ensures IsRecentlyCreated(m, now) <==> m.createdAt > now - OneDay
  {
  }

  /** What the `category` query parameter does to the list. */
  datatype CategoryFilter =
    | AnyCategory
    | Uncategorised
    | OnlyCategory(code: string)
    | NoMemo

  /** `MemoListView.get_queryset` as written: no parameter or an empty one
      leaves the list alone, `none` selects NULL categories, a known code
      selects that code, and any other value is ignored. */
  function FilterFor(param: Option<string>): (f: CategoryFilter)
    ensures f != NoMemo
    ensures f.OnlyCategory? <==> param.Some? && param.value in CategoryCodes
    ensures f.OnlyCategory? ==> f.code == param.value
    ensures f == Uncategorised <==> param == Some(UncategorisedParam)
    ensures f == AnyCategory <==>
              param.None? || (param.value !in CategoryCodes && param.value != UncategorisedParam)
  {
    match param
    case None => AnyCategory
    case Some(c) =>
      if c == [] then AnyCategory
      else if c == UncategorisedParam then Uncategorised
      else if c in CategoryCodes then OnlyCategory(c)
      else AnyCategory
  }

  /** A memo passes a filter as written: `Uncategorised` is `category__isnull`. */
  predicate Matches(m: Memo, f: CategoryFilter) {
    match f
    case AnyCategory => true
    case Uncategorised => m.category.None?
    case OnlyCategory(code) => m.category == Some(code)
    case NoMemo => false
  }

  function MatchesFor(f: CategoryFilter): Memo -> bool {
    (m: Memo) => Matches(m, f)
  }

  function OwnedBy(uid: UserId): Memo -> bool {
    (m: Memo) => m.author.id == uid
  }

  /** `-created_at`. */
  predicate NewerFirst(a: Memo, b: Memo) {
    a.createdAt >= b.createdAt
  }

  lemma NewerFirstIsTotalPreorder()
    ensures TotalPreorder(NewerFirst)
  {
  }

  /** A page of the list: the memos and the `current_category` echoed to the
      template. */
  datatype MemoPage = MemoPage(memos: seq<Memo>, currentCategory: string)

  /** The query set before ordering: the requester's memos, then the
      category filter (none for `AnyCategory`), each keeping the table's
      order. */
  function Narrowed(table: seq<Memo>, uid: UserId, f: CategoryFilter): (r: seq<Memo>)
    ensures forall m :: m in r <==> m in table && m.author.id == uid && Matches(m, f)
    ensures multiset(r) <= multiset(Filter(table, OwnedBy(uid)))
    ensures f == AnyCategory ==> r == Filter(table, OwnedBy(uid))
  {
    var owned := Filter(table, OwnedBy(uid));
    FilterMembers(table, OwnedBy(uid));
    if f == AnyCategory then owned
    else
      FilterMembers(owned, MatchesFor(f));
      Filter(owned, MatchesFor(f))
  }

  /** The requester's memos, narrowed by `f`, newest first. */
  function Listing(table: seq<Memo>, uid: UserId, f: CategoryFilter): (r: seq<Memo>)
    ensures multiset(r) == multiset(Narrowed(table, uid, f))
    ensures forall m :: m in r <==> m in table && m.author.id == uid && Matches(m, f)
    ensures Sorted(r, NewerFirst)
  {
    var narrowed := Narrowed(table, uid, f);
    NewerFirstIsTotalPreorder();
    SortIsSorted(narrowed, NewerFirst);
    var r := Sort(narrowed, NewerFirst);
    SameElements(r, narrowed);
    r
  }

  /** On a table already in the model's order, the listing is a subsequence
      of the table: the filters alone, with nothing reordered. */
  lemma {:induction false} ListingIsSubsequence(table: seq<Memo>, uid: UserId, f: CategoryFilter)
    requires Sorted(table, NewerFirst)
    ensures Listing(table, uid, f) == Narrowed(table, uid, f)
  {
    var owned := Filter(table, OwnedBy(uid));
    FilterKeepsSorted(table, OwnedBy(uid), NewerFirst);
    FilterKeepsSorted(owned, MatchesFor(f), NewerFirst);
    SortOfSorted(Narrowed(table, uid, f), NewerFirst);
  }

  /** `MemoListView`: login required; then the requester's memos filtered as
      the `category` parameter says, with `current_category` defaulting to
      `all`. */
  function ListMemos(table: seq<Memo>, viewer: Viewer, category: Option<string>): (r: Response<MemoPage>)
    ensures r.Err? <==> viewer.Anonymous?
    ensures r.Err? ==> r.denial == LoginRequired
    ensures r.Ok? ==>
              && r.value.memos == Listing(table, viewer.account.id, FilterFor(category))
              && r.value.currentCategory == (if category.Some? then category.value else "all")
  {
    if viewer.Anonymous? then Err(LoginRequired)
    else Ok(MemoPage(Listing(table, viewer.account.id, FilterFor(category)), category.GetOr("all")))
  }

  /** Nobody sees anyone else's memo in the list, and a category narrows the
      unfiltered list. */
  lemma ListShowsOnlyOwnMemos(table: seq<Memo>, viewer: Viewer, category: Option<string>)
    requires viewer.User?
    ensures var r := ListMemos(table, viewer, category).value.memos;
            && (forall i :: 0 <= i < |r| ==> IsAuthor(viewer, r[i].author.id))
            && multiset(r) <= multiset(ListMemos(table, viewer, None).value.memos)
  {
  }

  /** As written, an unrecognised category is ignored: the page lists every
      memo of the requester. */
  lemma UnknownCategoryIsIgnored(table: seq<Memo>, viewer: Viewer, c: string)
    requires viewer.User?
    requires c !in CategoryCodes && c != UncategorisedParam
    ensures ListMemos(table, viewer, Some(c)).value.memos == ListMemos(table, viewer, None).value.memos
  {
  }

  /** As written, `none` misses a memo whose category was saved blank. */
  lemma BlankCategoryIsNotUncategorised(m: Memo, viewer: Viewer)
    requires viewer.User? && m.author == viewer.account && m.category == Some("")
    ensures ListMemos([m], viewer, Some(UncategorisedParam)).value.memos == []
    ensures ListMemos([m], viewer, Some("invalid")).value.memos == [m]
  {
    assert Filter([m], OwnedBy(viewer.account.id)) == [m];
    assert Filter([m], MatchesFor(Uncategorised)) == [];
  }

  /** The list filter the tests describe: an unrecognised category lists
      nothing, and `none` lists memos whose category is NULL or blank. */
  function FilterAsTested(param: Option<string>): (f: CategoryFilter)
    ensures f == NoMemo <==>
              param.Some? && param.value != [] && param.value != UncategorisedParam && param.value !in CategoryCodes
    ensures f != NoMemo ==> f == FilterFor(param)
  {
    match param
    case Some(c) =>
      if c != [] && c != UncategorisedParam && c !in CategoryCodes then NoMemo else FilterFor(param)
    case None => FilterFor(param)
  }

  /** Memos without a category, however it was stored. */
  predicate HasNoCategory(m: Memo) {
    m.category.None? || m.category == Some("")
  }

  predicate MatchesAsTested(m: Memo, f: CategoryFilter) {
    if f == Uncategorised then HasNoCategory(m) else Matches(m, f)
  }

  function MatchesAsTestedFor(f: CategoryFilter): Memo -> bool {
    (m: Memo) => MatchesAsTested(m, f)
  }

  /** The corrected list view. */
  function ListMemosAsTested(table: seq<Memo>, viewer: Viewer, category: Option<string>): (r: Response<MemoPage>)
    ensures r.Err? <==> viewer.Anonymous?
    ensures r.Err? ==> r.denial == LoginRequired
    ensures r.Ok? ==> r.value.currentCategory == (if category.Some? then category.value else "all")
    ensures r.Ok? ==> Sorted(r.value.memos, NewerFirst)
    ensures r.Ok? ==> forall m :: m in r.value.memos <==>
              m in table && IsAuthor(viewer, m.author.id) && MatchesAsTested(m, FilterAsTested(category))
  {
    if viewer.Anonymous? then Err(LoginRequired)
    else
      var uid := viewer.account.id;
      var f := FilterAsTested(category);
      var owned := Filter(table, OwnedBy(uid));
      var narrowed := Filter(owned, MatchesAsTestedFor(f));
      NewerFirstIsTotalPreorder();
      SortIsSorted(narrowed, NewerFirst);
      var r := Sort(narrowed, NewerFirst);
      SameElements(r, narrowed);
      FilterMembers(table, OwnedBy(uid));
      FilterMembers(owned, MatchesAsTestedFor(f));
      Ok(MemoPage(r, category.GetOr("all")))
  }

  /** With the correction an unrecognised category lists nothing. */
  lemma UnknownCategoryListsNothingAsTested(table: seq<Memo>, viewer: Viewer, c: string)
    requires viewer.User? && c != [] && c != UncategorisedParam && c !in CategoryCodes
    ensures ListMemosAsTested(table, viewer, Some(c)).value.memos == []
  {
  }

  /** With the correction a known category lists the same memos as
      before. */
  lemma AsTestedRefinesAsWritten(table: seq<Memo>, viewer: Viewer, c: string)
    requires viewer.User? && c in CategoryCodes
    ensures multiset(ListMemosAsTested(table, viewer, Some(c)).value.memos)
              == multiset(ListMemos(table, viewer, Some(c)).value.memos)
  {
    var owned := Filter(table, OwnedBy(viewer.account.id));
    FilterSameKeep(owned, MatchesAsTestedFor(OnlyCategory(c)), MatchesFor(OnlyCategory(c)));
  }

  /** A memo saved with a blank category is listed under `none` by the
      corrected view. */
  lemma BlankCategoryListedAsTested(m: Memo, viewer: Viewer)
    requires viewer.User? && m.author == viewer.account && m.category == Some("")
    ensures ListMemosAsTested([m], viewer, Some(UncategorisedParam)).value.memos == [m]
  {
    assert Filter([m], OwnedBy(viewer.account.id)) == [m];
    assert Filter([m], MatchesAsTestedFor(Uncategorised)) == [m];
  }

  function HasId(pk: MemoId): Memo -> bool {
    (m: Memo) => m.id == pk
  }

  /** The position of the row with primary key `pk`. */
  function Lookup(table: seq<Memo>, pk: MemoId): (r: Option<nat>)
    ensures r.Some? ==> r.value < |table| && table[r.value].id == pk
    ensures r.None? <==> forall k :: 0 <= k < |table| ==> table[k].id != pk
  {
    Find(table, HasId(pk))
  }

  function AuthorAt(table: seq<Memo>, pk: MemoId): Option<UserId> {
    match Lookup(table, pk)
    case None => None
    case Some(i) => Some(table[i].author.id)
  }

  /** `MemoDetailView`: only the author may read a memo. */
  function Detail(table: seq<Memo>, viewer: Viewer, pk: MemoId): (r: Response<Memo>)
    ensures r.Ok? <==> AuthorOnly(viewer, AuthorAt(table, pk)) == Allow
    ensures r.Ok? ==> r.value in table && r.value.id == pk && IsAuthor(viewer, r.value.author.id)
    ensures r.Err? ==> r == Err(AuthorOnly(viewer, AuthorAt(table, pk)).denial)
  {
    match AuthorOnly(viewer, AuthorAt(table, pk))
    case Deny(d) => Err(d)
    case Allow => Ok(table[Lookup(table, pk).value])
  }

  /** Every memo the detail view shows is in its reader's unfiltered list. */
  lemma DetailAgreesWithList(table: seq<Memo>, viewer: Viewer, pk: MemoId)
    requires Detail(table, viewer, pk).Ok?
    ensures Detail(table, viewer, pk).value in ListMemos(table, viewer, None).value.memos
  {
    var i := Lookup(table, pk).value;
    assert table[i].author.id == viewer.account.id && Matches(table[i], AnyCategory);
  }

  /** `MemoForm.clean_title`: the required, stripped title (at most 200
      characters, the column's limit) must have at least 2 characters. */
  function CleanTitle(data: FormData): (r: Checked<string>)
    ensures r.Accept? <==> CharField(data, "title", Some(200)).Accept? && |Trim(Raw(data, "title"), Python)| >= 2
    ensures r.Accept? ==> r.value == Trim(Raw(data, "title"), Python) && 2 <= |r.value| <= 200
    ensures CharField(data, "title", Some(200)).Accept? && r.Reject? ==> r.error == TooShort(2)
  {
    match CharField(data, "title", Some(200))
    case Reject(e) => Reject(e)
    case Accept(title) => if |title| < 2 then Reject(TooShort(2)) else Accept(title)
  }

  /** `MemoForm.clean_content`: the required, stripped content must have at
      least 5 characters. */
  function CleanContent(data: FormData): (r: Checked<string>)
    ensures r.Accept? <==>
              && !Blank(Raw(data, "content"), Python)
              && Null !in Trim(Raw(data, "content"), Python)
              && |Trim(Raw(data, "content"), Python)| >= 5
    ensures r.Accept? ==> r.value == Trim(Raw(data, "content"), Python) && |r.value| >= 5
    ensures r == Reject(Required) <==> Blank(Raw(data, "content"), Python)
    ensures CharField(data, "content", None).Accept? && r.Reject? ==> r.error == TooShort(5)
  {
    match CharField(data, "content", None)
    case Reject(e) => Reject(e)
    case Accept(content) => if |content| < 5 then Reject(TooShort(5)) else Accept(content)
  }

  /** Surrounding white space does not count towards the minimum lengths:
      a value padded with a space on each side is judged by its core alone. */
  lemma PaddingDoesNotCount(core: string)
    requires core != [] && !IsSpace(core[0], Python) && !IsSpace(core[|core| - 1], Python)
    ensures CleanTitle(map["title" := " " + core + " "]).Accept? <==> 2 <= |core| <= 200 && Null !in core
    ensures CleanContent(map["content" := " " + core + " "]).Accept? <==> 5 <= |core| && Null !in core
  {
    var padded := " " + core + " ";
    TrimPadded(core, Python);
    assert !IsSpace(padded[1], Python);
    assert Raw(map["title" := padded], "title") == padded;
    assert Raw(map["content" := padded], "content") == padded;
  }

  /** The whole `MemoForm`. */
  function CleanMemoForm(data: FormData): (r: Response<(string, string)>)
    ensures r.Ok? <==> CleanTitle(data).Accept? && CleanContent(data).Accept?
    ensures r.Ok? ==> r.value == (CleanTitle(data).value, CleanContent(data).value)
    ensures r.Err? ==> r.denial.InvalidForm?
  {
    var title := CleanTitle(data);
    var content := CleanContent(data);
    if title.Accept? && content.Accept? then Ok((title.value, content.value))
    else Err(InvalidForm(ErrorOf("content", content) + ErrorOf("title", title)))
  }

  /** A rejected form reports an error for exactly the fields that failed,
      each with the reason its cleaning gave. */
  lemma MemoFormErrors(data: FormData)
    requires CleanMemoForm(data).Err?
    ensures var e := CleanMemoForm(data).denial.errors;
            && ("title" in e <==> CleanTitle(data).Reject?)
            && ("content" in e <==> CleanContent(data).Reject?)
            && (forall k :: k in e ==> k == "title" || k == "content")
            && ("title" in e ==> e["title"] == CleanTitle(data).error)
            && ("content" in e ==> e["content"] == CleanContent(data).error)
  {
    MergedErrors("content", CleanContent(data), "title", CleanTitle(data));
  }

  /** `MemoCreateView.form_valid`: the author is always the requester; the
      category is not a form field, so the memo gets the column's default,
      the blank category. */
  function Create(viewer: Viewer, data: FormData, id: MemoId, now: int): (r: Response<Memo>)
    ensures viewer.Anonymous? ==> r == Err(LoginRequired)
    ensures r.Ok? <==> viewer.User? && CleanMemoForm(data).Ok?
    ensures r.Ok? ==> r.value.author == viewer.account && r.value.category == Some("")
    ensures r.Ok? ==> (r.value.title, r.value.content) == CleanMemoForm(data).value
    ensures r.Ok? ==> r.value.createdAt == now && r.value.updatedAt == now && IsRecentlyCreated(r.value, now)
  {
    if viewer.Anonymous? then Err(LoginRequired)
    else match CleanMemoForm(data)
      case Err(d) => Err(d)
      case Ok((title, content)) => Ok(Memo(id, title, content, viewer.account, Some(""), now, now))
  }

  /** As written, `none` misses every memo created through the view, since
      those carry the blank category; the corrected filter lists them. */
  lemma CreatedMemoMissedByNone(viewer: Viewer, data: FormData, id: MemoId, now: int)
    requires Create(viewer, data, id, now).Ok?
    ensures var m := Create(viewer, data, id, now).value;
            && ListMemos([m], viewer, Some(UncategorisedParam)).value.memos == []
            && ListMemosAsTested([m], viewer, Some(UncategorisedParam)).value.memos == [m]
  {
    var m := Create(viewer, data, id, now).value;
    BlankCategoryIsNotUncategorised(m, viewer);
    BlankCategoryListedAsTested(m, viewer);
  }

  /** `MemoUpdateView`: only the author may change title and content. */
  function Update(table: seq<Memo>, viewer: Viewer, pk: MemoId, data: FormData, now: int): (r: Response<seq<Memo>>)
    ensures AuthorOnly(viewer, AuthorAt(table, pk)).Deny? ==> r == Err(AuthorOnly(viewer, AuthorAt(table, pk)).denial)
    ensures r.Ok? <==> AuthorOnly(viewer, AuthorAt(table, pk)) == Allow && CleanMemoForm(data).Ok?
    ensures r.Ok? ==>
              var i := Lookup(table, pk).value;
              && |r.value| == |table|
              && IsAuthor(viewer, table[i].author.id)
              && r.value[i] == table[i].(title := CleanMemoForm(data).value.0,
                                         content := CleanMemoForm(data).value.1,
                                         updatedAt := now)
              && (forall k :: 0 <= k < |table| && k != i ==> r.value[k] == table[k])
  {
    match AuthorOnly(viewer, AuthorAt(table, pk))
    case Deny(d) => Err(d)
    case Allow =>
      var i := Lookup(table, pk).value;
      match CleanMemoForm(data)
      case Err(d) => Err(d)
      case Ok((title, content)) =>
        Ok(table[i := table[i].(title := title, content := content, updatedAt := now)])
  }

  /** `MemoDeleteView`: only the author may delete, and only that memo goes. */
  function Delete(table: seq<Memo>, viewer: Viewer, pk: MemoId): (r: Response<seq<Memo>>)
    ensures AuthorOnly(viewer, AuthorAt(table, pk)).Deny? ==> r == Err(AuthorOnly(viewer, AuthorAt(table, pk)).denial)
    ensures r.Ok? <==> AuthorOnly(viewer, AuthorAt(table, pk)) == Allow
    ensures r.Ok? ==>
              var i := Lookup(table, pk).value;
              && IsAuthor(viewer, table[i].author.id)
              && multiset(r.value) + multiset{table[i]} == multiset(table)
  {
    match AuthorOnly(viewer, AuthorAt(table, pk))
    case Deny(d) => Err(d)
    case Allow =>
      var i := Lookup(table, pk).value;
      assert table == table[..i] + [table[i]] + table[i + 1..];
      Ok(RemoveAt(table, i))
  }

  /** After the author deletes a memo, their list no longer shows it (keys
      being unique). */
  lemma DeleteRemovesFromList(table: seq<Memo>, viewer: Viewer, pk: MemoId)
    requires Delete(table, viewer, pk).Ok?
    requires forall a, b :: 0 <= a < b < |table| ==> table[a].id != table[b].id
    ensures forall i :: 0 <= i < |ListMemos(Delete(table, viewer, pk).value, viewer, None).value.memos| ==>
              ListMemos(Delete(table, viewer, pk).value, viewer, None).value.memos[i].id != pk
  {
    var i := Lookup(table, pk).value;
    var rest := Delete(table, viewer, pk).value;
    forall k | 0 <= k < |rest|
      ensures rest[k].id != pk
    {
      if k < i {
        assert rest[k] == table[k];
      } else {
        assert rest[k] == table[k + 1];
      }
    }
  }
}

=== FILE: optional.dfy ===
/** The conventional Some/None datatype, used for absent query parameters,
    missing rows and unset categories. */
module Optional {

  datatype Option<+T> = None | Some(value: T) {

    /** The value, or `default` when there is none (Python's `dict.get(key, default)`). */
    function GetOr(default: T): T {
      match this
      case Some(v) => v
      case None => default
    }
  }
}

=== FILE: posts.dfy ===
/** The `posts` app of the Blog project: posts with a lower-case visibility
    choice and a view counter; the list hides other people's private posts and
    can sort by views, the detail view refuses private posts to non-authors and
    counts each permitted fetch. */
module Posts {
  import opened Optional
  import opened Seqs
  import opened Text
  import opened Forms
  import opened Access

  datatype Visibility = Public | Private

  /** The value stored in the `visibility` column (`VISIBILITY_CHOICES`). */
  function Code(v: Visibility): string {
    match v
    case Public => "public"
    case Private => "private"
  }

  const Choices: seq<string> := ["public", "private"]

  /** The choice a stored value denotes. */
  function Parse(s: string): (r: Option<Visibility>)
    ensures r.Some? <==> s in Choices
    ensures r.Some? ==> Code(r.value) == s
  {
    if s == "public" then Some(Public)
    else if s == "private" then Some(Private)
    else None
  }

  /** Each choice is stored as exactly one of the two values and reads back
      unchanged. */
  lemma CodeRoundTrip(v: Visibility)
    ensures Code(v) in Choices
    ensures Parse(Code(v)) == Some(v)
  {
  }

  const DefaultVisibility: Visibility := Public

  type PostId = nat

  /** A post. `views` is the counter the detail view increments; the model
      file declares no such column, so it is added here starting at 0. */
  datatype Post = Post(
    id: PostId,
    title: string,
    content: string,
    author: UserId,
    visibility: Visibility,
    createdAt: int,
    updatedAt: int,
    views: nat)

  /** What `__str__` displays. */
  function Label(p: Post): (r: string)
    ensures r == p.title
  {
    p.title
  }

  /** The list view's query: public posts, plus the requester's own posts
      when logged in. */
  predicate Listed(p: Post, viewer: Viewer) {
    if viewer.User? then p.visibility == Public || p.author == viewer.account.id
    else p.visibility == Public
  }

  function ListedFor(viewer: Viewer): Post -> bool {
    (p: Post) => Listed(p, viewer)
  }

  /** `-created_at`: newer first. */
  predicate NewerFirst(a: Post, b: Post) {
    a.createdAt >= b.createdAt
  }

  /** `-views`, then `-created_at`. */
  predicate MoreViewedFirst(a: Post, b: Post) {
    a.views > b.views || (a.views == b.views && a.createdAt >= b.createdAt)
  }

  lemma OrdersAreTotalPreorders()
    ensures TotalPreorder(NewerFirst)
    ensures TotalPreorder(MoreViewedFirst)
  {
  }

  /** The ordering a `sort` query parameter selects. */
  function OrderFor(sort: Option<string>): (Post, Post) -> bool {
    if sort == Some("views") then MoreViewedFirst else NewerFirst
  }

  /** A page of the list view: the posts and the `sort` value echoed to the
      template. */
  datatype Page = Page(posts: seq<Post>, sort: string)

  /** `PostListView.get_queryset` and `get_context_data`. */
  function ListPage(store: seq<Post>, viewer: Viewer, sort: Option<string>): (r: Page)
    ensures multiset(r.posts) == multiset(Filter(store, ListedFor(viewer)))
    ensures forall p :: p in r.posts <==> p in store && Listed(p, viewer)
    ensures viewer.Anonymous? ==> forall p :: p in r.posts ==> p.visibility == Public
    ensures sort == Some("views") ==> Sorted(r.posts, MoreViewedFirst)
    ensures sort != Some("views") ==> Sorted(r.posts, NewerFirst)
    ensures r.sort == if sort.Some? then sort.value else "date"
  {
    var visible := Filter(store, ListedFor(viewer));
    var order := OrderFor(sort);
    assert TotalPreorder(order) by {
      OrdersAreTotalPreorders();
    }
    SortIsSorted(visible, order);
    var posts := Sort(visible, order);
    SameElements(posts, visible);
    FilterMembers(store, ListedFor(viewer));
    Page(posts, sort.GetOr("date"))
  }

  /** Listing a listing again gives the same page: the filter and the sort are
      both idempotent. */
  lemma ListPageIdempotent(store: seq<Post>, viewer: Viewer, sort: Option<string>)
    ensures ListPage(ListPage(store, viewer, sort).posts, viewer, sort) == ListPage(store, viewer, sort)
  {
    var once := ListPage(store, viewer, sort).posts;
    FilterAllKept(once, ListedFor(viewer));
    SortOfSorted(once, OrderFor(sort));
  }

  function HasId(pk: PostId): Post -> bool {
    (p: Post) => p.id == pk
  }

  /** The position of the row with primary key `pk`. */
  function Lookup(store: seq<Post>, pk: PostId): (r: Option<nat>)
    ensures r.Some? ==> r.value < |store| && store[r.value].id == pk
    ensures r.None? <==> forall k :: 0 <= k < |store| ==> store[k].id != pk
  {
    Find(store, HasId(pk))
  }

  function AuthorAt(store: seq<Post>, pk: PostId): Option<UserId> {
    match Lookup(store, pk)
    case None => None
    case Some(i) => Some(store[i].author)
  }

  /** A successful fetch: the post shown and the table after the counter was
      saved. */
  datatype Fetched = Fetched(post: Post, store: seq<Post>)

  /** A private post whose author is not the requester. */
  predicate Hidden(p: Post, viewer: Viewer) {
    p.visibility == Private && !(viewer.User? && viewer.account.id == p.author)
  }

  /** `PostDetailView.get_object` as written: a 404 for a missing key, a 403
      for a private post fetched by anyone but its author, and otherwise the
      post with its counter incremented and saved (`save()` also stamps
      `updated_at`). */
  function Detail(store: seq<Post>, viewer: Viewer, pk: PostId, now: int): (r: Response<Fetched>)
    ensures Lookup(store, pk).None? ==> r == Err(NotFound)
    ensures Lookup(store, pk).Some? ==>
              var i := Lookup(store, pk).value;
              && (r.Err? <==> Hidden(store[i], viewer))
              && (r.Err? ==> r.denial == Forbidden)
              && (r.Ok? ==>
                    && |r.value.store| == |store|
                    && r.value.post == r.value.store[i]
                    && r.value.post.views == store[i].views + 1
                    && r.value.post == store[i].(views := r.value.post.views, updatedAt := now)
                    && (forall k :: 0 <= k < |store| && k != i ==> r.value.store[k] == store[k]))
  {
    match Lookup(store, pk)
    case None => Err(NotFound)
    case Some(i) =>
      var p := store[i];
      if p.visibility == Private && (viewer.Anonymous? || viewer.account.id != p.author) then
        Err(Forbidden)
      else
        var shown := p.(views := p.views + 1, updatedAt := now);
        Ok(Fetched(shown, store[i := shown]))
  }

  /** The detail view admits exactly the posts the list view shows the same
      requester. */
  lemma DetailAgreesWithList(store: seq<Post>, viewer: Viewer, pk: PostId, now: int)
    requires Lookup(store, pk).Some?
    ensures Detail(store, viewer, pk, now).Ok? <==> Listed(store[Lookup(store, pk).value], viewer)
  {
  }

  /** The detail view as the tests expect it: a private post refused to its
      requester is answered with the same 404 as a key no row has. */
  function DetailHidingPrivate(store: seq<Post>, viewer: Viewer, pk: PostId, now: int): (r: Response<Fetched>)
    ensures r.Err? ==> r.denial == NotFound
    ensures r.Ok? == Detail(store, viewer, pk, now).Ok?
    ensures r.Ok? ==> r == Detail(store, viewer, pk, now)
  {
    match Detail(store, viewer, pk, now)
    case Ok(f) => Ok(f)
    case Err(_) => Err(NotFound)
  }

  /** With the corrected view, fetching a post hidden from the requester is
      indistinguishable from fetching a key that does not exist. */
  lemma HiddenLooksMissing(store: seq<Post>, viewer: Viewer, pk: PostId, absent: PostId, now: int)
    requires Lookup(store, pk).Some? && Hidden(store[Lookup(store, pk).value], viewer)
    requires Lookup(store, absent).None?
    ensures DetailHidingPrivate(store, viewer, pk, now) == DetailHidingPrivate(store, viewer, absent, now)
  {
  }

  /** As written, the response tells an anonymous visitor that a private post
      exists: a 403 where a missing key gives a 404. */
  lemma DetailRevealsPrivatePost()
    ensures var store := [Post(1, "secret", "text", 7, Private, 0, 0, 0)];
            && Detail(store, Anonymous, 1, 5) == Err(Forbidden)
            && Detail(store, Anonymous, 2, 5) == Err(NotFound)
  {
    var store := [Post(1, "secret", "text", 7, Private, 0, 0, 0)];
    assert Lookup(store, 1) == Some(0);
    assert Lookup(store, 2) == None;
  }

  /** The fields of the create and update form. */
  const FormFields: seq<string> := ["title", "content", "visibility"]

  /** Title, content and visibility as `PostForm` accepts them. */
  function CleanPostForm(data: FormData): (r: Response<(string, string, Visibility)>)
    ensures r.Ok? <==>
              && CharField(data, "title", Some(200)).Accept?
              && CharField(data, "content", None).Accept?
              && Raw(data, "visibility") in Choices
    ensures r.Ok? ==> r.value.0 == Trim(Raw(data, "title"), Python) && r.value.1 == Trim(Raw(data, "content"), Python)
    ensures r.Ok? ==> Parse(Raw(data, "visibility")) == Some(r.value.2)
    ensures r.Err? ==> r.denial.InvalidForm?
  {
    var title := CharField(data, "title", Some(200));
    var content := CharField(data, "content", None);
    var visibility := ChoiceField(data, "visibility", Choices);
    var parsed := Parse(Raw(data, "visibility"));
    if title.Accept? && content.Accept? && visibility.Accept? && parsed.Some? then
      Ok((title.value, content.value, parsed.value))
    else
      Err(InvalidForm(ErrorOf("title", title) + ErrorOf("content", content) + ErrorOf("visibility", visibility)))
  }

  /** `PostCreateView.form_valid`: login required, and the author is always
      the requester. */
  function Create(viewer: Viewer, data: FormData, id: PostId, now: int): (r: Response<Post>)
    ensures viewer.Anonymous? ==> r == Err(LoginRequired)
    ensures r.Ok? <==> viewer.User? && CleanPostForm(data).Ok?
    ensures r.Ok? ==> r.value.author == viewer.account.id
    ensures r.Ok? ==> (r.value.title, r.value.content, r.value.visibility) == CleanPostForm(data).value
    ensures r.Ok? ==> r.value.views == 0 && r.value.createdAt == now && r.value.updatedAt == now
  {
    if viewer.Anonymous? then Err(LoginRequired)
    else match CleanPostForm(data)
      case Err(d) => Err(d)
      case Ok((title, content, visibility)) =>
        Ok(Post(id, title, content, viewer.account.id, visibility, now, now, 0))
  }

  /** A forged `author` (or any other field outside the form) has no effect. */
  lemma {:induction false} CreateIgnoresOtherFields(viewer: Viewer, data: FormData, key: string, value: string, id: PostId, now: int)
    requires key !in FormFields
    ensures Create(viewer, data[key := value], id, now) == Create(viewer, data, id, now)
  {
    var data' := data[key := value];
    assert Raw(data', "title") == Raw(data, "title");
    assert Raw(data', "content") == Raw(data, "content");
    assert Raw(data', "visibility") == Raw(data, "visibility");
    assert CleanPostForm(data') == CleanPostForm(data);
  }

  /** `PostUpdateView`: only the author may change title, content and
      visibility; no other post changes. */
  function Update(store: seq<Post>, viewer: Viewer, pk: PostId, data: FormData, now: int): (r: Response<seq<Post>>)
    ensures AuthorOnly(viewer, AuthorAt(store, pk)).Deny? ==> r == Err(AuthorOnly(viewer, AuthorAt(store, pk)).denial)
    ensures r.Ok? <==> AuthorOnly(viewer, AuthorAt(store, pk)) == Allow && CleanPostForm(data).Ok?
    ensures r.Ok? ==>
              var i := Lookup(store, pk).value;
              && |r.value| == |store|
              && IsAuthor(viewer, store[i].author)
              && r.value[i].id == pk
              && r.value[i].author == store[i].author
              && r.value[i].views == store[i].views
              && r.value[i].createdAt == store[i].createdAt
              && (r.value[i].title, r.value[i].content, r.value[i].visibility) == CleanPostForm(data).value
              && r.value[i].updatedAt == now
              && (forall k :: 0 <= k < |store| && k != i ==> r.value[k] == store[k])
  {
    match AuthorOnly(viewer, AuthorAt(store, pk))
    case Deny(d) => Err(d)
    case Allow =>
      var i := Lookup(store, pk).value;
      match CleanPostForm(data)
      case Err(d) => Err(d)
      case Ok((title, content, visibility)) =>
        Ok(store[i := store[i].(title := title, content := content, visibility := visibility, updatedAt := now)])
  }

  /** `PostDeleteView`: only the author may delete, and only that post goes. */
  function Delete(store: seq<Post>, viewer: Viewer, pk: PostId): (r: Response<seq<Post>>)
    ensures AuthorOnly(viewer, AuthorAt(store, pk)).Deny? ==> r == Err(AuthorOnly(viewer, AuthorAt(store, pk)).denial)
    ensures r.Ok? <==> AuthorOnly(viewer, AuthorAt(store, pk)) == Allow
    ensures r.Ok? ==>
              var i := Lookup(store, pk).value;
              && IsAuthor(viewer, store[i].author)
              && multiset(r.value) + multiset{store[i]} == multiset(store)
  {
    match AuthorOnly(viewer, AuthorAt(store, pk))
    case Deny(d) => Err(d)
    case Allow =>
      var i := Lookup(store, pk).value;
      assert store == store[..i] + [store[i]] + store[i + 1..];
      Ok(RemoveAt(store, i))
  }

  /** A post the requester may edit or delete is one the list shows them. */
  lemma EditorSeesPostInList(store: seq<Post>, viewer: Viewer, pk: PostId)
    requires AuthorOnly(viewer, AuthorAt(store, pk)) == Allow
    ensures Listed(store[Lookup(store, pk).value], viewer)
  {
  }
}

=== FILE: prime.dfy ===
/** `PrimeChecker.IsPrime`: trial division by every candidate up to the square
    root. */
module PrimeChecker {
  import opened Arith

  /** `d` divides `n`. */
  predicate Divides(d: int, n: int)
    requires d > 0
  {
    n % d == 0
  }

  /** Mathematical primality: greater than one, and no divisor strictly
      between one and itself. */
  predicate IsPrimeNumber(n: int) {
    n > 1 && forall d :: 2 <= d < n ==> !Divides(d, n)
  }

  /** A candidate from 2 whose square stays within `n` is below `n`. */
  lemma CandidateBelow(n: int, i: int)
    requires 2 <= i && i * i <= n
    ensures i < n
  {
    MulMonotone(2, i, i, i);
  }

  /** A proper divisor `d` of `n` comes with the cofactor `n / d`, itself a
      proper divisor. */
  lemma Cofactor(n: int, d: int) returns (q: int)
    requires 2 <= d < n && Divides(d, n)
    ensures d * q == n && 2 <= q && Divides(q, n)
  {
    q := n / d;
    assert d * q == n;
    if q <= 1 {
      if q >= 0 {
        MulMonotone(d, d, q, 1);
      }
      assert false;
    }
    MultipleMod(n, q, d);
  }

  /** A divisor at or above the square root has a partner below it, so
      checking the candidates `d` with `d * d <= n` suffices. */
  lemma NoSmallDivisorMeansPrime(n: int, i: int)
    requires n > 1 && i >= 2 && i * i > n
    requires forall d :: 2 <= d < i ==> !Divides(d, n)
    ensures IsPrimeNumber(n)
  {
    forall d | 2 <= d < n
      ensures !Divides(d, n)
    {
      if d >= i && Divides(d, n) {
        var q := Cofactor(n, d);
        if q >= i {
          MulMonotone(i, d, i, q);
        }
      }
    }
  }

  /** `IsPrime`: numbers up to 1 are not prime; otherwise the first candidate
      `i` (from 2 while `i * i <= number`) that divides `number` makes it
      composite, and none doing so makes it prime. */
  method IsPrime(number: int) returns (r: bool)
    ensures r <==> IsPrimeNumber(number)
  {
    if number <= 1 {
      return false;
    }
    var i := 2;
    while i * i <= number
      invariant 2 <= i
      invariant forall d :: 2 <= d < i ==> !Divides(d, number)
      decreases number - i
    {
      if number % i == 0 {
        CandidateBelow(number, i);
        assert Divides(i, number);
        return false;
      }
      i := i + 1;
    }
    NoSmallDivisorMeansPrime(number, i);
    return true;
  }

  /** Two and three are prime: the loop body never runs for them; nothing
      at or below one is. */
  lemma SmallPrimes()
    ensures IsPrimeNumber(2) && IsPrimeNumber(3)
    ensures forall n :: n <= 1 ==> !IsPrimeNumber(n)
  {
  }

  /** Every even number above two is composite, witnessed by 2. */
  lemma EvenAboveTwoIsNotPrime(n: int)
    requires n > 2 && n % 2 == 0
    ensures !IsPrimeNumber(n)
  {
    assert Divides(2, n);
  }

  /** A divisor no larger than the square root rules a number out. */
  lemma SmallDivisorMeansComposite(n: int, i: int)
    requires 2 <= i && i * i <= n && Divides(i, n)
    ensures !IsPrimeNumber(n)
  {
    CandidateBelow(n, i);
  }
}

=== FILE: seqs.dfy ===
/** Order-preserving filters, a stable sort and keyed lookup over sequences:
    the parts of a database query set the views rely on (`filter`,
    `order_by`, `get(pk=...)`, `delete`). */
module Seqs {
  import opened Optional

  /** Every element of `s` that satisfies `keep`, in the order of `s`. */
  function Filter<T>(s: seq<T>, keep: T -> bool): (r: seq<T>)
    ensures |r| <= |s|
    ensures forall i :: 0 <= i < |r| ==> keep(r[i])
    ensures multiset(r) <= multiset(s)
  {
    if s == [] then []
    else
      var rest := Filter(s[1..], keep);
      assert s == [s[0]] + s[1..];
      assert multiset(s) == multiset{s[0]} + multiset(s[1..]);
      if keep(s[0]) then
        assert multiset([s[0]] + rest) == multiset{s[0]} + multiset(rest);
        [s[0]] + rest
      else rest
  }

  /** An element is kept exactly when it occurs in `s` and passes `keep`. */
  lemma {:induction false} FilterMembers<T>(s: seq<T>, keep: T -> bool)
    ensures forall x :: x in Filter(s, keep) <==> x in s && keep(x)
  {
    if s != [] {
      FilterMembers(s[1..], keep);
      assert s == [s[0]] + s[1..];
    }
  }

  /** Filtering a sequence whose elements all pass changes nothing; in
      particular filtering twice is filtering once. */
  lemma {:induction false} FilterAllKept<T>(s: seq<T>, keep: T -> bool)
    requires forall i :: 0 <= i < |s| ==> keep(s[i])
    ensures Filter(s, keep) == s
  {
    if s != [] {
      FilterAllKept(s[1..], keep);
    }
  }

  lemma FilterIdempotent<T>(s: seq<T>, keep: T -> bool)
    ensures Filter(Filter(s, keep), keep) == Filter(s, keep)
  {
    FilterAllKept(Filter(s, keep), keep);
  }

  /** Two filters in a row are one filter on the conjunction. */
  lemma {:induction false} FilterThenFilter<T>(s: seq<T>, p: T -> bool, q: T -> bool, both: T -> bool)
    requires forall x :: both(x) == (p(x) && q(x))
    ensures Filter(Filter(s, p), q) == Filter(s, both)
  {
    if s != [] {
      FilterThenFilter(s[1..], p, q, both);
    }
  }

  /** Filters that agree on the elements of `s` select the same elements. */
  lemma {:induction false} FilterSameKeep<T>(s: seq<T>, p: T -> bool, q: T -> bool)
    requires forall i :: 0 <= i < |s| ==> p(s[i]) == q(s[i])
    ensures Filter(s, p) == Filter(s, q)
  {
    if s != [] {
      FilterSameKeep(s[1..], p, q);
    }
  }

  /** `before(a, b)`: `a` may be listed ahead of `b`. */
  predicate Sorted<T>(s: seq<T>, before: (T, T) -> bool) {
    forall i, j :: 0 <= i < j < |s| ==> before(s[i], s[j])
  }

  ghost predicate TotalPreorder<T(!new)>(before: (T, T) -> bool) {
    && (forall a, b :: before(a, b) || before(b, a))
    && (forall a, b, c :: before(a, b) && before(b, c) ==> before(a, c))
  }

  /** What every element of `s` may follow, every kept element may follow. */
  lemma {:induction false} FilterKeepsBound<T>(a: T, s: seq<T>, keep: T -> bool, before: (T, T) -> bool)
    requires forall k :: 0 <= k < |s| ==> before(a, s[k])
    ensures forall j :: 0 <= j < |Filter(s, keep)| ==> before(a, Filter(s, keep)[j])
  {
    if s != [] {
      FilterKeepsBound(a, s[1..], keep, before);
    }
  }

  /** A filter keeps the relative order of what it keeps. */
  lemma {:induction false} FilterKeepsSorted<T>(s: seq<T>, keep: T -> bool, before: (T, T) -> bool)
    requires Sorted(s, before)
    ensures Sorted(Filter(s, keep), before)
  {
    if s != [] {
      FilterKeepsSorted(s[1..], keep, before);
      FilterKeepsBound(s[0], s[1..], keep, before);
    }
  }

  /** Places `x` ahead of the first element it may precede. */
  function Insert<T>(x: T, s: seq<T>, before: (T, T) -> bool): (r: seq<T>)
    ensures multiset(r) == multiset(s) + multiset{x}
    ensures |r| == |s| + 1
  {
    if s == [] || before(x, s[0]) then [x] + s
    else
      assert s == [s[0]] + s[1..];
      [s[0]] + Insert(x, s[1..], before)
  }

  /** Insertion sort: a permutation of `s`, sorted whenever `before` is a
      total preorder (`SortIsSorted`). */
  function Sort<T>(s: seq<T>, before: (T, T) -> bool): (r: seq<T>)
    ensures multiset(r) == multiset(s)
    ensures |r| == |s|
  {
    if s == [] then []
    else
      assert s == [s[0]] + s[1..];
      Insert(s[0], Sort(s[1..], before), before)
  }

  lemma {:induction false} InsertKeepsSorted<T(!new)>(x: T, s: seq<T>, before: (T, T) -> bool)
    requires TotalPreorder(before)
    requires Sorted(s, before)
    ensures Sorted(Insert(x, s, before), before)
  {
    if s != [] && !before(x, s[0]) {
      InsertKeepsSorted(x, s[1..], before);
      var rest := Insert(x, s[1..], before);
      assert before(s[0], x);
      forall j | 0 <= j < |rest|
        ensures before(s[0], rest[j])
      {
        assert rest[j] in multiset(rest);
        assert rest[j] == x || rest[j] in s[1..];
      }
    }
  }

  lemma {:induction false} SortIsSorted<T(!new)>(s: seq<T>, before: (T, T) -> bool)
    requires TotalPreorder(before)
    ensures Sorted(Sort(s, before), before)
  {
    if s != [] {
      SortIsSorted(s[1..], before);
      InsertKeepsSorted(s[0], Sort(s[1..], before), before);
    }
  }

  /** Sorting what is already sorted changes nothing. */
  lemma {:induction false} SortOfSorted<T>(s: seq<T>, before: (T, T) -> bool)
    requires Sorted(s, before)
    ensures Sort(s, before) == s
  {
    if s != [] {
      SortOfSorted(s[1..], before);
      assert s == [s[0]] + s[1..];
    }
  }

  /** Sequences with the same multiset hold the same elements. */
  lemma SameElements<T>(a: seq<T>, b: seq<T>)
    requires multiset(a) == multiset(b)
    ensures forall x :: x in a <==> x in b
  {
    forall x
      ensures x in a <==> x in b
    {
      assert x in a <==> x in multiset(a);
      assert x in b <==> x in multiset(b);
    }
  }

  /** The position of the first element satisfying `matches`. */
  function Find<T>(s: seq<T>, matches: T -> bool): (r: Option<nat>)
    ensures r.Some? ==> r.value < |s| && matches(s[r.value])
    ensures r.Some? ==> forall k :: 0 <= k < r.value ==> !matches(s[k])
    ensures r.None? <==> forall k :: 0 <= k < |s| ==> !matches(s[k])
  {
    if s == [] then None
    else if matches(s[0]) then Some(0)
    else match Find(s[1..], matches)
      case None => None
      case Some(k) => Some(k + 1)
  }

  /** `s` without its element at position `i`. */
  function RemoveAt<T>(s: seq<T>, i: nat): (r: seq<T>)
    requires i < |s|
    ensures |r| == |s| - 1
    ensures forall k :: 0 <= k < i ==> r[k] == s[k]
    ensures forall k :: i <= k < |r| ==> r[k] == s[k + 1]
  {
    s[..i] + s[i + 1..]
  }
}

=== FILE: shooting_game.dfy ===
/** The brick game of `Games/ShootingGame/game.js`: six rows of ten bricks
    worth ten points each, coloured by row, three lives, start and pause
    buttons, and a paddle steered by the arrow keys or the mouse. The canvas
    width comes from the page, so it is a parameter here. The ball's flight
    is replaced by the events it causes. */
module ShootingGame {
  import opened Arcade

  const PaddleWidth: real := 80.0
  const PaddleSpeed: real := 7.0

  const Rows: nat := 6
  const Cols: nat := 10
  const BrickWidth: nat := 42
  const BrickHeight: nat := 20
  const BrickPadding: nat := 5
  const OffsetTop: int := 60
  const OffsetLeft: int := 15

  /** What one brick scores. */
  const BrickScore: nat := 10

  /** The score that wins: `rowCount * columnCount * 10`. */
  const WinningScore: int := Rows * Cols * BrickScore

  const StartLives: int := 3

  /** `brickColors`, one per row. */
  const Colors: seq<string> := ["#FF6B6B", "#FF8E53", "#FEE440", "#4ECDC4", "#45B7D1", "#96CEB4"]

  /** The colour `createBricks` gives the brick at `(row, col)`. */
  function ColorOf(row: nat, col: nat): string
    requires row < Rows && col < Cols
  {
    Colors[row]
  }

  /** Colours tell rows apart: two bricks share a colour exactly when they
      share a row. */
  lemma ColorsByRow(row: nat, col: nat, row': nat, col': nat)
    requires row < Rows && col < Cols && row' < Rows && col' < Cols
    ensures ColorOf(row, col) == ColorOf(row', col') <==> row == row'
  {
    if row != row' {
      assert row in {0, 1, 2, 3, 4, 5} && row' in {0, 1, 2, 3, 4, 5};
      assert Colors[row][2] != Colors[row'][2] || Colors[row][3] != Colors[row'][3];
    }
  }

  /** Where `drawBricks` places a standing brick. */
  function BrickX(col: nat): int {
    Edge(col, BrickWidth, BrickPadding, OffsetLeft)
  }

  function BrickY(row: nat): int {
    Edge(row, BrickHeight, BrickPadding, OffsetTop)
  }

  /** Neighbouring bricks are five pixels apart in both directions. */
  lemma BrickLayout(col: nat, col': nat, row: nat, row': nat)
    requires col < col' && row < row'
    ensures BrickX(col) + BrickWidth + BrickPadding <= BrickX(col')
    ensures BrickY(row) + BrickHeight + BrickPadding <= BrickY(row')
    ensures BrickX(0) == 15 && BrickX(Cols - 1) + BrickWidth == 480
  {
    EdgesApart(col, col', BrickWidth, BrickPadding, OffsetLeft);
    EdgesApart(row, row', BrickHeight, BrickPadding, OffsetTop);
  }

  /** The worth of each row's bricks. */
  function Worth(): (w: seq<nat>)
    ensures |w| == Rows && forall i :: 0 <= i < Rows ==> w[i] == BrickScore
  {
    Uniform(Rows, BrickScore)
  }

  /** `createBricks`: every brick standing, worth the winning score in all. */
  function CreateBricks(): (g: Grid)
    ensures Shaped(g, Rows, Cols)
    ensures forall i, j :: 0 <= i < Rows && 0 <= j < Cols ==> IsLive(g, i, j)
    ensures Weighted(g, Worth()) == WinningScore
  {
    WeightedFull(Rows, Cols, Worth());
    SumUniform(Rows, BrickScore);
    Full(Rows, Cols)
  }

  /** The game variables, the paddle and the ball's velocity. */
  datatype State = State(
    score: int, lives: int, gameRunning: bool, gamePaused: bool,
    paddleX: real, paddleDx: real, ballDx: real, ballDy: real,
    bricks: Grid)

  /** The grid keeps its shape, and what has been scored plus what still
      stands is the winning score. */
  predicate Consistent(s: State) {
    Shaped(s.bricks, Rows, Cols) && s.score + Weighted(s.bricks, Worth()) == WinningScore
  }

  /** `update` returns at once unless the game runs unpaused. */
  predicate Active(s: State) {
    s.gameRunning && !s.gamePaused
  }

  /** `resetBall`: the ball heads up at 3 pixels a frame, to the right or to
      the left as a coin toss (`right`) decides. */
  function ResetBall(s: State, right: bool): (t: State)
    ensures t.ballDy == -3.0 && (t.ballDx == 3.0 || t.ballDx == -3.0)
    ensures t.(ballDx := s.ballDx, ballDy := s.ballDy) == s
  {
    s.(ballDx := if right then 3.0 else -3.0, ballDy := -3.0)
  }

  /** `movePaddle`: one keyboard step, kept inside the canvas. */
  function MovePaddle(s: State, canvasWidth: real): (t: State)
    requires PaddleWidth <= canvasWidth
    ensures Active(s) ==> 0.0 <= t.paddleX <= canvasWidth - PaddleWidth
    ensures Active(s) && 0.0 <= s.paddleX + s.paddleDx <= canvasWidth - PaddleWidth ==> t.paddleX == s.paddleX + s.paddleDx
    ensures t == s.(paddleX := t.paddleX) && (!Active(s) ==> t == s)
  {
    if !Active(s) then s
    else s.(paddleX := KeepInside(s.paddleX + s.paddleDx, PaddleWidth, canvasWidth))
  }

  /** `mouseMove`: a pointer strictly inside the canvas centres the paddle
      under it, kept inside the canvas; a pointer outside changes nothing.
      It works whether or not the game runs. */
  function MouseMove(s: State, mouseX: real, canvasWidth: real): (t: State)
    requires PaddleWidth <= canvasWidth
    ensures 0.0 < mouseX < canvasWidth ==> 0.0 <= t.paddleX <= canvasWidth - PaddleWidth
    ensures 0.0 < mouseX < canvasWidth && PaddleWidth / 2.0 <= mouseX <= canvasWidth - PaddleWidth / 2.0 ==>
              t.paddleX + PaddleWidth / 2.0 == mouseX
    ensures t == s.(paddleX := t.paddleX) && (!(0.0 < mouseX < canvasWidth) ==> t == s)
  {
    if 0.0 < mouseX < canvasWidth then s.(paddleX := KeepInside(mouseX - PaddleWidth / 2.0, PaddleWidth, canvasWidth))
    else s
  }

  /** The bottom-wall branch of `moveBall`: one life fewer; at exactly zero
      `gameOver` stops the game, otherwise the ball is reset. */
  function LoseBall(s: State, right: bool): (t: State)
    ensures !Active(s) ==> t == s
    ensures Active(s) ==>
              && t.lives == s.lives - 1
              && (t.lives == 0 ==> t == s.(lives := 0, gameRunning := false))
              && (t.lives != 0 ==> t == ResetBall(s, right).(lives := t.lives))
    ensures t.score == s.score && t.bricks == s.bricks
  {
    if !Active(s) then s
    else if s.lives - 1 == 0 then s.(lives := 0, gameRunning := false)
    else ResetBall(s.(lives := s.lives - 1), right)
  }

  /** One brick of `brickCollision` met by the ball: a standing brick breaks,
      turns the ball back and scores ten, and reaching the winning score stops the game
      (`winGame`); a broken brick is passed over. */
  function HitBrick(s: State, row: int, col: int): (t: State)
    requires Consistent(s)
    ensures Consistent(t)
    ensures !Active(s) || !IsLive(s.bricks, row, col) ==> t == s
    ensures Active(s) && IsLive(s.bricks, row, col) ==>
              && t.bricks == Kill(s.bricks, row, col)
              && t.score == s.score + BrickScore
              && (t.gameRunning <==> t.score != WinningScore)
              && t.ballDy == -s.ballDy
              && t.(score := s.score, bricks := s.bricks, gameRunning := true, ballDy := s.ballDy) == s
  {
    WeightedKill(s.bricks, Worth(), row, col);
    KillKeepsShape(s.bricks, Rows, Cols, row, col);
    if !Active(s) || !IsLive(s.bricks, row, col) then s
    else
      var t := s.(bricks := Kill(s.bricks, row, col), score := s.score + BrickScore, ballDy := -s.ballDy);
      if t.score == WinningScore then t.(gameRunning := false) else t
  }

  /** The score test of `brickCollision` fires exactly when the last brick
      breaks: reaching 600 and clearing the grid are the same thing. */
  lemma WinIffCleared(s: State)
    requires Consistent(s)
    ensures s.score == WinningScore <==> Cleared(s.bricks)
  {
    WeightedZeroIffCleared(s.bricks, Worth());
  }

  /** A brick scores at most once. */
  lemma HitBrickOnce(s: State, row: int, col: int)
    requires Consistent(s)
    ensures HitBrick(HitBrick(s, row, col), row, col) == HitBrick(s, row, col)
  {
  }

  /** `startGame`: starts a stopped game, unpaused; a running game is left
      alone. */
  function Start(s: State): (t: State)
    ensures s.gameRunning ==> t == s
    ensures !s.gameRunning ==> t == s.(gameRunning := true, gamePaused := false)
  {
    if !s.gameRunning then s.(gameRunning := true, gamePaused := false) else s
  }

  /** Starting twice is starting once. */
  lemma StartOnce(s: State)
    ensures Start(Start(s)) == Start(s)
  {
  }

  /** `pauseGame`: flips the pause flag. */
  function Pause(s: State): (t: State)
    ensures t.gamePaused == !s.gamePaused && t.(gamePaused := s.gamePaused) == s
  {
    s.(gamePaused := !s.gamePaused)
  }

  /** Pausing twice restores the state. */
  lemma PauseTwice(s: State)
    ensures Pause(Pause(s)) == s
  {
  }

  /** `resetGame`: stopped and unpaused, score 0, three lives, the ball
      reset, every brick standing and the paddle centred. It also runs 100
      ms after a loss or a win. */
  function Reset(s: State, canvasWidth: real, right: bool): (t: State)
    ensures Consistent(t)
    ensures !t.gameRunning && !t.gamePaused && t.score == 0 && t.lives == StartLives
    ensures t.bricks == CreateBricks() && t.paddleX + PaddleWidth / 2.0 == canvasWidth / 2.0
    ensures t.ballDy == -3.0 && (t.ballDx == 3.0 || t.ballDx == -3.0) && t.paddleDx == s.paddleDx
  {
    ResetBall(s.(gameRunning := false, gamePaused := false, score := 0, lives := StartLives,
                 bricks := CreateBricks(), paddleX := (canvasWidth - PaddleWidth) / 2.0), right)
  }

  function KeyDown(s: State, key: string): (t: State)
    ensures key == "Right" || key == "ArrowRight" ==> t == s.(paddleDx := PaddleSpeed)
    ensures key == "Left" || key == "ArrowLeft" ==> t == s.(paddleDx := -PaddleSpeed)
    ensures key !in {"Right", "ArrowRight", "Left", "ArrowLeft"} ==> t == s
    ensures t.score == s.score && t.bricks == s.bricks
  {
    if key == "Right" || key == "ArrowRight" then s.(paddleDx := PaddleSpeed)
    else if key == "Left" || key == "ArrowLeft" then s.(paddleDx := -PaddleSpeed)
    else s
  }

  function KeyUp(s: State, key: string): (t: State)
    ensures key in {"Right", "ArrowRight", "Left", "ArrowLeft"} ==> t == s.(paddleDx := 0.0)
    ensures key !in {"Right", "ArrowRight", "Left", "ArrowLeft"} ==> t == s
    ensures t.score == s.score && t.bricks == s.bricks
  {
    if key == "Right" || key == "ArrowRight" || key == "Left" || key == "ArrowLeft" then s.(paddleDx := 0.0)
    else s
  }

  /** The inputs the game reacts to; `right` is the coin toss of a ball
      reset. */
  datatype Event =
    | KeyPressed(key: string)
    | KeyReleased(key: string)
    | Mouse(mouseX: real)
    | StartClicked
    | PauseClicked
    | ResetClicked(right: bool)
    | PaddleStep
    | BallLost(right: bool)
    | BrickHit(row: int, col: int)

  function Step(s: State, e: Event, canvasWidth: real): (t: State)
    requires Consistent(s) && PaddleWidth <= canvasWidth
    ensures Consistent(t)
  {
    match e
    case KeyPressed(key) => KeyDown(s, key)
    case KeyReleased(key) => KeyUp(s, key)
    case Mouse(x) => MouseMove(s, x, canvasWidth)
    case StartClicked => Start(s)
    case PauseClicked => Pause(s)
    case ResetClicked(right) => Reset(s, canvasWidth, right)
    case PaddleStep => MovePaddle(s, canvasWidth)
    case BallLost(right) => LoseBall(s, right)
    case BrickHit(row, col) => HitBrick(s, row, col)
  }

  function Run(s: State, events: seq<Event>, canvasWidth: real): (t: State)
    requires Consistent(s) && PaddleWidth <= canvasWidth
    ensures Consistent(t)
    decreases |events|
  {
    if events == [] then s else Run(Step(s, events[0], canvasWidth), events[1..], canvasWidth)
  }

  /** Whatever happens after a reset, the score never passes 600, and it is
      600 exactly when no brick stands. */
  lemma ScoreBound(s: State, canvasWidth: real, right: bool, events: seq<Event>)
    requires PaddleWidth <= canvasWidth
    ensures var t := Run(Reset(s, canvasWidth, right), events, canvasWidth);
            t.score <= WinningScore && (t.score == WinningScore <==> Cleared(t.bricks))
  {
    var t := Run(Reset(s, canvasWidth, right), events, canvasWidth);
    WinIffCleared(t);
  }
}

=== FILE: text.dfy ===
/** String helpers shared by the Django form cleaning, the client-side script and
    the URL tools: white space, trimming, ASCII lower-casing, prefixes and
    JavaScript's `indexOf`. */
module Text {

  /** Whose notion of white space applies: Python's (`str.strip`,
      `str.isspace` and `re`'s `\s`) or JavaScript's (`String.prototype.trim`
      and the `\s` of its regular expressions). */
  datatype Language = Python | JavaScript

  /** The white space both languages agree on: the ASCII controls from tab to
      carriage return, the space, the no-break space, the line and paragraph
      separators, and the other space separators of Unicode. */
  predicate CommonSpace(c: char) {
    || '\t' <= c <= '\r' || c == ' ' || c == '\U{00A0}' || c == '\U{1680}'
    || '\U{2000}' <= c <= '\U{200A}' || c == '\U{2028}' || c == '\U{2029}'
    || c == '\U{202F}' || c == '\U{205F}' || c == '\U{3000}'
  }

  /** Python also counts the information separators U+001C to U+001F and the
      next-line control U+0085; JavaScript also counts the byte-order mark
      U+FEFF. */
  predicate IsSpace(c: char, lang: Language) {
    || CommonSpace(c)
    || (lang == Python && ('\U{1C}' <= c <= '\U{1F}' || c == '\U{0085}'))
    || (lang == JavaScript && c == '\U{FEFF}')
  }

  predicate NoSpace(s: string, lang: Language) {
    forall i :: 0 <= i < |s| ==> !IsSpace(s[i], lang)
  }

  predicate Blank(s: string, lang: Language) {
    forall i :: 0 <= i < |s| ==> IsSpace(s[i], lang)
  }

  /** How many white-space characters `s` starts with. */
  function LeadingSpace(s: string, lang: Language): (n: nat)
    ensures n <= |s|
    ensures forall k :: 0 <= k < n ==> IsSpace(s[k], lang)
    ensures n == |s| || !IsSpace(s[n], lang)
  {
    if s != [] && IsSpace(s[0], lang) then 1 + LeadingSpace(s[1..], lang) else 0
  }

  /** Where the white space `s` ends with begins. */
  function TrailingSpace(s: string, lang: Language): (n: nat)
    ensures n <= |s|
    ensures forall k :: n <= k < |s| ==> IsSpace(s[k], lang)
    ensures n == 0 || !IsSpace(s[n - 1], lang)
  {
    if s != [] && IsSpace(s[|s| - 1], lang) then TrailingSpace(s[..|s| - 1], lang) else |s|
  }

  /** Drops leading white space. */
  function TrimStart(s: string, lang: Language): string {
    s[LeadingSpace(s, lang)..]
  }

  /** Drops trailing white space. */
  function TrimEnd(s: string, lang: Language): string {
    s[..TrailingSpace(s, lang)]
  }

  /** Python's `str.strip()` or JavaScript's `String.prototype.trim()`. */
  function Trim(s: string, lang: Language): string {
    TrimEnd(TrimStart(s, lang), lang)
  }

  /** Trimming leaves a contiguous slice of the input with no white space at
      either end, and removes nothing but white space. */
  lemma TrimIsInnerSlice(s: string, lang: Language)
    ensures exists i, j :: 0 <= i <= j <= |s| && Trim(s, lang) == s[i..j] && Blank(s[..i], lang) && Blank(s[j..], lang)
    ensures Trim(s, lang) == [] || (!IsSpace(Trim(s, lang)[0], lang) && !IsSpace(Trim(s, lang)[|Trim(s, lang)| - 1], lang))
  {
    var i := LeadingSpace(s, lang);
    var t := s[i..];
    var e := TrailingSpace(t, lang);
    var j := i + e;
    assert Trim(s, lang) == s[i..j];
    forall k | 0 <= k < |s| - j
      ensures IsSpace(s[j..][k], lang)
    {
      assert s[j..][k] == t[e + k];
    }
    assert Blank(s[..i], lang) && Blank(s[j..], lang);
    if e > 0 {
      assert Trim(s, lang)[0] == s[i];
      assert Trim(s, lang)[e - 1] == t[e - 1];
    }
  }

  /** One space on each side of a text that neither starts nor ends with
      white space is exactly what trimming removes. */
  lemma TrimPadded(core: string, lang: Language)
    requires core != [] && !IsSpace(core[0], lang) && !IsSpace(core[|core| - 1], lang)
    ensures Trim(" " + core + " ", lang) == core
  {
    var s := " " + core + " ";
    var tail := core + " ";
    assert s[1..] == tail;
    assert LeadingSpace(tail, lang) == 0;
    assert LeadingSpace(s, lang) == 1;
    assert tail[..|core|] == core;
    assert TrailingSpace(tail, lang) == TrailingSpace(core, lang) == |core|;
  }

  /** The text is empty after trimming exactly when it is all white space. */
  lemma TrimEmptyIffBlank(s: string, lang: Language)
    ensures Trim(s, lang) == [] <==> Blank(s, lang)
  {
    var i := LeadingSpace(s, lang);
    var t := s[i..];
    if !Blank(s, lang) {
      var k :| 0 <= k < |s| && !IsSpace(s[k], lang);
      assert k >= i;
      assert t[k - i] == s[k];
      assert TrailingSpace(t, lang) > k - i;
    }
  }

  /** ASCII upper case to lower case; every other character is unchanged. */
  function LowerChar(c: char): char {
    if 'A' <= c <= 'Z' then (c as int + 32) as char else c
  }

  /** JavaScript's `toLowerCase`, restricted to ASCII letters. */
  function Lower(s: string): (r: string)
    ensures |r| == |s|
    ensures forall i :: 0 <= i < |s| ==> r[i] == LowerChar(s[i])
  {
    seq(|s|, i requires 0 <= i < |s| => LowerChar(s[i]))
  }

  /** Lower-casing twice is lower-casing once. */
  lemma LowerIdempotent(s: string)
    ensures Lower(Lower(s)) == Lower(s)
  {
  }

  /** Lower-casing keeps every occurrence of a substring in place. */
  lemma LowerKeepsOccurrence(s: string, q: string, k: int)
    requires OccursAt(s, q, k)
    ensures OccursAt(Lower(s), Lower(q), k)
  {
    var window := Lower(s)[k..k + |q|];
    forall i | 0 <= i < |q|
      ensures window[i] == Lower(q)[i]
    {
      assert q[i] == s[k + i];
    }
  }

  /** Python's `str.startswith`. */
  predicate StartsWith(s: string, prefix: string) {
    |prefix| <= |s| && s[..|prefix|] == prefix
  }

  predicate OccursAt(s: string, q: string, k: int) {
    0 <= k && k + |q| <= |s| && s[k..k + |q|] == q
  }

  /** The first position at or after `from` where `q` occurs in `s`, or -1. */
  function IndexFrom(s: string, q: string, from: nat): (r: int)
    requires from <= |s|
    ensures r == -1 || from <= r <= |s| - |q|
    ensures r >= 0 ==> OccursAt(s, q, r)
    ensures r >= 0 ==> forall k :: from <= k < r ==> !OccursAt(s, q, k)
    ensures r == -1 ==> forall k :: from <= k ==> !OccursAt(s, q, k)
    decreases |s| - from
  {
    if from + |q| > |s| then -1
    else if s[from..from + |q|] == q then from
    else if from == |s| then -1
    else IndexFrom(s, q, from + 1)
  }

  /** JavaScript's `String.prototype.indexOf`: the first occurrence, or -1. */
  function IndexOf(s: string, q: string): (r: int)
    ensures r >= 0 ==> OccursAt(s, q, r) && forall k :: 0 <= k < r ==> !OccursAt(s, q, k)
    ensures r < 0 <==> forall k :: !OccursAt(s, q, k)
  {
    IndexFrom(s, q, 0)
  }

  /** The empty string occurs at the start of every string. */
  lemma EmptyOccursFirst(s: string)
    ensures IndexOf(s, "") == 0
  {
    assert OccursAt(s, "", 0);
  }
}

=== FILE: url_tool.dfy ===
/** The URL helpers of `url_tool.py`: a syntax check by regular expression,
    adding a default scheme, and truncating for display. */
module UrlTool {
  import opened Text

  const Http: string := "http://"
  const Https: string := "https://"

  predicate HasScheme(url: string) {
    StartsWith(url, Http) || StartsWith(url, Https)
  }

  /** The first character after the scheme: `[^\s/$.?#]`. */
  predicate FirstHostChar(c: char) {
    !IsSpace(c, Python) && c != '/' && c != '$' && c != '.' && c != '?' && c != '#'
  }

  /** `https?://` matches the first `n` characters of `url`. */
  predicate SchemeOfLength(url: string, n: int) {
    (n == |Http| && StartsWith(url, Http)) || (n == |Https| && StartsWith(url, Https))
  }

  /** Where `$` may match: at the very end, or just before a final newline. */
  predicate DollarAt(url: string, e: int) {
    e == |url| || (0 <= e && e + 1 == |url| && url[e] == '\n')
  }

  /** `re.match(r'^https?://[^\s/$.?#].[^\s]*$', url)` read off the pattern:
      a scheme of length `n`, one host character, one character other than a
      newline, non-space characters up to `e`, and `$` matching at `e`. */
  ghost predicate UrlPattern(url: string) {
    exists n, e :: SchemeOfLength(url, n) && DollarAt(url, e) && n + 2 <= e
      && FirstHostChar(url[n]) && url[n + 1] != '\n' && NoSpace(url[n + 2..e], Python)
  }

  /** No string starts with both schemes: they differ at their fifth
      character. */
  lemma SchemesExclusive(url: string)
    ensures !(StartsWith(url, Http) && StartsWith(url, Https))
  {
    assert StartsWith(url, Http) ==> url[4] == ':';
    assert StartsWith(url, Https) ==> url[4] == 's';
  }

  /** The length of the scheme `url` starts with, or 0. */
  function SchemeLength(url: string): (n: nat)
    ensures n > 0 <==> HasScheme(url)
    ensures n > 0 ==> SchemeOfLength(url, n)
    ensures forall m :: SchemeOfLength(url, m) ==> m == n
  {
    SchemesExclusive(url);
    if StartsWith(url, Https) then |Https| else if StartsWith(url, Http) then |Http| else 0
  }

  /** `is_valid_url` as written: a direct check of the characters after the
      scheme. */
  function IsValidUrl(url: string): (valid: bool)
    ensures valid ==> HasScheme(url) && |url| >= SchemeLength(url) + 2
  {
    var n := SchemeLength(url);
    && n > 0 && |url| >= n + 2 && FirstHostChar(url[n]) && url[n + 1] != '\n'
    && (NoSpace(url[n + 2..], Python) || (|url| > n + 2 && url[|url| - 1] == '\n' && NoSpace(url[n + 2..|url| - 1], Python)))
  }

  /** A URL the direct check accepts matches the pattern, with `$` at the
      end or before the final newline. */
  lemma ValidUrlHasPattern(url: string)
    requires IsValidUrl(url)
    ensures UrlPattern(url)
  {
    var n := SchemeLength(url);
    var e := if NoSpace(url[n + 2..], Python) then |url| else |url| - 1;
    assert e == |url| ==> url[n + 2..e] == url[n + 2..];
    assert SchemeOfLength(url, n) && DollarAt(url, e) && n + 2 <= e;
    assert FirstHostChar(url[n]) && url[n + 1] != '\n' && NoSpace(url[n + 2..e], Python);
  }

  /** A URL the pattern matches passes the direct check. */
  lemma PatternHasValidUrl(url: string)
    requires UrlPattern(url)
    ensures IsValidUrl(url)
  {
    var n := SchemeLength(url);
    var n', e :| SchemeOfLength(url, n') && DollarAt(url, e) && n' + 2 <= e
      && FirstHostChar(url[n']) && url[n' + 1] != '\n' && NoSpace(url[n' + 2..e], Python);
    assert n' == n && n > 0;
    if e == |url| {
      assert url[n + 2..e] == url[n + 2..];
      assert NoSpace(url[n + 2..], Python);
    } else {
      assert e == |url| - 1 && url[|url| - 1] == '\n' && |url| > n + 2;
      assert NoSpace(url[n + 2..|url| - 1], Python);
    }
  }

  /** The direct check accepts exactly the strings the pattern matches. */
  lemma IsValidUrlMatchesPattern(url: string)
    ensures IsValidUrl(url) <==> UrlPattern(url)
  {
    if IsValidUrl(url) {
      ValidUrlHasPattern(url);
    }
    if UrlPattern(url) {
      PatternHasValidUrl(url);
    }
  }

  /** What a valid URL looks like after its scheme: at least two characters,
      the first a host character and the second not a newline, and after them
      no white space except possibly one final newline. */
  lemma ValidUrlShape(url: string)
    requires IsValidUrl(url)
    ensures var n := SchemeLength(url);
            && SchemeOfLength(url, n) && n + 2 <= |url| && FirstHostChar(url[n]) && url[n + 1] != '\n'
            && forall k :: n + 2 <= k < |url| && IsSpace(url[k], Python) ==> k == |url| - 1 && url[k] == '\n'
  {
    var n := SchemeLength(url);
    forall k | n + 2 <= k < |url| && IsSpace(url[k], Python)
      ensures k == |url| - 1 && url[k] == '\n'
    {
      assert url[k] == url[n + 2..][k - (n + 2)];
    }
  }

  /** As written, a trailing newline passes the check. */
  lemma TrailingNewlineAccepted()
    ensures IsValidUrl("http://ab\n")
  {
    assert StartsWith("http://ab\n", Http);
    SchemesExclusive("http://ab\n");
  }

  /** Python's `\s` covers the information separators `\x1c`–`\x1f`, so a
      URL ending in one fails the check. */
  lemma SeparatorAfterHostRejected()
    ensures !IsValidUrl("http://ab\U{1C}")
    ensures IsValidUrl("http://abc")
  {
    var url := "http://ab\U{1C}";
    SchemesExclusive(url);
    assert url[9] == '\U{1C}';
    assert url[9..] == ['\U{1C}'];
    SchemesExclusive("http://abc");
  }

  /** The check the docstring describes: the whole string matches the
      pattern, as `re.fullmatch` (or `\Z`) would require. */
  function IsValidUrlStrict(url: string): (valid: bool)
    ensures valid ==> HasScheme(url) && |url| >= SchemeLength(url) + 2
  {
    var n := SchemeLength(url);
    n > 0 && |url| >= n + 2 && FirstHostChar(url[n]) && url[n + 1] != '\n' && NoSpace(url[n + 2..], Python)
  }

  /** The corrected check is the original one minus the strings ending in a
      newline, and it admits no white space from the third character after
      the scheme on. */
  lemma StrictIsValidWithoutNewline(url: string)
    ensures IsValidUrlStrict(url) <==> IsValidUrl(url) && !(|url| > 0 && url[|url| - 1] == '\n')
    ensures IsValidUrlStrict(url) ==> forall k :: SchemeLength(url) + 2 <= k < |url| ==> !IsSpace(url[k], Python)
  {
    var n := SchemeLength(url);
    if IsValidUrlStrict(url) {
      var tail := url[n + 2..];
      if |url| > n + 2 {
        assert url[|url| - 1] == tail[|tail| - 1];
      }
      forall k | n + 2 <= k < |url|
        ensures !IsSpace(url[k], Python)
      {
        assert url[k] == tail[k - (n + 2)];
      }
    }
    if IsValidUrl(url) && !(|url| > 0 && url[|url| - 1] == '\n') && |url| > n + 2 {
      var tail := url[n + 2..];
      assert url[|url| - 1] == tail[|tail| - 1];
    }
  }

  /** The corrected check refuses the string the original accepts. */
  lemma StrictRefusesTrailingNewline()
    ensures !IsValidUrlStrict("http://ab\n")
    ensures IsValidUrlStrict("http://ab")
  {
    assert StartsWith("http://ab\n", Http);
    SchemesExclusive("http://ab\n");
    assert IsSpace("http://ab\n"[9..][0], Python);
    assert StartsWith("http://ab", Http);
    SchemesExclusive("http://ab");
    assert NoSpace("http://ab"[9..], Python);
  }

  /** `format_url`: a URL with either scheme is kept; anything else gets
      `https://` in front. */
  function FormatUrl(url: string): (r: string)
    ensures HasScheme(r)
    ensures |r| >= |url| && r[|r| - |url|..] == url
    ensures HasScheme(url) <==> r == url
  {
    if !StartsWith(url, Http) && !StartsWith(url, Https) then Https + url
    else url
  }

  /** Formatting twice is formatting once. */
  lemma FormatUrlIdempotent(url: string)
    ensures FormatUrl(FormatUrl(url)) == FormatUrl(url)
  {
  }

  /** A bare host name with no white space, given a scheme by `format_url`,
      passes `is_valid_url`. */
  lemma FormattedHostIsValid(host: string)
    requires |host| >= 2 && FirstHostChar(host[0]) && NoSpace(host, Python) && !HasScheme(host)
    ensures IsValidUrl(FormatUrl(host))
  {
    var url := FormatUrl(host);
    assert url == Https + host;
    assert StartsWith(url, Https);
    assert url[8..] == host;
  }

  /** Python's `url[:length]`: a negative bound counts from the end. */
  function Head(url: string, length: int): (r: string)
    ensures |r| <= |url| && r == url[..|r|]
    ensures length >= 0 ==> |r| == if length < |url| then length else |url|
    ensures length < 0 ==> |r| == if |url| + length > 0 then |url| + length else 0
  {
    if length >= 0 then (if length < |url| then url[..length] else url)
    else if |url| + length > 0 then url[..|url| + length]
    else []
  }

  /** The default `length` of `shorten_url`. */
  const DefaultLength: int := 20

  /** `shorten_url`: a URL no longer than `length` is kept; a longer one is
      cut to its first `length` characters followed by `...`. */
  function ShortenUrl(url: string, length: int): (r: string)
    ensures |url| <= length ==> r == url
    ensures |url| > length ==> r == Head(url, length) + "..."
    ensures |url| > length && length >= 0 ==> |r| == length + 3 && r[..length] == url[..length] && r[length..] == "..."
  {
    if |url| > length then Head(url, length) + "..." else url
  }

  /** Shortening what is already shortened changes nothing, for any
      non-negative length. */
  lemma ShortenUrlIdempotent(url: string, length: int)
    requires length >= 0
    ensures ShortenUrl(ShortenUrl(url, length), length) == ShortenUrl(url, length)
  {
    if |url| > length {
      var once := ShortenUrl(url, length);
      assert Head(once, length) == url[..length];
    }
  }

  /** With the default length the result is never longer than 23 characters. */
  lemma ShortenDefaultBound(url: string)
    ensures |ShortenUrl(url, DefaultLength)| <= DefaultLength + 3
    ensures |url| > DefaultLength ==> |ShortenUrl(url, DefaultLength)| == 23
  {
  }
}

=== FILE: users.dfy ===
/** The sign-up form of the Memo project (`UserRegisterForm`): a required
    e-mail address that no existing user has, a user name of at least three
    characters that no existing user has, and a password typed twice. */
module Registration {
  import opened Optional
  import opened Text
  import opened Forms
  import opened Access

  /** The form's fields, in order. */
  const RegisterFields: seq<string> := ["username", "email", "password1", "password2"]

  /** The `max_length` of the user model's `username` column. */
  const UsernameMaxLength: nat := 150

  const UsernameMinLength: nat := 3

  predicate UsernameTaken(username: string, existing: seq<Account>) {
    exists k :: 0 <= k < |existing| && existing[k].username == username
  }

  predicate EmailTaken(email: string, existing: seq<Account>) {
    exists k :: 0 <= k < |existing| && existing[k].email == email
  }

  /** `clean_username`, applied to the value the field has already cleaned:
      first the minimum length, then uniqueness; an accepted name is returned
      as it came. */
  function CheckUsername(username: string, existing: seq<Account>): (r: Checked<string>)
    ensures r.Accept? <==> |username| >= UsernameMinLength && !UsernameTaken(username, existing)
    ensures r.Accept? ==> r.value == username
    ensures |username| < UsernameMinLength ==> r == Reject(TooShort(UsernameMinLength))
    ensures |username| >= UsernameMinLength && UsernameTaken(username, existing) ==> r == Reject(AlreadyTaken)
  {
    if |username| < UsernameMinLength then Reject(TooShort(UsernameMinLength))
    else if exists k :: 0 <= k < |existing| && existing[k].username == username then Reject(AlreadyTaken)
    else Accept(username)
  }

  /** A short name that is also taken reports its length, not its owner. */
  lemma ShortTakenReportsLength(existing: seq<Account>, k: nat)
    requires k < |existing| && |existing[k].username| < UsernameMinLength
    ensures CheckUsername(existing[k].username, existing) == Reject(TooShort(UsernameMinLength))
    ensures UsernameTaken(existing[k].username, existing)
  {
  }

  /** `clean_email`, applied to the value the field has already cleaned: no
      existing user may have it; otherwise it is returned as it came. */
  function CheckEmail(email: string, existing: seq<Account>): (r: Checked<string>)
    ensures r.Accept? <==> !EmailTaken(email, existing)
    ensures r.Accept? ==> r.value == email
    ensures r.Reject? ==> r.error == AlreadyTaken
  {
    if exists k :: 0 <= k < |existing| && existing[k].email == email then Reject(AlreadyTaken)
    else Accept(email)
  }

  /** The user name field: a required stripped text of at most 150
      characters, then `clean_username`. */
  function CleanUsername(data: FormData, existing: seq<Account>): (r: Checked<string>)
    ensures r.Accept? <==>
              && CharField(data, "username", Some(UsernameMaxLength)).Accept?
              && CheckUsername(Trim(Raw(data, "username"), Python), existing).Accept?
    ensures r.Accept? ==> r.value == Trim(Raw(data, "username"), Python) && !UsernameTaken(r.value, existing)
    ensures Blank(Raw(data, "username"), Python) ==> r == Reject(Required)
  {
    match CharField(data, "username", Some(UsernameMaxLength))
    case Reject(e) => Reject(e)
    case Accept(name) => CheckUsername(name, existing)
  }

  /** The e-mail field (`required=True`): a non-blank stripped value free of
      null characters that the address syntax check `wellFormed` accepts,
      then `clean_email`. */
  function CleanEmail(data: FormData, existing: seq<Account>, wellFormed: string -> bool): (r: Checked<string>)
    ensures r.Accept? <==>
              && !Blank(Raw(data, "email"), Python)
              && Null !in Trim(Raw(data, "email"), Python)
              && wellFormed(Trim(Raw(data, "email"), Python))
              && !EmailTaken(Trim(Raw(data, "email"), Python), existing)
    ensures r.Accept? ==> r.value == Trim(Raw(data, "email"), Python)
    ensures Blank(Raw(data, "email"), Python) ==> r == Reject(Required)
  {
    match CharField(data, "email", None)
    case Reject(e) => Reject(e)
    case Accept(email) =>
      if !wellFormed(email) then Reject(Malformed)
      else CheckEmail(email, existing)
  }

  /** The confirmation field as `UserCreationForm` cleans it: its own field
      check, then `clean_password2` (a mismatch with an accepted first
      password), then the password validators, given as `strong`, on the
      confirmation. */
  function CleanConfirmation(data: FormData, strong: string -> bool): (r: Checked<string>)
    ensures r.Accept? <==>
              && PasswordField(data, "password2").Accept?
              && (PasswordField(data, "password1").Accept? ==> Raw(data, "password1") == Raw(data, "password2"))
              && strong(Raw(data, "password2"))
    ensures r.Accept? ==> r.value == Raw(data, "password2")
    ensures && PasswordField(data, "password1").Accept? && PasswordField(data, "password2").Accept?
            && Raw(data, "password1") != Raw(data, "password2")
            ==> r == Reject(PasswordMismatch)
    ensures PasswordField(data, "password2").Accept? && !strong(Raw(data, "password2")) ==> r.Reject?
  {
    var first := PasswordField(data, "password1");
    match PasswordField(data, "password2")
    case Reject(e) => Reject(e)
    case Accept(second) =>
      if first.Accept? && first.value != second then Reject(PasswordMismatch)
      else if !strong(second) then Reject(WeakPassword)
      else Accept(second)
  }

  /** What an accepted registration stores. */
  datatype Registered = Registered(username: string, email: string, password: string)

  /** The error map of the sign-up form: every entry is under one of the
      form's field names, and a failed confirmation reports its own error. */
  function RegistrationErrors(username: Checked<string>, email: Checked<string>,
                              first: Checked<string>, second: Checked<string>): (e: Errors)
    ensures forall k :: k in e ==> k in RegisterFields
    ensures second.Reject? ==> "password2" in e && e["password2"] == second.error
  {
    var u := ErrorOf("username", username);
    var m := ErrorOf("email", email);
    var p := ErrorOf("password1", first);
    var q := ErrorOf("password2", second);
    assert forall k :: k in u ==> k == RegisterFields[0];
    assert forall k :: k in m ==> k == RegisterFields[1];
    assert forall k :: k in p ==> k == RegisterFields[2];
    assert forall k :: k in q ==> k == RegisterFields[3];
    u + m + p + q
  }

  /** The whole form: it succeeds exactly when the four fields clean, and
      every failing field reports its own error. */
  function CleanRegistration(data: FormData, existing: seq<Account>, wellFormed: string -> bool, strong: string -> bool): (r: Response<Registered>)
    ensures r.Ok? <==>
              && CleanUsername(data, existing).Accept?
              && CleanEmail(data, existing, wellFormed).Accept?
              && PasswordField(data, "password1").Accept?
              && CleanConfirmation(data, strong).Accept?
    ensures r.Ok? ==> r.value == Registered(CleanUsername(data, existing).value, CleanEmail(data, existing, wellFormed).value, Raw(data, "password1"))
    ensures r.Ok? ==> Raw(data, "password1") == Raw(data, "password2") && strong(r.value.password)
    ensures r.Err? ==> r.denial.InvalidForm?
    ensures r.Err? ==> forall k :: k in r.denial.errors ==> k in RegisterFields
    ensures r.Err? && CleanConfirmation(data, strong).Reject? ==>
              "password2" in r.denial.errors && r.denial.errors["password2"] == CleanConfirmation(data, strong).error
  {
    var username := CleanUsername(data, existing);
    var email := CleanEmail(data, existing, wellFormed);
    var first := PasswordField(data, "password1");
    var second := CleanConfirmation(data, strong);
    if username.Accept? && email.Accept? && first.Accept? && second.Accept? then
      Ok(Registered(username.value, email.value, first.value))
    else
      Err(InvalidForm(RegistrationErrors(username, email, first, second)))
  }

  /** Two accepted passwords that differ fail the registration, and the
      confirmation field says why. */
  lemma MismatchReported(data: FormData, existing: seq<Account>, wellFormed: string -> bool, strong: string -> bool)
    requires PasswordField(data, "password1").Accept? && PasswordField(data, "password2").Accept?
    requires Raw(data, "password1") != Raw(data, "password2")
    ensures var r := CleanRegistration(data, existing, wellFormed, strong);
            r.Err? && "password2" in r.denial.errors && r.denial.errors["password2"] == PasswordMismatch
  {
  }

  /** Once a registration is stored, the same user name and address are
      refused to anyone who submits them again. */
  lemma RegisteredNamesAreTaken(data: FormData, existing: seq<Account>, wellFormed: string -> bool, strong: string -> bool, id: UserId)
    requires CleanRegistration(data, existing, wellFormed, strong).Ok?
    ensures var user := CleanRegistration(data, existing, wellFormed, strong).value;
            var after := existing + [Account(id, user.username, user.email)];
            && !UsernameTaken(user.username, existing) && !EmailTaken(user.email, existing)
            && CleanRegistration(data, after, wellFormed, strong).Err?
            && CheckUsername(user.username, after) == Reject(AlreadyTaken)
            && CheckEmail(user.email, after) == Reject(AlreadyTaken)
  {
    var user := CleanRegistration(data, existing, wellFormed, strong).value;
    var after := existing + [Account(id, user.username, user.email)];
    assert after[|existing|].username == user.username;
    assert after[|existing|].email == user.email;
  }
}
